=== FILE: README.md ===
# BankSystemAPI: money movement and account lifecycle

A Dafny model of the banking back end BankSystemAPI (an ASP.NET Core Web API). Clients register,
log in, open and close accounts, transfer money and pay entities. Administrators change user
roles, activate and deactivate users, and read aggregates.

The model is functional. The whole store is one immutable `Bank.BankState` with one append-only
sequence per table (users, accounts, movements, transfers, payments, notifications, access logs
and user–permission links). The row at position `i` carries key `i + 1`, as the identity columns
do; the controllers never delete a row. Each controller action is a pure function. It returns
`Err(e)` for every refusal, in the controller's order, or `Ok(s')` with the new store. A refusal
carries no store, so "a failed request changes nothing" holds by construction. Login is the one
exception: it writes an access log even when it fails, so it returns the new store together with
the response.

Throughout the model:

- Amounts are exact decimals (`real`).
- Times are whole seconds, and the clock is a parameter `now`.
- Automatic model validation of the request body (`Err(Invalid)`, 400) runs before the
  controller's own checks.
- String widths (`[StringLength]`, `nvarchar(n)` columns) are `Text.Width`: .NET's
  `String.Length`, the number of UTF-16 code units. A character outside the Basic Multilingual
  Plane, such as an emoji, counts twice.
- A save the relational store refuses, because of a unique index, a column length or a foreign
  key, is `Err(StoreRejected)` (500, nothing saved).

The main invariant is `Bank.WellFormed`. It collects:

- the column constraints of every row;
- the IBAN, e-mail, NIF and card unique indexes;
- the foreign keys;
- the composite key of the permission links;
- the ledger: every balance equals the credits minus the debits of its movements.

Every mutating action preserves `WellFormed` from any well-formed store. `Api.RunPreservesWellFormed`
lifts this to any sequence of requests, and `Api.Reachable` to any sequence starting from an empty
store. `Api.Step` answers each request as the controllers are written, including the login of
the first finding below.

`WellFormed` accepts an access log without a user, because the corrected login (`Auth.Login`)
writes one. The controllers as written never store such a log: `Api.ReachableLogsNameUsers`
proves this for every reachable store.

No request brings money into the bank. Accounts open at 0, a transfer moves money between
accounts, and a payment only takes it out. Both need a balance of at least 0.01, so
`Api.ReachableHoldsNoMoney` shows that every store reachable from an empty one holds no money
and no movement. Balances therefore come from outside the API, for example from a database
seeded by other means. The transfer, payment, ledger and statement lemmas assume only a
well-formed store, so they cover such seeded stores.

Modules, one file each:

| file | module | contents |
|---|---|---|
| common.dfy | `Common` | money, time, keys, `Option`, `Result`, the error taxonomy and its HTTP status |
| seqs.dfy | `Seqs` | filtering, summing, indexing and the sort used by every ordered listing (`OrderByDescending`) |
| text.dfy | `Text` | UTF-16 widths, `[Required]`, `[EmailAddress]`, digit strings, substring search, decimal rendering of naturals |
| entities.dfy | `Entities` | one datatype per table, column constraints, notification titles |
| bank.dfy | `Bank` | the store, lookups, the ledger, `WellFormed` |
| transfers.dfy | `Transfers` | `TransferenciaController` |
| payments.dfy | `Payments` | `PagamentoController` |
| accounts.dfy | `Accounts` | `ContaBancariaController`, IBAN generation |
| statements.dfy | `Statements` | `MovimentoController` |
| admin.dfy | `Admin` | `AdminController`: role change, toggle, aggregates, statistics, search |
| profiles.dfy | `Profiles` | `UserController.UpdateMyProfile` |
| notifications.dfy | `Notifications` | notification listings and marking as read (`UserController`, `NotificacaoController`) |
| auth.dfy | `Auth` | `AuthController`: registration, login, and login as written (see Findings) |
| api.dfy | `Api` | every request in sequence; reachable stores are well-formed |

## Model

All paths are under `BankSystemAPI/`.

| member | source | states |
|---|---|---|
| Common.HttpStatus | BankSystemAPI/Controllers/ContaBancariaController.cs:130-137 | A missing resource is answered 404, a refused save 500, and every other refusal 400. |
| Text.WidthBounds | BankSystemAPI/Models/Utilizador.cs:74-75 | `String.Length` counts UTF-16 code units: never fewer than the characters, at most twice as many. |
| Text.NarrowWidth | BankSystemAPI/Models/ContaBancaria.cs:17-18 | A string of Basic Multilingual Plane characters, such as an IBAN, is exactly as wide as it is long. |
| Text.WidthConcat | BankSystemAPI/Controllers/PagamentoController.cs:48 | The width of a concatenation is the sum of the widths. |
| Text.SurrogatePairWidth | BankSystemAPI/Models/Utilizador.cs:74-75 | A character outside the Basic Multilingual Plane is one character but two code units. |
| Text.DigitStringIsWidth | BankSystemAPI/Models/Utilizador.cs:81-88 | A digits-only string has width `n` exactly when it has `n` characters, so the NIF and card bounds can be read in characters. |
| Auth.WidePasswordAccepted | BankSystemAPI/Models/Utilizador.cs:74-75 | A password of three emoji is three characters but six code units, so the six-unit minimum accepts it. |
| Entities.ParseMovementKind | BankSystemAPI/Models/Movimento.cs:16-18 | Only "Credito" and "Debito" name a movement type; a parsed kind's name is the input. |
| Entities.MovementKindRoundTrip | BankSystemAPI/Models/Movimento.cs:16-18 | Parsing the name of a movement type gives that type back. |
| Entities.ParseRole | BankSystemAPI/Models/Utilizador.cs:30-32 | Only "Cliente" and "Administrador" name a role. |
| Entities.RoleRoundTrip | BankSystemAPI/Models/Utilizador.cs:30-32 | Parsing the name of a role gives that role back. |
| Entities.Notice | BankSystemAPI/Models/Notificacao.cs:13-26 | A new notification belongs to the given user, is unread, and has a non-empty title of at most 100 UTF-16 code units. |
| Bank.FindAccount | BankSystemAPI/Controllers/TransferenciaController.cs:27-28 | `FirstOrDefault` over accounts: the first account with that IBAN (and that owner, when one is given); none exactly when no account matches. |
| Bank.FindUserByEmail | BankSystemAPI/Controllers/AuthController.cs:80 | `FirstOrDefault` over users: the first user with that e-mail, since no earlier user has it; none exactly when no user has it. |
| Bank.NetAppend | BankSystemAPI/Controllers/TransferenciaController.cs:50-71 | Appending a movement changes the net of its own account by its signed amount and of no other account. |
| Bank.WellFormedBalances | BankSystemAPI/Models/ContaBancaria.cs:25-26 | In a well-formed store no balance is negative. |
| Bank.EmptyWellFormed | BankSystemAPI/Models/BankContext.cs:23-72 | The empty store satisfies every key and column constraint. |
| Bank.UniqueIbanLocates | BankSystemAPI/Models/BankContext.cs:53-56 | Under the unique IBAN index, the lookup by IBAN finds the one account that has it. |
| Transfers.Post | BankSystemAPI/Controllers/TransferenciaController.cs:50-99 | The whole write set of a transfer: the source balance drops and the destination balance rises by the amount, with no other account field changed; a Debito on the source and a Credito on the destination (with the default descriptions); one transfer record; one notification to the caller and one to the destination's owner; nothing else. |
| Transfers.Execute | BankSystemAPI/Controllers/TransferenciaController.cs:22-112 | Validation, then source owned by the caller, source active, destination exists, destination active, enough balance, in that order; then the store refuses a movement description wider than 250 UTF-16 code units. Success implies every guard held and the write set of `Post`. |
| Transfers.DescriptionsFitColumns | BankSystemAPI/Controllers/TransferenciaController.cs:59-67 | The transfer's width guard holds exactly when both movement descriptions, the given one or "Transferência para {IBAN}" and "Transferência de {IBAN}", are at most 250 UTF-16 code units wide. |
| Transfers.TransferRefusals | BankSystemAPI/Controllers/TransferenciaController.cs:37-47 | Once the source passes, an unknown destination gives DestinationNotFound, an inactive one DestinationInactive, and otherwise the balance decides. |
| Transfers.TransferExactBalance | BankSystemAPI/Controllers/TransferenciaController.cs:46-50 | With both accounts active, the transfer succeeds iff the source balance is at least the amount. When source and destination are distinct accounts, a balance equal to the amount leaves the source at exactly 0. |
| Transfers.TransferConservesMoney | BankSystemAPI/Controllers/TransferenciaController.cs:46-51 | A successful transfer leaves the total of all balances, and the sum of the two balances, unchanged. |
| Transfers.TransferKeepsBalancesNonNegative | BankSystemAPI/Controllers/TransferenciaController.cs:46-51 | If no balance was negative before, none is after. |
| Transfers.SelfTransfer | BankSystemAPI/Controllers/TransferenciaController.cs:28-51 | A transfer to the same IBAN is not refused for that reason. It leaves every balance as it was and still records two movements. |
| Transfers.TransferKeepsLedger | BankSystemAPI/Controllers/TransferenciaController.cs:50-71 | The two balance updates match the two movements, so every balance stays the net of its movements. |
| Transfers.TransferKeepsAccountsOk | BankSystemAPI/Controllers/TransferenciaController.cs:50-56 | The two balance updates leave every account row valid and the IBANs unique. |
| Transfers.TransferKeepsMovementsOk | BankSystemAPI/Controllers/TransferenciaController.cs:58-83 | The two movements and the transfer record name existing accounts, carry at least 0.01, and their descriptions fit. |
| Transfers.TransferKeepsNotificationsOk | BankSystemAPI/Controllers/TransferenciaController.cs:85-99 | Both notifications go to stored users: the caller and the destination's owner. |
| Transfers.TransferPreservesWellFormed | BankSystemAPI/Controllers/TransferenciaController.cs:50-101 | A transfer keeps the store well-formed. |
| Transfers.MyTransfers | BankSystemAPI/Controllers/TransferenciaController.cs:119-123 | Exactly the transfers whose source or destination account belongs to the caller, newest first, each once. |
| Payments.PaymentDescriptionFits | BankSystemAPI/Controllers/PagamentoController.cs:48 | The payment's movement description always fits its 250-unit column: entity and reference are bounded in UTF-16 code units, and widths add up. |
| Payments.Execute | BankSystemAPI/Controllers/PagamentoController.cs:22-82 | Validation (entity at most 150 and reference at most 50 UTF-16 code units), then account owned by the caller, account active, enough balance, in that order. On success only that account's balance changes, down by the amount; one Debito movement "Pagamento a {entity} - Ref: {reference}", one payment record with the same account, entity, reference and amount, and one notification to the caller are appended. |
| Payments.PaymentSucceedsIff | BankSystemAPI/Controllers/PagamentoController.cs:27-37 | A payment succeeds iff the request is valid (widths in UTF-16 code units) and the caller's account with that IBAN exists, is active and holds at least the amount. |
| Payments.PaymentDebitsExactly | BankSystemAPI/Controllers/PagamentoController.cs:36-40 | The total of all balances drops by exactly the amount, and no balance becomes negative. |
| Payments.PaymentKeepsLedger | BankSystemAPI/Controllers/PagamentoController.cs:40-50 | The debit matches the appended movement, so every balance stays the net of its movements. |
| Payments.PaymentPreservesWellFormed | BankSystemAPI/Controllers/PagamentoController.cs:40-71 | A payment keeps the store well-formed. |
| Payments.MyPayments | BankSystemAPI/Controllers/PagamentoController.cs:89-92 | Exactly the payments on the caller's accounts, newest first, each once. |
| Accounts.ParseIban | BankSystemAPI/Controllers/ContaBancariaController.cs:156-160 | Reads the five draws back out of a string; it succeeds exactly on "PT50" followed by 19 digits. |
| Accounts.IbanLayout | BankSystemAPI/Controllers/ContaBancariaController.cs:156-160 | For in-range draws the IBAN is 23 characters: "PT50", then the four 4-digit draws and the 3-digit draw at fixed positions. |
| Accounts.IbanShape | BankSystemAPI/Controllers/ContaBancariaController.cs:156-160 | For in-range draws the IBAN is "PT50" followed by digits only, and fits the 34-unit column. |
| Accounts.IbanRoundTrip | BankSystemAPI/Controllers/ContaBancariaController.cs:156-160 | For draws in the generator's ranges, the IBAN is 23 characters ("PT50" and digits), fits the 34-unit column, and parses back to the same draws. |
| Accounts.IbanInjective | BankSystemAPI/Controllers/ContaBancariaController.cs:156-160 | Different in-range draws give different IBANs. |
| Accounts.NewAccount | BankSystemAPI/Controllers/ContaBancariaController.cs:50-57 | A new account belongs to the caller, has balance 0, is active, and has no closure date. |
| Accounts.Open | BankSystemAPI/Controllers/ContaBancariaController.cs:42-81 | A blank type is refused. An IBAN already in use, or a type wider than 50 UTF-16 code units, is refused by the store. Otherwise exactly one account and one notification to the caller are added. |
| Accounts.OpenSucceedsIff | BankSystemAPI/Controllers/ContaBancariaController.cs:42-81 | Opening succeeds iff the type is given, is at most 50 UTF-16 code units wide, and the generated IBAN is unused. |
| Accounts.OpenedAccount | BankSystemAPI/Controllers/ContaBancariaController.cs:50-62 | The opened account is the caller's, holds 0, has no movements, and has a well-formatted IBAN. |
| Accounts.OpenedAccountFound | BankSystemAPI/Controllers/ContaBancariaController.cs:50-62 | The caller's lookup by the generated IBAN finds the opened account, which is the new last row. |
| Accounts.OpenPreservesWellFormed | BankSystemAPI/Controllers/ContaBancariaController.cs:50-70 | Opening keeps the store well-formed. |
| Accounts.Close | BankSystemAPI/Controllers/ContaBancariaController.cs:125-154 | NotFound unless the caller owns an account with that IBAN; BalanceNotZero unless its balance is exactly 0; otherwise it becomes closed with a closure date, and the caller is notified. |
| Accounts.CloseSucceedsIff | BankSystemAPI/Controllers/ContaBancariaController.cs:130-137 | Closing succeeds iff the caller's account with that IBAN exists and holds exactly 0. |
| Accounts.CloseChangesOnlyState | BankSystemAPI/Controllers/ContaBancariaController.cs:139-141 | Closing changes only the state and the closure date of that account. No other account, no movement and no balance total changes. |
| Accounts.CloseAgain | BankSystemAPI/Controllers/ContaBancariaController.cs:136-141 | The state is not checked, so closing a closed account again succeeds and only moves its closure date. |
| Accounts.ClosePreservesWellFormed | BankSystemAPI/Controllers/ContaBancariaController.cs:139-151 | Closing keeps the store well-formed. |
| Accounts.MyAccounts | BankSystemAPI/Controllers/ContaBancariaController.cs:26-27 | Exactly the caller's active accounts, each once. |
| Accounts.BalanceOf | BankSystemAPI/Controllers/ContaBancariaController.cs:83-95 | NotFound iff the caller has no account with that IBAN; otherwise the balance of the caller's account with it. |
| Accounts.BalanceIsNet | BankSystemAPI/Controllers/MovimentoController.cs:147-159 | Under the ledger invariant, the balance read is the net of the account's movements. |
| Statements.ByAccount | BankSystemAPI/Controllers/MovimentoController.cs:21-48 | NotFound iff the IBAN is not the caller's; otherwise exactly that account's movements, newest first, each once. |
| Statements.ByPeriod | BankSystemAPI/Controllers/MovimentoController.cs:50-83 | Exactly the movements on the caller's accounts dated within the inclusive window, newest first, each once. |
| Statements.EmptyPeriod | BankSystemAPI/Controllers/MovimentoController.cs:63-66 | A window whose end lies before its start lists nothing. |
| Statements.ByKind | BankSystemAPI/Controllers/MovimentoController.cs:85-119 | Any type other than "Credito" or "Debito" is refused; otherwise exactly the caller's movements of that type, newest first, each once. |
| Statements.Mine | BankSystemAPI/Controllers/MovimentoController.cs:222-250 | Exactly the movements on the caller's accounts, newest first, each once. |
| Statements.KindsPartitionMine | BankSystemAPI/Controllers/MovimentoController.cs:91-102 | The credit and debit listings together cover the caller's movements, and no movement is in both. |
| Statements.Detail | BankSystemAPI/Controllers/MovimentoController.cs:121-145 | A movement is shown iff it exists and its account belongs to the caller; otherwise NotFound. |
| Statements.DetailAgreesWithMine | BankSystemAPI/Controllers/MovimentoController.cs:128-142 | The detail succeeds iff that movement is in the caller's full listing. |
| Statements.WindowRows | BankSystemAPI/Controllers/MovimentoController.cs:179-193 | Exactly the account's movements inside the inclusive window, newest first, each once. |
| Statements.Report | BankSystemAPI/Controllers/MovimentoController.cs:179-205 | A statement lists exactly the window's rows. Its credit total is the total of the account's credits dated inside the window, and its debit total that of its debits, each taken over the table independently of the listing. Credits minus debits is the signed net of the window, and the opening balance plus credits minus debits is the closing balance. |
| Statements.WindowKindTotal | BankSystemAPI/Controllers/MovimentoController.cs:179-202 | Whatever the listing's order, the window's rows of one type add up to that type's total for the account inside the window. |
| Statements.WindowCredits | BankSystemAPI/Controllers/MovimentoController.cs:196-198 | `TotalCreditos` is the total of the account's credits dated inside the window. |
| Statements.WindowDebits | BankSystemAPI/Controllers/MovimentoController.cs:200-202 | `TotalDebitos` is the total of the account's debits dated inside the window. |
| Statements.WindowStatement | BankSystemAPI/Controllers/MovimentoController.cs:169-173 | NotFound iff the caller owns no account with that IBAN. |
| Statements.StatementOfAccount | BankSystemAPI/Controllers/MovimentoController.cs:169-205 | For the caller's account, the statement is its report closing at the account's current balance. |
| Statements.Statement | BankSystemAPI/Controllers/MovimentoController.cs:161-177 | NotFound iff the IBAN is not the caller's. A missing start defaults to 30 days before now, and a missing end to now. |
| Statements.NetSplitsAtWindow | BankSystemAPI/Controllers/MovimentoController.cs:196-205 | When no movement is dated after the window, an account's net splits into the net before the window plus the net inside it. |
| Statements.WindowTotals | BankSystemAPI/Controllers/MovimentoController.cs:196-202 | The credit and debit sums over the window's rows differ by the net of the window, whatever the listing's order. |
| Statements.ReportOpeningIsHistoric | BankSystemAPI/Controllers/MovimentoController.cs:204-205 | When nothing on the account is dated after the window and the closing balance is the account's net, the derived opening balance is the net of everything before the window. |
| Statements.NetAroundInstant | BankSystemAPI/Controllers/MovimentoController.cs:204 | An account's net is the net up to an instant plus the net after it. |
| Statements.NetBeforeWindowEnd | BankSystemAPI/Controllers/MovimentoController.cs:179-182 | The net up to the window's end is the net before the window plus the net inside it. |
| Statements.ReportDrift | BankSystemAPI/Controllers/MovimentoController.cs:204-205 | With the closing balance at the account's net, both reported balances exceed the balances at the window's bounds by the net of every movement dated after the window. |
| Statements.StatementDriftExample | BankSystemAPI/Controllers/MovimentoController.cs:161-220 | A concrete store where the statement of a quiet past window reports 10 and 10, while the account held 0 at both bounds. |
| Statements.HistoricWindowStatement | BankSystemAPI/Controllers/MovimentoController.cs:169-173 | The corrected statement is NotFound iff the caller owns no account with that IBAN. |
| Statements.HistoricOfAccount | BankSystemAPI/Controllers/MovimentoController.cs:169-205 | For the caller's account, the corrected statement is its report closing at its balance at the window's end. |
| Statements.HistoricStatement | BankSystemAPI/Controllers/MovimentoController.cs:161-177 | The corrected statement refuses exactly when the controller's does, with NotFound. |
| Statements.HistoricCorrectsStatement | BankSystemAPI/Controllers/MovimentoController.cs:179-205 | The corrected statement has the same window, rows and totals as the controller's. Both of its balances are lower by the net of the account's movements after the window. |
| Statements.ReportAtBounds | BankSystemAPI/Controllers/MovimentoController.cs:204-205 | With the closing balance at the account's net less what came after the window, the opening and closing balances are the balances at the window's start and end. |
| Admin.ChangeRole | BankSystemAPI/Controllers/AdminController.cs:43-67 | Any role other than "Cliente" or "Administrador" is refused, then an unknown user is NotFound. Otherwise the change succeeds: only that user's role changes, and the user gets one notification. |
| Admin.ChangeRoleToSame | BankSystemAPI/Controllers/AdminController.cs:53-63 | Setting a user's current role leaves the users as they were (one notification is still sent). |
| Admin.Toggle | BankSystemAPI/Controllers/AdminController.cs:69-91 | An unknown user is NotFound; otherwise only that user's active flag is negated, and the user is notified of the new state. |
| Admin.ToggleInvolution | BankSystemAPI/Controllers/AdminController.cs:76 | Toggling the same user twice restores every user. |
| Admin.ChangeRolePreservesWellFormed | BankSystemAPI/Controllers/AdminController.cs:53-63 | A role change keeps the store well-formed. |
| Admin.TogglePreservesWellFormed | BankSystemAPI/Controllers/AdminController.cs:76-88 | A toggle keeps the store well-formed. |
| Admin.Accounts | BankSystemAPI/Controllers/AdminController.cs:111-121 | The total is the number of accounts, the active and closed counts never exceed it, and the balance total is the sum of all balances. |
| Admin.AccountsAddUp | BankSystemAPI/Controllers/AdminController.cs:111-121 | In a well-formed store, active plus closed accounts are all of them, and the balance total is non-negative. |
| Admin.Group | BankSystemAPI/Controllers/AdminController.cs:210-218 | A type has exactly one group when the window holds a movement of that type, and none otherwise; a group's count is positive. |
| Admin.Statistics | BankSystemAPI/Controllers/AdminController.cs:202-233 | The window defaults to the last 30 days up to now. Each group's `Total` and `Quantidade` are the sum and count of the window's movements of its type; a type has a group exactly when the window holds such a movement, and no two groups share a type. |
| Admin.GroupTotalsOfWindow | BankSystemAPI/Controllers/AdminController.cs:213-218 | Each of the window's groups sums and counts exactly its type's movements in the window. |
| Admin.GroupKindsOfWindow | BankSystemAPI/Controllers/AdminController.cs:213 | A type has a group exactly when the window holds a movement of that type. |
| Admin.GroupSums | BankSystemAPI/Controllers/AdminController.cs:210-218 | A group's total and count are the sum and count of the window's movements of its type. |
| Admin.GroupsSumWindow | BankSystemAPI/Controllers/AdminController.cs:213-222 | The credit group's total plus the debit group's total is the sum of every movement in the window. |
| Admin.GroupsCountWindow | BankSystemAPI/Controllers/AdminController.cs:213-223 | The two groups' counts add up to the number of movements in the window. |
| Admin.StatisticsCoverWindow | BankSystemAPI/Controllers/AdminController.cs:219-223 | The grand total is the sum of every movement in the window, and the grand count is their number. |
| Admin.WindowContents | BankSystemAPI/Controllers/AdminController.cs:207-209 | The window holds exactly the movements dated within the inclusive bounds. |
| Admin.Search | BankSystemAPI/Controllers/AdminController.cs:235-288 | A movement is listed iff it matches the text term (description, IBAN, owner name or e-mail) and both date bounds; newest first, each once; the count is the list's length. |
| Admin.EmptyTermIgnored | BankSystemAPI/Controllers/AdminController.cs:246-250 | An empty term filters nothing. |
| Admin.UnfilteredSearchListsAll | BankSystemAPI/Controllers/AdminController.cs:246-285 | With no term and no bounds, the count is the number of movements. |
| Admin.SearchConjunctive | BankSystemAPI/Controllers/AdminController.cs:246-263 | A match of the combined search matches each filter alone. |
| Profiles.Merge | BankSystemAPI/Controllers/UserController.cs:59-62 | A given phone, profession, address or birth date replaces the stored one; an absent one keeps it. Name, e-mail, password, role, state, NIF and card never change. |
| Profiles.MergeIdempotent | BankSystemAPI/Controllers/UserController.cs:59-62 | Applying the same update twice equals applying it once. |
| Profiles.MergeNothing | BankSystemAPI/Controllers/UserController.cs:59-62 | An update with every field absent changes nothing. |
| Profiles.UpdateProfile | BankSystemAPI/Controllers/UserController.cs:50-67 | An unknown caller is NotFound, and a merged value wider than its column, counted in UTF-16 code units, is refused by the store. Otherwise the update succeeds, and only the caller's row changes, to the merge. |
| Profiles.UpdateProfileIdempotent | BankSystemAPI/Controllers/UserController.cs:56-64 | Repeating a successful update changes nothing more. |
| Profiles.UpdateNothing | BankSystemAPI/Controllers/UserController.cs:56-64 | An empty update of a stored user succeeds and leaves the store as it was. |
| Profiles.UpdateProfilePreservesWellFormed | BankSystemAPI/Controllers/UserController.cs:59-64 | A profile update keeps the store well-formed. |
| Notifications.Mine | BankSystemAPI/Controllers/UserController.cs:70-89 | Exactly the caller's notifications, newest first, each once. |
| Notifications.Unread | BankSystemAPI/Controllers/NotificacaoController.cs:42-61 | Exactly the caller's unread notifications, newest first, each once. |
| Notifications.MarkRead | BankSystemAPI/Controllers/NotificacaoController.cs:63-78 | Succeeds iff the notification exists and is the caller's (otherwise NotFound). Then only that notification changes, to read. |
| Notifications.MarkReadMonotone | BankSystemAPI/Controllers/UserController.cs:92-105 | No notification goes from read to unread. |
| Notifications.MarkReadIdempotent | BankSystemAPI/Controllers/UserController.cs:96-101 | Marking the same notification again succeeds and changes nothing. |
| Notifications.MarkReadClears | BankSystemAPI/Controllers/NotificacaoController.cs:74 | After marking, the notification is not in the caller's unread list. |
| Notifications.MarkReadKeepsOtherUnread | BankSystemAPI/Controllers/NotificacaoController.cs:47-48 | Any other notification is unread afterwards exactly when it was before. |
| Notifications.MarkReadKeepsMine | BankSystemAPI/Controllers/NotificacaoController.cs:26-28 | The caller's full list keeps every notification; only the marked one reads as read. |
| Notifications.MarkReadPreservesWellFormed | BankSystemAPI/Controllers/NotificacaoController.cs:68-77 | Marking keeps the store well-formed. |
| Auth.NewUser | BankSystemAPI/Controllers/AuthController.cs:44-59 | A registered user is an active client, with the request's fields and the hasher's hash. |
| Auth.Register | BankSystemAPI/Controllers/AuthController.cs:27-75 | Validation (every length bound counted in UTF-16 code units), then a used e-mail, then a used NIF, then a used card are refused, in that order. Otherwise exactly the new user and one successful "registered" access log naming them are added. |
| Auth.RegisterSucceedsIff | BankSystemAPI/Controllers/AuthController.cs:30-42 | Registration succeeds iff the request is valid (lengths in UTF-16 code units) and its e-mail, NIF and card are all unused. |
| Auth.RegisterPreservesWellFormed | BankSystemAPI/Controllers/AuthController.cs:35-72 | The three checks keep the e-mail, NIF and card indexes unique, and the new row meets every column constraint. |
| Auth.Authenticate | BankSystemAPI/Controllers/AuthController.cs:96-139 | For a stored user, a wrong password is refused first and an inactive user second. Each outcome appends one access log naming the user, successful exactly when the login is. |
| Auth.Login | BankSystemAPI/Controllers/AuthController.cs:77-140 | The corrected login. A body missing e-mail or password is refused with nothing written. An unknown e-mail is refused and logged as a failed attempt. A successful login names a stored, active user with that e-mail whose password verifies. |
| Auth.LoginLogsEveryAttempt | BankSystemAPI/Controllers/AuthController.cs:83-135 | Every well-formed login request appends exactly one access log and changes nothing else; the log records success exactly when the login succeeds. |
| Auth.LoginSucceedsIff | BankSystemAPI/Controllers/AuthController.cs:127-139 | Under the e-mail index, login succeeds iff some user has that e-mail, the password verifies, and the user is active. |
| Auth.EmailLocates | BankSystemAPI/Models/BankContext.cs:58-61 | Under the e-mail index, the lookup by a user's e-mail finds that user. |
| Auth.LoginLadder | BankSystemAPI/Controllers/AuthController.cs:96-125 | A wrong password is refused as such even for an inactive user; an inactive user is refused even with the right password; the log records which. |
| Auth.LoginPreservesWellFormed | BankSystemAPI/Controllers/AuthController.cs:83-135 | Every corrected login keeps the store well-formed, where a log may omit its user. |
| Auth.RegisterThenLogin | BankSystemAPI/Controllers/AuthController.cs:44-139 | Right after registering, logging in with the same e-mail and password (which the hasher verifies) opens a session for the new client. |
| Auth.LoginAsWritten | BankSystemAPI/Controllers/AuthController.cs:80-93 | The login as the controller writes it; it agrees with `Login` whenever the e-mail is registered. |
| Auth.LoginAsWrittenPreservesWellFormed | BankSystemAPI/Controllers/AuthController.cs:77-140 | The login as written keeps the store well-formed; for an unregistered e-mail it leaves the store as it was. |
| Auth.UnknownEmailLogLost | BankSystemAPI/Controllers/AuthController.cs:83-92 | For every store, an unregistered e-mail makes the written login fail with 500 and store no log. The corrected login logs the attempt and answers 400. |
| Auth.UnknownEmailExample | BankSystemAPI/Controllers/AuthController.cs:83-92 | The same on the empty store, with concrete credentials. |
| Api.StepPreservesWellFormed | BankSystemAPI/Models/BankContext.cs:23-72 | Any single request, answered by its action as written (login included), keeps the store well-formed. |
| Api.RunPreservesWellFormed | BankSystemAPI/Models/BankContext.cs:23-72 | Any sequence of requests keeps a well-formed store well-formed. |
| Api.Reachable | BankSystemAPI/Models/ContaBancaria.cs:17-34 | Every store reachable from the empty one is well-formed: balances are non-negative, every balance is the net of its movements, and IBANs are unique. |
| Api.TransferNeedsMoney | BankSystemAPI/Controllers/TransferenciaController.cs:46-47 | In a store where every balance is 0, every transfer is refused. |
| Api.PaymentNeedsMoney | BankSystemAPI/Controllers/PagamentoController.cs:36-37 | In a store where every balance is 0, every payment is refused. |
| Api.StepKeepsNoMoney | BankSystemAPI/Controllers/ContaBancariaController.cs:50-57 | No request turns a store without money into one with money: new accounts open at 0, and transfers and payments are refused. |
| Api.ReachableHoldsNoMoney | BankSystemAPI/Controllers/ContaBancariaController.cs:50-57 | In every store reachable from the empty one, every balance is 0, the balance total is 0, and no movement, transfer or payment exists. |
| Api.StepKeepsLogsNamed | BankSystemAPI/Models/LogAcesso.cs:13-14 | No request stores an access log without a user: registration and login as written name the user in every log they keep. |
| Api.ReachableLogsNameUsers | BankSystemAPI/Models/LogAcesso.cs:13-14 | In every store reachable from the empty one, every access log names a user. |

## Left out

- Password hashing, password verification and token creation are library calls. Registration receives the hash, and login receives verification as a predicate parameter. A successful login yields the token's claims (`Auth.Session`), not a signed token.
- The clock (`DateTime.UtcNow`) is a parameter `now`. `System.Random` in the IBAN generator becomes the five draws, passed in and required to lie in the generator's ranges.
- Notification messages use culture-dependent currency formatting (`{Valor:C}`). They are modelled as an abstract `NoticeBody` carrying the amounts and IBANs. Only the titles are exact strings, so the 500-character message bound is not checked.
- String comparison is ordinal. The database collation, which may be case-insensitive for `Contains`, e-mail lookup and the unique indexes, is not modelled.
- The client IP in access logs, and access-log timestamps, are not modelled.
- EF Core mechanics are not modelled: asynchronous queries, `Include`, navigation properties. The two saves of account closing, account opening and registration are treated as one step.
- Concurrency and lost updates between simultaneous requests are not modelled: every action is atomic.
- The `[Authorize]` middleware and the parsing of the caller's key from the token are not modelled. The caller is a parameter, and `Api.Admissible` requires that it is a stored user.
- The response DTO projections are not modelled (IBAN and owner joins, `ContaBancariaDto`, `UtilizadorProfileDto`), nor is `UserController.GetMyProfile`, which only projects the caller's row.
- Several admin listings are not modelled because they only project and sort whole tables: `GetAllUtilizadores`, `GetAllTransferencias`, `GetAllPagamentos`, `GetAllMovimentos`, `GetLogsAcesso`.
- Decimal precision and the upper bound `double.MaxValue` of the amount ranges are not modelled: amounts are unbounded exact reals.
- Bank.WellFormed: its access-log rule accepts a log without a user, which the required `UtilizadorID` column does not. The corrected login needs this. The API as written never stores such a log (`Api.ReachableLogsNameUsers`).
- Refusals by the store for a value wider than its column assume a provider that enforces column widths, such as SQL Server or PostgreSQL. EF Core's `SaveChanges` does not run `[StringLength]` validation, and the database provider is not part of this model. This affects `Accounts.Open` (account type), `Transfers.Execute` (descriptions) and `Profiles.UpdateProfile` (profile fields). Where the provider enforces them, widths are counted in UTF-16 code units, as SQL Server's `nvarchar` does. With SQLite these saves would succeed.
- Seeding money into the store (deposits, imports, direct database writes) has no endpoint in the controllers and is not modelled. The lemmas about transfers, payments and statements start from any well-formed store instead.
- The "Bloqueada" account state exists in the model, but no operation assigns it, as in the code.
- Nullable reference-type annotations of the project file are not part of this model. Optional request fields (phone, profession, address, transfer description) are optional, as their `??` fallbacks and missing `[Required]` attributes show.
- Statements.ReportOpeningIsHistoric: stated only when no movement of the account is dated after the window. For a past window the controller's balances drift (see Findings).
- Statements.StatementOfAccount: the statement's balances are stated through the report of the account, in two steps. `StatementOfAccount` and `HistoricOfAccount` name the report, and `ReportDrift` and `ReportAtBounds` state its balances.

## Findings

| source | as written | input that shows it | evidently intended | confidence | as-written member | corrected member |
|---|---|---|---|---|---|---|
| BankSystemAPI/Controllers/AuthController.cs:83-92 | The failed-login log for an unknown e-mail leaves `UtilizadorID` at its default 0. The column is a required foreign key to the users, so the save is refused: the request ends in a 500 and no log is kept. | Login with e-mail "a@b" and password "secret" on an empty store. | The attempt is logged without a user reference, and the caller gets 400 "user not found". | not executed | Auth.LoginAsWritten (with Auth.UnknownEmailLogLost, Auth.UnknownEmailExample) | Auth.Login |
| BankSystemAPI/Controllers/MovimentoController.cs:196-205 | The closing balance is the account's current balance, and the opening balance is derived from it, whatever the window. For a window in the past, both include every movement dated after the window. | An account holding 10 from one credit of 10 dated at 100, seeded outside the API, since no request brings money in; its statement over [0, 50] reports an opening and a closing balance of 10. | The balances the account held at the window's start and end: 0 and 0 here. | not executed | Statements.Statement (with Statements.ReportDrift, Statements.StatementDriftExample) | Statements.HistoricStatement (with Statements.HistoricOfAccount, Statements.ReportAtBounds, Statements.HistoricCorrectsStatement) |

=== FILE: accounts.dfy ===
/**
 * `ContaBancariaController`: opening and closing accounts, the caller's active accounts, the
 * balance lookup, and the IBAN format with the random draws taken as inputs.
 */
module Accounts {
  import opened Common
  import opened Text
  import opened Seqs
  import opened Entities
  import opened Bank

  // ---------------------------------------------------------------------------------------
  // IBAN generation.

  /** The five draws `GerarIBAN` makes from the random generator. */
  datatype IbanDraws = IbanDraws(g1: nat, g2: nat, g3: nat, g4: nat, tail: nat)

  /** `Random.Next(1000, 9999)` four times, then `Random.Next(100, 999)`: upper bounds exclusive. */
  predicate ValidDraws(d: IbanDraws)
  {
    && 1000 <= d.g1 < 9999 && 1000 <= d.g2 < 9999
    && 1000 <= d.g3 < 9999 && 1000 <= d.g4 < 9999
    && 100 <= d.tail < 999
  }

  const IbanPrefix: string := "PT50"

  /** `GerarIBAN`: the prefix followed by the five draws written in decimal. */
  function Iban(d: IbanDraws): string
  {
    IbanPrefix + NatToString(d.g1) + NatToString(d.g2) + NatToString(d.g3) + NatToString(d.g4) + NatToString(d.tail)
  }

  /** The shape every generated IBAN has: 23 characters, the prefix, then only digits. */
  predicate IbanFormat(s: string)
  {
    |s| == 23 && s[..4] == IbanPrefix && forall i :: 4 <= i < |s| ==> IsDigit(s[i])
  }

  /** Splits a generated IBAN back into the draws that produced it. */
  function ParseIban(s: string): (r: Option<IbanDraws>)
    ensures r.Some? <==> IbanFormat(s)
  {
    if !IbanFormat(s) then None
    else
      assert AllDigits(s[4..8]) && AllDigits(s[8..12]) && AllDigits(s[12..16]) && AllDigits(s[16..20]);
      assert AllDigits(s[20..23]);
      Some(IbanDraws(StringToNat(s[4..8]), StringToNat(s[8..12]), StringToNat(s[12..16]),
                     StringToNat(s[16..20]), StringToNat(s[20..23])))
  }

  lemma FourDigits(g: nat)
    requires 1000 <= g < 9999
    ensures |NatToString(g)| == 4
  {
    assert Pow10(3) == 1000 by { assert Pow10(2) == 100; }
    assert Pow10(4) == 10000;
    NatStringLength(g, 4);
  }

  lemma ThreeDigits(g: nat)
    requires 100 <= g < 999
    ensures |NatToString(g)| == 3
  {
    NatStringLength(g, 3);
  }

  /** The generated IBAN is the prefix and then the five draws at fixed positions. */
  lemma IbanLayout(d: IbanDraws)
    requires ValidDraws(d)
    ensures var s := Iban(d);
            && |s| == 23 && s[..4] == IbanPrefix
            && s[4..8] == NatToString(d.g1) && s[8..12] == NatToString(d.g2)
            && s[12..16] == NatToString(d.g3) && s[16..20] == NatToString(d.g4)
            && s[20..23] == NatToString(d.tail)
  {
    var a, b, c, e, t := NatToString(d.g1), NatToString(d.g2), NatToString(d.g3), NatToString(d.g4), NatToString(d.tail);
    FourDigits(d.g1); FourDigits(d.g2); FourDigits(d.g3); FourDigits(d.g4); ThreeDigits(d.tail);
    var s := Iban(d);
    assert s == IbanPrefix + a + b + c + e + t;
  }

  /** The generated IBAN has the documented shape and fits its column. */
  lemma IbanShape(d: IbanDraws)
    requires ValidDraws(d)
    ensures IbanFormat(Iban(d)) && FitsIn(Iban(d), IbanMax)
  {
    var s := Iban(d);
    IbanLayout(d);
    forall i | 4 <= i < |s|
      ensures IsDigit(s[i])
    {
      if i < 8 { assert s[i] == s[4..8][i - 4]; }
      else if i < 12 { assert s[i] == s[8..12][i - 8]; }
      else if i < 16 { assert s[i] == s[12..16][i - 12]; }
      else if i < 20 { assert s[i] == s[16..20][i - 16]; }
      else { assert s[i] == s[20..23][i - 20]; }
    }
    assert Narrow(s) by {
      forall i | 0 <= i < 4
        ensures s[i] as int < 0x1_0000
      {
        assert s[i] == IbanPrefix[i];
      }
    }
    NarrowWidth(s);
  }

  /** The generated IBAN is 23 characters, fits its column, and parses back to the draws. */
  lemma IbanRoundTrip(d: IbanDraws)
    requires ValidDraws(d)
    ensures IbanFormat(Iban(d)) && FitsIn(Iban(d), IbanMax)
    ensures ParseIban(Iban(d)) == Some(d)
  {
    IbanLayout(d);
    IbanShape(d);
    NatStringRoundTrip(d.g1); NatStringRoundTrip(d.g2); NatStringRoundTrip(d.g3);
    NatStringRoundTrip(d.g4); NatStringRoundTrip(d.tail);
  }

  /** Different draws give different IBANs. */
  lemma IbanInjective(d1: IbanDraws, d2: IbanDraws)
    requires ValidDraws(d1) && ValidDraws(d2) && Iban(d1) == Iban(d2)
    ensures d1 == d2
  {
    IbanRoundTrip(d1);
    IbanRoundTrip(d2);
  }

  // ---------------------------------------------------------------------------------------
  // Opening.

  /** `CriarConta`: the new account as the controller builds it, at key `|s.accounts| + 1`. */
  function NewAccount(caller: Id, iban: string, kind: string, now: Time): (a: Account)
    ensures a.owner == caller && a.iban == iban && a.kind == kind
    ensures a.balance == 0.0 && a.state == Active && a.closedAt == None && a.createdAt == now
  {
    Account(caller, iban, kind, 0.0, Active, now, None)
  }

  /**
   * `CriarConta`: `TipoConta` is required; the store refuses a generated IBAN that already
   * exists (unique index) and an account type wider than its column. Otherwise one account and
   * one notification to the caller are added and nothing else changes.
   */
  function Open(s: BankState, caller: Id, kind: string, d: IbanDraws, now: Time): (r: Result<BankState>)
    ensures !Required(kind) ==> r == Err(Invalid)
    ensures Required(kind) && (exists k :: 0 <= k < |s.accounts| && s.accounts[k].iban == Iban(d)) ==> r == Err(StoreRejected)
    ensures Required(kind) && !FitsIn(kind, AccountKindMax) ==> r == Err(StoreRejected)
    ensures r.Ok? ==>
              && Required(kind) && FitsIn(kind, AccountKindMax)
              && (forall k :: 0 <= k < |s.accounts| ==> s.accounts[k].iban != Iban(d))
              && r.value == s.(accounts := s.accounts + [NewAccount(caller, Iban(d), kind, now)],
                               notifications := s.notifications + [Notice(caller, AccountOpened(kind, Iban(d)), now)])
  {
    if !Required(kind) then Err(Invalid)
    else
      var iban := Iban(d);
      if FindAccount(s.accounts, iban, None).Some? || !FitsIn(kind, AccountKindMax) then Err(StoreRejected)
      else
        Ok(s.(accounts := s.accounts + [NewAccount(caller, iban, kind, now)],
              notifications := s.notifications + [Notice(caller, AccountOpened(kind, iban), now)]))
  }

  /** Opening succeeds exactly when the type is given, fits, and the drawn IBAN is free. */
  lemma OpenSucceedsIff(s: BankState, caller: Id, kind: string, d: IbanDraws, now: Time)
    ensures Open(s, caller, kind, d, now).Ok? <==>
              Required(kind) && FitsIn(kind, AccountKindMax) && FindAccount(s.accounts, Iban(d), None).None?
  {
  }

  /** An opened account is the caller's, holds nothing, has no movements and has a well-formed IBAN. */
  lemma OpenedAccount(s: BankState, caller: Id, kind: string, d: IbanDraws, now: Time)
    requires ValidDraws(d) && MovementsOk(s.movements, |s.accounts|)
    ensures var r := Open(s, caller, kind, d, now);
            r.Ok? ==>
              var id := |s.accounts| + 1;
              && Owns(r.value, caller, id)
              && r.value.accounts[id - 1].balance == 0.0
              && Net(r.value.movements, id) == 0.0
              && IbanFormat(r.value.accounts[id - 1].iban)
  {
    var r := Open(s, caller, kind, d, now);
    if r.Ok? {
      NetUntouched(s.movements, |s.accounts| + 1);
      IbanShape(d);
    }
  }

  /** The caller finds the opened account by its IBAN, and it is the new row. */
  lemma OpenedAccountFound(s: BankState, caller: Id, kind: string, d: IbanDraws, now: Time)
    ensures var r := Open(s, caller, kind, d, now);
            r.Ok? ==> FindAccount(r.value.accounts, Iban(d), Some(caller)) == Some(|s.accounts|)
  {
    var r := Open(s, caller, kind, d, now);
    if r.Ok? {
      assert Matches(r.value.accounts[|s.accounts|], Iban(d), Some(caller));
    }
  }

  lemma OpenPreservesWellFormed(s: BankState, caller: Id, kind: string, d: IbanDraws, now: Time)
    requires ValidDraws(d) && WellFormed(s) && IsUser(s, caller)
    ensures var r := Open(s, caller, kind, d, now);
            r.Ok? ==> WellFormed(r.value)
  {
    var r := Open(s, caller, kind, d, now);
    if r.Ok? {
      var s' := r.value;
      IbanShape(d);
      NetUntouched(s.movements, |s.accounts| + 1);
      assert AccountsOk(s'.accounts, |s'.users|) by {
        forall k | 0 <= k < |s'.accounts|
          ensures AccountRowOk(s'.accounts[k], |s'.users|) && AccountLifecycleOk(s'.accounts[k])
        {
          if k < |s.accounts| {
            assert s'.accounts[k] == s.accounts[k];
          }
        }
      }
      assert MovementsOk(s'.movements, |s'.accounts|) by {
        forall k | 0 <= k < |s'.movements|
          ensures MovementRowOk(s'.movements[k], |s'.accounts|)
        {
          assert MovementRowOk(s.movements[k], |s.accounts|);
        }
      }
      assert TransfersOk(s'.transfers, |s'.accounts|) by {
        forall k | 0 <= k < |s'.transfers|
          ensures TransferRowOk(s'.transfers[k], |s'.accounts|)
        {
          assert TransferRowOk(s.transfers[k], |s.accounts|);
        }
      }
      assert PaymentsOk(s'.payments, |s'.accounts|) by {
        forall k | 0 <= k < |s'.payments|
          ensures PaymentRowOk(s'.payments[k], |s'.accounts|)
        {
          assert PaymentRowOk(s.payments[k], |s.accounts|);
        }
      }
      assert NotificationsOk(s'.notifications, |s'.users|);
      assert Ledger(s'.accounts, s'.movements);
    }
  }

  // ---------------------------------------------------------------------------------------
  // Closing.

  /**
   * `EncerrarConta`: the caller's account with that IBAN, which must hold exactly zero. The
   * state is not checked, so a closed account can be closed again. Only the state and the
   * closure date change, and the caller is notified.
   */
  function Close(s: BankState, caller: Id, iban: string, now: Time): (r: Result<BankState>)
    ensures FindAccount(s.accounts, iban, Some(caller)).None? ==> r == Err(NotFound)
    ensures (FindAccount(s.accounts, iban, Some(caller)).Some? &&
             s.accounts[FindAccount(s.accounts, iban, Some(caller)).value].balance != 0.0) ==> r == Err(BalanceNotZero)
    ensures r.Err? ==> r.error in {NotFound, BalanceNotZero}
    ensures r.Ok? ==>
              var i := FindAccount(s.accounts, iban, Some(caller)).value;
              && s.accounts[i].balance == 0.0
              && r.value == s.(accounts := s.accounts[i := s.accounts[i].(state := Closed, closedAt := Some(now))],
                               notifications := s.notifications + [Notice(caller, AccountClosed(iban), now)])
  {
    match FindAccount(s.accounts, iban, Some(caller))
    case None => Err(NotFound)
    case Some(i) =>
      var a := s.accounts[i];
      if a.balance != 0.0 then Err(BalanceNotZero)
      else
        Ok(s.(accounts := s.accounts[i := a.(state := Closed, closedAt := Some(now))],
              notifications := s.notifications + [Notice(caller, AccountClosed(iban), now)]))
  }

  /** Closing succeeds exactly when the caller owns an account with that IBAN holding zero. */
  lemma CloseSucceedsIff(s: BankState, caller: Id, iban: string, now: Time)
    ensures Close(s, caller, iban, now).Ok? <==>
              exists i :: 0 <= i < |s.accounts| && Matches(s.accounts[i], iban, Some(caller)) &&
                          FindAccount(s.accounts, iban, Some(caller)) == Some(i) && s.accounts[i].balance == 0.0
  {
  }

  /** Closing keeps every other account and every other field, and the account stays findable. */
  lemma CloseChangesOnlyState(s: BankState, caller: Id, iban: string, now: Time)
    ensures var r := Close(s, caller, iban, now);
            r.Ok? ==>
              var i := FindAccount(s.accounts, iban, Some(caller)).value;
              && |r.value.accounts| == |s.accounts|
              && (forall k :: 0 <= k < |s.accounts| && k != i ==> r.value.accounts[k] == s.accounts[k])
              && r.value.accounts[i].owner == s.accounts[i].owner
              && r.value.accounts[i].iban == s.accounts[i].iban
              && r.value.accounts[i].kind == s.accounts[i].kind
              && r.value.accounts[i].balance == s.accounts[i].balance == 0.0
              && r.value.accounts[i].createdAt == s.accounts[i].createdAt
              && r.value.accounts[i].state == Closed && r.value.accounts[i].closedAt == Some(now)
              && r.value.movements == s.movements
              && TotalBalance(r.value.accounts) == TotalBalance(s.accounts)
  {
    var r := Close(s, caller, iban, now);
    if r.Ok? {
      var i := FindAccount(s.accounts, iban, Some(caller)).value;
      SumByUpdate(s.accounts, i, r.value.accounts[i], Balance);
    }
  }

  /** A closed account can be closed again: the second call succeeds and only moves the date. */
  lemma {:induction false} CloseAgain(s: BankState, caller: Id, iban: string, now: Time, later: Time)
    requires Close(s, caller, iban, now).Ok?
    ensures var s1 := Close(s, caller, iban, now).value;
            var r := Close(s1, caller, iban, later);
            && r.Ok?
            && var i := FindAccount(s.accounts, iban, Some(caller)).value;
               r.value.accounts == s1.accounts[i := s1.accounts[i].(closedAt := Some(later))]
  {
    var s1 := Close(s, caller, iban, now).value;
    var i := FindAccount(s.accounts, iban, Some(caller)).value;
    assert forall k :: 0 <= k < |s.accounts| ==> Matches(s1.accounts[k], iban, Some(caller)) == Matches(s.accounts[k], iban, Some(caller));
    assert FindAccount(s1.accounts, iban, Some(caller)) == Some(i);
  }

  lemma ClosePreservesWellFormed(s: BankState, caller: Id, iban: string, now: Time)
    requires WellFormed(s)
    ensures var r := Close(s, caller, iban, now);
            r.Ok? ==> WellFormed(r.value)
  {
    var r := Close(s, caller, iban, now);
    if r.Ok? {
      var s' := r.value;
      var i := FindAccount(s.accounts, iban, Some(caller)).value;
      assert AccountRowOk(s.accounts[i], |s.users|);
      assert AccountsOk(s'.accounts, |s'.users|);
      assert IbansUnique(s'.accounts);
      assert NotificationsOk(s'.notifications, |s'.users|) by {
        assert 1 <= caller <= |s.users| by {
          assert AccountRowOk(s.accounts[i], |s.users|);
        }
      }
      assert Ledger(s'.accounts, s'.movements);
    }
  }

  // ---------------------------------------------------------------------------------------
  // Queries.

  predicate ActiveOf(caller: Id, row: (nat, Account))
  {
    row.1.owner == caller && row.1.state == Active
  }

  /** `GetContasUtilizador`: the caller's active accounts, in key order. */
  function MyAccounts(s: BankState, caller: Id): (r: seq<(nat, Account)>)
    ensures forall row :: row in r <==> IsRow(s.accounts, row) && row.1.owner == caller && row.1.state == Active
    ensures |r| <= |s.accounts|
    ensures NoDuplicates(r)
  {
    FilterSubMultiset(Indexed(s.accounts), (row: (nat, Account)) => ActiveOf(caller, row));
    Filter(Indexed(s.accounts), (row: (nat, Account)) => ActiveOf(caller, row))
  }

  /** `GetSaldoConta` / `GetSaldoAtual`: the balance of the caller's account with that IBAN. */
  function BalanceOf(s: BankState, caller: Id, iban: string): (r: Result<Money>)
    ensures r.Err? <==> forall k :: 0 <= k < |s.accounts| ==> !Matches(s.accounts[k], iban, Some(caller))
    ensures r.Err? ==> r.error == NotFound
    ensures r.Ok? ==> exists k :: 0 <= k < |s.accounts| && Owns(s, caller, k + 1) && s.accounts[k].iban == iban && s.accounts[k].balance == r.value
  {
    match FindAccount(s.accounts, iban, Some(caller))
    case None => Err(NotFound)
    case Some(i) => Ok(s.accounts[i].balance)
  }

  /** Under a well-formed state the balance reported is the net of the account's movements. */
  lemma BalanceIsNet(s: BankState, caller: Id, iban: string)
    requires Ledger(s.accounts, s.movements)
    ensures var r := BalanceOf(s, caller, iban);
            r.Ok? ==> r.value == Net(s.movements, FindAccount(s.accounts, iban, Some(caller)).value + 1)
  {
  }
}

=== FILE: admin.dfy ===
/**
 * `AdminController`: changing a user's role, toggling a user's active flag, the account
 * aggregates, the movement statistics by type, and the detailed movement search. Every action
 * here runs for an administrator only; the role check itself belongs to the authentication
 * middleware.
 */
module Admin {
  import opened Common
  import opened Text
  import opened Seqs
  import opened Entities
  import opened Bank

  // ---------------------------------------------------------------------------------------
  // User administration.

  /**
   * `AlterarPerfilUtilizador`: the role name is checked before the user is looked up; then only
   * that user's role changes and the user is notified.
   */
  function ChangeRole(s: BankState, user: int, role: string, now: Time): (r: Result<BankState>)
    ensures ParseRole(role).None? ==> r == Err(InvalidRole)
    ensures ParseRole(role).Some? && !(1 <= user <= |s.users|) ==> r == Err(NotFound)
    ensures ParseRole(role).Some? && 1 <= user <= |s.users| ==> r.Ok?
    ensures r.Ok? ==>
              && 1 <= user <= |s.users|
              && |r.value.users| == |s.users|
              && r.value.users[user - 1].role.Name() == role
              && r.value.users[user - 1] == s.users[user - 1].(role := r.value.users[user - 1].role)
              && (forall k :: 0 <= k < |s.users| && k != user - 1 ==> r.value.users[k] == s.users[k])
              && r.value.notifications == s.notifications + [Notice(user, RoleChanged(r.value.users[user - 1].role), now)]
              && r.value == s.(users := r.value.users, notifications := r.value.notifications)
  {
    match ParseRole(role)
    case None => Err(InvalidRole)
    case Some(p) =>
      if !(1 <= user <= |s.users|) then Err(NotFound)
      else
        Ok(s.(users := s.users[user - 1 := s.users[user - 1].(role := p)],
              notifications := s.notifications + [Notice(user, RoleChanged(p), now)]))
  }

  /** Setting the role a user already has leaves the users table as it was. */
  lemma ChangeRoleToSame(s: BankState, user: int, now: Time)
    requires 1 <= user <= |s.users|
    ensures var r := ChangeRole(s, user, s.users[user - 1].role.Name(), now);
            r.Ok? && r.value.users == s.users
  {
    RoleRoundTrip(s.users[user - 1].role);
  }

  /**
   * `AlternarEstadoUtilizador`: negates the user's active flag and tells the user the new
   * state; nothing else about the user changes.
   */
  function Toggle(s: BankState, user: int, now: Time): (r: Result<BankState>)
    ensures !(1 <= user <= |s.users|) ==> r == Err(NotFound)
    ensures r.Ok? ==>
              && 1 <= user <= |s.users|
              && |r.value.users| == |s.users|
              && r.value.users[user - 1].active == !s.users[user - 1].active
              && r.value.users[user - 1] == s.users[user - 1].(active := r.value.users[user - 1].active)
              && (forall k :: 0 <= k < |s.users| && k != user - 1 ==> r.value.users[k] == s.users[k])
              && r.value.notifications == s.notifications + [Notice(user, StateToggled(r.value.users[user - 1].active), now)]
              && r.value == s.(users := r.value.users, notifications := r.value.notifications)
  {
    if !(1 <= user <= |s.users|) then Err(NotFound)
    else
      var u := s.users[user - 1];
      Ok(s.(users := s.users[user - 1 := u.(active := !u.active)],
            notifications := s.notifications + [Notice(user, StateToggled(!u.active), now)]))
  }

  /** Toggling twice restores every user; only the two notifications remain. */
  lemma ToggleInvolution(s: BankState, user: int, now: Time, later: Time)
    requires 1 <= user <= |s.users|
    ensures Toggle(s, user, now).Ok?
    ensures Toggle(Toggle(s, user, now).value, user, later).Ok?
    ensures Toggle(Toggle(s, user, now).value, user, later).value.users == s.users
  {
    var s1 := Toggle(s, user, now).value;
    var s2 := Toggle(s1, user, later).value;
    assert s2.users[user - 1] == s.users[user - 1];
  }

  /** Changing a role or toggling a user keeps every table invariant. */
  lemma ChangeRolePreservesWellFormed(s: BankState, user: int, role: string, now: Time)
    requires WellFormed(s)
    ensures ChangeRole(s, user, role, now).Ok? ==> WellFormed(ChangeRole(s, user, role, now).value)
  {
    if ChangeRole(s, user, role, now).Ok? {
      var s' := ChangeRole(s, user, role, now).value;
      assert UsersOk(s'.users) by {
        forall k | 0 <= k < |s'.users|
          ensures UserRowOk(s'.users[k])
        {
          assert UserRowOk(s.users[k]);
        }
      }
      assert UsersUnique(s'.users);
      assert NotificationsOk(s'.notifications, |s'.users|);
    }
  }

  lemma TogglePreservesWellFormed(s: BankState, user: int, now: Time)
    requires WellFormed(s)
    ensures Toggle(s, user, now).Ok? ==> WellFormed(Toggle(s, user, now).value)
  {
    if Toggle(s, user, now).Ok? {
      var s' := Toggle(s, user, now).value;
      assert UsersOk(s'.users) by {
        forall k | 0 <= k < |s'.users|
          ensures UserRowOk(s'.users[k])
        {
          assert UserRowOk(s.users[k]);
        }
      }
      assert UsersUnique(s'.users);
      assert NotificationsOk(s'.notifications, |s'.users|);
    }
  }


  // ---------------------------------------------------------------------------------------
  // Account aggregates.

  /** The summary `GetAllContas` returns next to the account list. */
  datatype AccountSummary = AccountSummary(total: nat, active: nat, closed: nat, balance: Money)

  predicate IsActive(a: Account)
  {
    a.state == Active
  }

  predicate IsClosed(a: Account)
  {
    a.state == Closed
  }

  /** `GetAllContas`: how many accounts, how many active, how many closed, and all they hold. */
  function Accounts(s: BankState): (r: AccountSummary)
    ensures r.total == |s.accounts|
    ensures r.active == |Filter(s.accounts, IsActive)| && r.closed == |Filter(s.accounts, IsClosed)|
    ensures r.active + r.closed <= r.total
    ensures r.balance == TotalBalance(s.accounts)
  {
    FilterDisjointLength(s.accounts, IsActive, IsClosed);
    AccountSummary(|s.accounts|, |Filter(s.accounts, IsActive)|, |Filter(s.accounts, IsClosed)|, TotalBalance(s.accounts))
  }

  /**
   * Since no operation blocks an account, in a well-formed state every account is counted
   * either as active or as closed, and the total held is never negative.
   */
  lemma AccountsAddUp(s: BankState)
    requires WellFormed(s)
    ensures Accounts(s).active + Accounts(s).closed == Accounts(s).total
    ensures Accounts(s).balance >= 0.0
  {
    forall x | x in s.accounts
      ensures IsActive(x) <==> !IsClosed(x)
    {
      var k :| 0 <= k < |s.accounts| && s.accounts[k] == x;
      assert AccountLifecycleOk(s.accounts[k]);
    }
    FilterSplitLength(s.accounts, IsActive, IsClosed);
    WellFormedBalances(s);
    BalancesSumNonNegative(s.accounts);
  }

  lemma {:induction false} BalancesSumNonNegative(accounts: seq<Account>)
    requires forall i :: 0 <= i < |accounts| ==> accounts[i].balance >= 0.0
    ensures TotalBalance(accounts) >= 0.0
  {
    if |accounts| > 0 {
      BalancesSumNonNegative(accounts[..|accounts| - 1]);
    }
  }

  // ---------------------------------------------------------------------------------------
  // Movement statistics.

  /** One group of `GroupBy(TipoMovimento)`: its key, the sum of its amounts, and its size. */
  datatype KindGroup = KindGroup(kind: MovementKind, total: Money, count: nat)

  /** `GetEstatisticasMovimentos`' answer. */
  datatype MovementStatistics = MovementStatistics(from: Time, to: Time, total: Money, count: nat, groups: seq<KindGroup>)

  function Amount(m: Movement): Money
  {
    m.amount
  }

  function Dated(from: Time, to: Time): Movement -> bool
  {
    (m: Movement) => from <= m.at <= to
  }

  function OfKind(k: MovementKind): Movement -> bool
  {
    (m: Movement) => m.kind == k
  }

  /** The group of kind `k` in `window`, present only when the window holds such a movement. */
  function Group(window: seq<Movement>, k: MovementKind): (r: seq<KindGroup>)
    ensures |r| <= 1
    ensures |r| == 1 <==> |Filter(window, OfKind(k))| > 0
    ensures forall g :: g in r ==> g.kind == k && g.count > 0
    ensures forall g :: g in r ==>
              g.total == SumBy(Filter(window, OfKind(k)), Amount) && g.count == |Filter(window, OfKind(k))|
  {
    var ms := Filter(window, OfKind(k));
    if |ms| == 0 then [] else [KindGroup(k, SumBy(ms, Amount), |ms|)]
  }

  function GroupTotal(g: KindGroup): Money
  {
    g.total
  }

  /** `Sum(e => e.Quantidade)` over the groups. */
  function TotalCount(groups: seq<KindGroup>): nat
  {
    if |groups| == 0 then 0 else TotalCount(groups[..|groups| - 1]) + groups[|groups| - 1].count
  }

  /** The window of a statistics request: by default the last thirty days up to `now`. */
  function WindowOf(s: BankState, from: Option<Time>, to: Option<Time>, now: Time): seq<Movement>
  {
    Filter(s.movements, Dated(from.GetOr(now - DefaultWindowDays * SecondsPerDay), to.GetOr(now)))
  }

  /**
   * `GetEstatisticasMovimentos`: the movements dated inside the window grouped by type; the
   * grand totals add up the groups.
   */
  function Statistics(s: BankState, from: Option<Time>, to: Option<Time>, now: Time): (r: MovementStatistics)
    ensures r.from == (if from.Some? then from.value else now - 30 * 86400)
    ensures r.to == (if to.Some? then to.value else now)
    ensures forall g :: g in r.groups ==> g.count > 0
    ensures forall i, j :: 0 <= i < j < |r.groups| ==> r.groups[i].kind != r.groups[j].kind
    ensures forall g :: g in r.groups ==>
              && g.total == SumBy(Filter(WindowOf(s, from, to, now), OfKind(g.kind)), Amount)
              && g.count == |Filter(WindowOf(s, from, to, now), OfKind(g.kind))|
    ensures forall k :: (exists g :: g in r.groups && g.kind == k) <==> |Filter(WindowOf(s, from, to, now), OfKind(k))| > 0
  {
    var window := WindowOf(s, from, to, now);
    var groups := Group(window, Credit) + Group(window, Debit);
    GroupTotalsOfWindow(window);
    GroupKindsOfWindow(window);
    MovementStatistics(from.GetOr(now - DefaultWindowDays * SecondsPerDay), to.GetOr(now),
                       SumBy(groups, GroupTotal), TotalCount(groups), groups)
  }

  /** Each of a window's two type groups sums and counts exactly its type's movements. */
  lemma GroupTotalsOfWindow(window: seq<Movement>)
    ensures forall g :: g in Group(window, Credit) + Group(window, Debit) ==>
              && g.total == SumBy(Filter(window, OfKind(g.kind)), Amount)
              && g.count == |Filter(window, OfKind(g.kind))|
  {
    forall g | g in Group(window, Credit) + Group(window, Debit)
      ensures g.total == SumBy(Filter(window, OfKind(g.kind)), Amount)
      ensures g.count == |Filter(window, OfKind(g.kind))|
    {
      if g !in Group(window, Credit) {
        assert g in Group(window, Debit);
      }
    }
  }

  /** A type has a group exactly when the window holds a movement of that type. */
  lemma GroupKindsOfWindow(window: seq<Movement>)
    ensures forall k :: (exists g :: g in Group(window, Credit) + Group(window, Debit) && g.kind == k)
                        <==> |Filter(window, OfKind(k))| > 0
  {
    var groups := Group(window, Credit) + Group(window, Debit);
    forall k
      ensures (exists g :: g in groups && g.kind == k) <==> |Filter(window, OfKind(k))| > 0
    {
      if |Filter(window, OfKind(k))| > 0 {
        assert Group(window, k)[0] in groups;
      }
      if exists g :: g in groups && g.kind == k {
        var g :| g in groups && g.kind == k;
        if g !in Group(window, Credit) {
          assert g in Group(window, Debit);
        }
      }
    }
  }

  lemma {:induction false} TotalCountAppend(a: seq<KindGroup>, b: seq<KindGroup>)
    ensures TotalCount(a + b) == TotalCount(a) + TotalCount(b)
  {
    if |b| == 0 {
      assert a + b == a;
    } else {
      assert (a + b)[..|a + b| - 1] == a + b[..|b| - 1];
      TotalCountAppend(a, b[..|b| - 1]);
    }
  }

  /** A group sums and counts exactly the window's movements of its kind. */
  lemma GroupSums(window: seq<Movement>, k: MovementKind)
    ensures SumBy(Group(window, k), GroupTotal) == SumBy(Filter(window, OfKind(k)), Amount)
    ensures TotalCount(Group(window, k)) == |Filter(window, OfKind(k))|
  {
    var ms := Filter(window, OfKind(k));
    if |ms| > 0 {
      assert Group(window, k)[..0] == [];
    }
  }

  /** The credit group and the debit group together sum the whole window once. */
  lemma GroupsSumWindow(window: seq<Movement>)
    ensures SumBy(Group(window, Credit) + Group(window, Debit), GroupTotal) == SumBy(window, Amount)
  {
    GroupSums(window, Credit);
    GroupSums(window, Debit);
    SumBySplit(window, OfKind(Credit), OfKind(Debit), Amount);
    SumByAppend(Group(window, Credit), Group(window, Debit), GroupTotal);
  }

  /** The credit group and the debit group together count the whole window once. */
  lemma GroupsCountWindow(window: seq<Movement>)
    ensures TotalCount(Group(window, Credit) + Group(window, Debit)) == |window|
  {
    GroupSums(window, Credit);
    GroupSums(window, Debit);
    FilterSplitLength(window, OfKind(Credit), OfKind(Debit));
    TotalCountAppend(Group(window, Credit), Group(window, Debit));
  }

  /**
   * The grand total is the sum of every movement in the window, and the count is how many
   * there are: the two type groups cover the window exactly once.
   */
  lemma StatisticsCoverWindow(s: BankState, from: Option<Time>, to: Option<Time>, now: Time)
    ensures Statistics(s, from, to, now).total == SumBy(WindowOf(s, from, to, now), Amount)
    ensures Statistics(s, from, to, now).count == |WindowOf(s, from, to, now)|
  {
    GroupsSumWindow(WindowOf(s, from, to, now));
    GroupsCountWindow(WindowOf(s, from, to, now));
  }

  /** The window holds exactly the movements dated inside it. */
  lemma WindowContents(s: BankState, from: Option<Time>, to: Option<Time>, now: Time)
    ensures forall m :: m in WindowOf(s, from, to, now) <==>
              m in s.movements && Statistics(s, from, to, now).from <= m.at <= Statistics(s, from, to, now).to
  {
  }

  // ---------------------------------------------------------------------------------------
  // Detailed search.

  /** The search term is used only when it is present and not empty (`string.IsNullOrEmpty`). */
  predicate TermGiven(term: Option<string>)
  {
    term.Some? && term.value != ""
  }

  /**
   * The term occurs in the movement's description, its account's IBAN, or its owner's name or
   * email. A missing account or owner matches nothing.
   */
  predicate TextHit(s: BankState, t: string, m: Movement)
  {
    || Contains(m.description, t)
    || (IsAccount(s, m.account) &&
        var a := s.accounts[m.account - 1];
        || Contains(a.iban, t)
        || (IsUser(s, a.owner) && (Contains(s.users[a.owner - 1].name, t) || Contains(s.users[a.owner - 1].email, t))))
  }

  /** Each given criterion must hold; an absent one does not filter. */
  predicate SearchHit(s: BankState, term: Option<string>, from: Option<Time>, to: Option<Time>, row: (nat, Movement))
  {
    && (TermGiven(term) ==> TextHit(s, term.value, row.1))
    && (from.Some? ==> row.1.at >= from.value)
    && (to.Some? ==> row.1.at <= to.value)
  }

  function MovementDate(row: (nat, Movement)): int
  {
    row.1.at
  }

  /** `PesquisaDetalhada`'s answer: the results, newest first, and how many there are. */
  datatype SearchResult = SearchResult(rows: seq<(nat, Movement)>, count: nat)

  /** `PesquisaDetalhada`: the movements meeting every given criterion, newest first. */
  function Search(s: BankState, term: Option<string>, from: Option<Time>, to: Option<Time>): (r: SearchResult)
    ensures forall row :: row in r.rows <==>
              && IsRow(s.movements, row)
              && (TermGiven(term) ==> TextHit(s, term.value, row.1))
              && (from.Some? ==> row.1.at >= from.value)
              && (to.Some? ==> row.1.at <= to.value)
    ensures SortedDesc(r.rows, MovementDate)
    ensures NoDuplicates(r.rows)
    ensures r.count == |r.rows|
  {
    var rows := Query(Indexed(s.movements), (row: (nat, Movement)) => SearchHit(s, term, from, to, row), MovementDate);
    SearchResult(rows, |rows|)
  }

  /** An empty term filters nothing: the search is the same as with no term at all. */
  lemma EmptyTermIgnored(s: BankState, from: Option<Time>, to: Option<Time>)
    ensures forall row :: row in Search(s, Some(""), from, to).rows <==> row in Search(s, None, from, to).rows
  {
  }

  /** With no criteria the search lists every movement once. */
  lemma UnfilteredSearchListsAll(s: BankState)
    ensures Search(s, None, None, None).count == |s.movements|
  {
    var r := Search(s, None, None, None).rows;
    var all := Indexed(s.movements);
    assert forall row :: row in r <==> row in all;
    NoDuplicatesSameElements(r, all);
  }

  /** The criteria combine conjunctively: a result of a narrower search is a result of each part. */
  lemma SearchConjunctive(s: BankState, term: Option<string>, from: Option<Time>, to: Option<Time>, row: (nat, Movement))
    requires row in Search(s, term, from, to).rows
    ensures row in Search(s, term, None, None).rows
    ensures row in Search(s, None, from, None).rows
    ensures row in Search(s, None, None, to).rows
  {
  }
}

=== FILE: api.dfy ===
/**
 * The API as a whole: any sequence of requests, each answered by its controller action, keeps
 * the store well-formed, so every balance stays non-negative, every balance stays the net of
 * its movements and the unique indexes are never violated.
 */
module Api {
  import opened Common
  import opened Entities
  import opened Bank
  import Transfers
  import Payments
  import Accounts
  import Admin
  import Profiles
  import Notifications
  import Auth

  /** One request that can change the store. `caller` is the user key carried by the token. */
  datatype Request =
    | Register(q: Auth.RegisterRequest, hash: string, now: Time)
    | Login(email: string, password: string, verify: (string, string) -> bool)
    | Transfer(caller: Id, t: Transfers.TransferRequest, now: Time)
    | Pay(caller: Id, p: Payments.PaymentRequest, now: Time)
    | OpenAccount(caller: Id, kind: string, draws: Accounts.IbanDraws, now: Time)
    | CloseAccount(caller: Id, iban: string, now: Time)
    | ChangeRole(user: int, role: string, now: Time)
    | ToggleUser(user: int, now: Time)
    | UpdateProfile(caller: Id, update: Profiles.ProfileUpdate)
    | MarkRead(caller: Id, id: int)

  /**
   * What reaches the action: a token names a stored user (users are never deleted), and the
   * IBAN draws come from the generator's ranges. Anything else is refused before the action.
   */
  predicate Admissible(s: BankState, r: Request)
  {
    match r
    case Register(_, _, _) => true
    case Login(_, _, _) => true
    case ChangeRole(_, _, _) => true
    case ToggleUser(_, _) => true
    case OpenAccount(caller, _, d, _) => IsUser(s, caller) && Accounts.ValidDraws(d)
    case _ => IsUser(s, r.caller)
  }

  /** The store after one request: the action's new store, or the old one when it refuses. */
  function Step(s: BankState, r: Request): BankState
  {
    if !Admissible(s, r) then s
    else
      match r
      case Register(q, hash, now) => Settle(s, Auth.Register(s, q, hash, now))
      case Login(email, password, verify) => Auth.LoginAsWritten(s, email, password, verify).state
      case Transfer(caller, t, now) => Settle(s, Transfers.Execute(s, caller, t, now))
      case Pay(caller, p, now) => Settle(s, Payments.Execute(s, caller, p, now))
      case OpenAccount(caller, kind, d, now) => Settle(s, Accounts.Open(s, caller, kind, d, now))
      case CloseAccount(caller, iban, now) => Settle(s, Accounts.Close(s, caller, iban, now))
      case ChangeRole(user, role, now) => Settle(s, Admin.ChangeRole(s, user, role, now))
      case ToggleUser(user, now) => Settle(s, Admin.Toggle(s, user, now))
      case UpdateProfile(caller, p) => Settle(s, Profiles.UpdateProfile(s, caller, p))
      case MarkRead(caller, id) => Settle(s, Notifications.MarkRead(s, caller, id))
  }

  /** A refused request leaves the store as it was. */
  function Settle(s: BankState, r: Result<BankState>): (s': BankState)
    ensures r.Err? ==> s' == s
    ensures r.Ok? ==> s' == r.value
  {
    if r.Ok? then r.value else s
  }

  /** The store after a sequence of requests, the first one first. */
  function Run(s: BankState, rs: seq<Request>): BankState
    decreases |rs|
  {
    if |rs| == 0 then s else Run(Step(s, rs[0]), rs[1..])
  }

  lemma StepPreservesWellFormed(s: BankState, r: Request)
    requires WellFormed(s)
    ensures WellFormed(Step(s, r))
  {
    if Admissible(s, r) {
      match r
      case Register(q, hash, now) => Auth.RegisterPreservesWellFormed(s, q, hash, now);
      case Login(email, password, verify) => Auth.LoginAsWrittenPreservesWellFormed(s, email, password, verify);
      case Transfer(caller, t, now) => Transfers.TransferPreservesWellFormed(s, caller, t, now);
      case Pay(caller, p, now) => Payments.PaymentPreservesWellFormed(s, caller, p, now);
      case OpenAccount(caller, kind, d, now) => Accounts.OpenPreservesWellFormed(s, caller, kind, d, now);
      case CloseAccount(caller, iban, now) => Accounts.ClosePreservesWellFormed(s, caller, iban, now);
      case ChangeRole(user, role, now) => Admin.ChangeRolePreservesWellFormed(s, user, role, now);
      case ToggleUser(user, now) => Admin.TogglePreservesWellFormed(s, user, now);
      case UpdateProfile(caller, p) => Profiles.UpdateProfilePreservesWellFormed(s, caller, p);
      case MarkRead(caller, id) => Notifications.MarkReadPreservesWellFormed(s, caller, id);
    }
  }

  lemma {:induction false} RunPreservesWellFormed(s: BankState, rs: seq<Request>)
    requires WellFormed(s)
    ensures WellFormed(Run(s, rs))
    decreases |rs|
  {
    if |rs| > 0 {
      StepPreservesWellFormed(s, rs[0]);
      RunPreservesWellFormed(Step(s, rs[0]), rs[1..]);
    }
  }

  // ---------------------------------------------------------------------------------------
  // What the requests alone can produce

  /** Every balance is zero, and no money has ever moved. */
  predicate NoMoney(s: BankState)
  {
    && (forall k :: 0 <= k < |s.accounts| ==> s.accounts[k].balance == 0.0)
    && s.movements == [] && s.transfers == [] && s.payments == []
  }

  /** Every access log names a user, as the required `UtilizadorID` column demands. */
  predicate LogsNameUsers(s: BankState)
  {
    forall i :: 0 <= i < |s.logs| ==> s.logs[i].user.Some?
  }

  /** A transfer needs a balance of at least 0.01 at its source, so without money it is refused. */
  lemma TransferNeedsMoney(s: BankState, caller: Id, t: Transfers.TransferRequest, now: Time)
    requires NoMoney(s)
    ensures Transfers.Execute(s, caller, t, now).Err?
  {
    if Transfers.Execute(s, caller, t, now).Ok? {
      assert false;
    }
  }

  /** A payment needs a balance of at least 0.01, so without money it is refused. */
  lemma PaymentNeedsMoney(s: BankState, caller: Id, p: Payments.PaymentRequest, now: Time)
    requires NoMoney(s)
    ensures Payments.Execute(s, caller, p, now).Err?
  {
    if Payments.Execute(s, caller, p, now).Ok? {
      assert false;
    }
  }

  /**
   * No request brings money in: accounts open at zero, and transfers and payments need a
   * balance of at least 0.01, which a store without money cannot offer.
   */
  lemma StepKeepsNoMoney(s: BankState, r: Request)
    requires NoMoney(s)
    ensures NoMoney(Step(s, r))
  {
    if Admissible(s, r) {
      match r
      case Transfer(caller, t, now) => TransferNeedsMoney(s, caller, t, now);
      case Pay(caller, p, now) => PaymentNeedsMoney(s, caller, p, now);
      case _ =>
    }
  }

  /** Every log the requests write names a user: only registration and login write logs. */
  lemma StepKeepsLogsNamed(s: BankState, r: Request)
    requires LogsNameUsers(s)
    ensures LogsNameUsers(Step(s, r))
  {
    if Admissible(s, r) {
      match r
      case Login(email, password, verify) =>
        var s' := Step(s, r);
        if FindUserByEmail(s.users, email).Some? && Auth.ValidLogin(email, password) {
          var k := FindUserByEmail(s.users, email).value;
          assert s' == Auth.Authenticate(s, k, password, verify).state;
          assert forall i :: 0 <= i < |s.logs| ==> s'.logs[i] == s.logs[i];
        }
      case Register(q, hash, now) =>
        var s' := Step(s, r);
        assert forall i :: 0 <= i < |s.logs| ==> s'.logs[i] == s.logs[i];
      case _ =>
    }
  }

  lemma {:induction false} RunKeepsNoMoney(s: BankState, rs: seq<Request>)
    requires NoMoney(s)
    ensures NoMoney(Run(s, rs))
    decreases |rs|
  {
    if |rs| > 0 {
      StepKeepsNoMoney(s, rs[0]);
      RunKeepsNoMoney(Step(s, rs[0]), rs[1..]);
    }
  }

  lemma {:induction false} RunKeepsLogsNamed(s: BankState, rs: seq<Request>)
    requires LogsNameUsers(s)
    ensures LogsNameUsers(Run(s, rs))
    decreases |rs|
  {
    if |rs| > 0 {
      StepKeepsLogsNamed(s, rs[0]);
      RunKeepsLogsNamed(Step(s, rs[0]), rs[1..]);
    }
  }

  /** Balances that are all zero add up to zero. */
  lemma {:induction false} ZeroBalancesTotal(accounts: seq<Account>)
    requires forall k :: 0 <= k < |accounts| ==> accounts[k].balance == 0.0
    ensures TotalBalance(accounts) == 0.0
  {
    if |accounts| > 0 {
      ZeroBalancesTotal(accounts[..|accounts| - 1]);
    }
  }

  /**
   * Money only enters the bank from outside the API: in every store reachable from an empty
   * one, every balance is zero and no movement, transfer or payment exists.
   */
  lemma ReachableHoldsNoMoney(rs: seq<Request>)
    ensures NoMoney(Run(Empty, rs))
    ensures TotalBalance(Run(Empty, rs).accounts) == 0.0
  {
    RunKeepsNoMoney(Empty, rs);
    ZeroBalancesTotal(Run(Empty, rs).accounts);
  }

  /** The API as written never stores an access log without a user. */
  lemma ReachableLogsNameUsers(rs: seq<Request>)
    ensures LogsNameUsers(Run(Empty, rs))
  {
    RunKeepsLogsNamed(Empty, rs);
  }

  /**
   * Every store the API can reach from an empty one is well-formed: no balance is negative,
   * every balance is the net of its movements, and no two accounts share an IBAN.
   */
  lemma Reachable(rs: seq<Request>)
    ensures WellFormed(Run(Empty, rs))
    ensures BalancesNonNegative(Run(Empty, rs))
    ensures Ledger(Run(Empty, rs).accounts, Run(Empty, rs).movements)
    ensures IbansUnique(Run(Empty, rs).accounts)
  {
    EmptyWellFormed();
    RunPreservesWellFormed(Empty, rs);
    WellFormedBalances(Run(Empty, rs));
  }
}

=== FILE: auth.dfy ===
/**
 * `AuthController`: registration of a new client and login, each leaving an access-log row.
 *
 * The password hasher is outside the model: registration receives the hash it produced, and
 * login receives its verification as a predicate over (stored hash, offered password).
 * The signed token of a successful login is represented by the claims it carries.
 */
module Auth {
  import opened Common
  import opened Text
  import opened Entities
  import opened Bank

  // ---------------------------------------------------------------------------------------
  // Registration

  /** `UtilizadorRegisterDto`. */
  datatype RegisterRequest = RegisterRequest(
    name: string,
    email: string,
    password: string,
    phone: Option<string>,
    nif: string,
    card: string,
    birthDate: Option<Time>,
    profession: Option<string>,
    address: Option<string>)

  /** The validation attributes of `UtilizadorRegisterDto`. */
  predicate ValidRegistration(q: RegisterRequest)
  {
    && Required(q.name) && FitsIn(q.name, NameMax)
    && Required(q.email) && EmailAddress(q.email) && FitsIn(q.email, EmailMax)
    && Required(q.password) && PasswordMin <= Width(q.password) <= PasswordMax
    && FitsOpt(q.phone, PhoneMax)
    && DigitString(q.nif, NifLength)
    && DigitString(q.card, CardLength)
    && FitsOpt(q.profession, ProfessionMax)
    && FitsOpt(q.address, AddressMax)
  }

  /**
   * The password bounds count UTF-16 code units: three characters beyond the Basic Multilingual
   * Plane make a six-unit password, which the minimum of six accepts.
   */
  lemma WidePasswordAccepted()
    ensures var pw := "\U{1F600}\U{1F600}\U{1F600}";
            |pw| < PasswordMin && Required(pw) && PasswordMin <= Width(pw) <= PasswordMax
  {
    var pw := "\U{1F600}\U{1F600}\U{1F600}";
    assert !IsWhiteSpace(pw[0]);
    WidthConcat(pw[..2], pw[2..]);
  }

  predicate EmailTaken(users: seq<User>, email: string)
  {
    exists k :: 0 <= k < |users| && users[k].email == email
  }

  predicate NifTaken(users: seq<User>, nif: string)
  {
    exists k :: 0 <= k < |users| && users[k].nif == nif
  }

  predicate CardTaken(users: seq<User>, card: string)
  {
    exists k :: 0 <= k < |users| && users[k].card == card
  }

  /** The row `Register` inserts: always an active client. */
  function NewUser(q: RegisterRequest, hash: string, now: Time): (u: User)
    ensures u.role == Client && u.active && u.passwordHash == hash && u.createdAt == now
    ensures u.name == q.name && u.email == q.email && u.nif == q.nif && u.card == q.card
    ensures u.phone == q.phone && u.profession == q.profession && u.address == q.address
    ensures u.birthDate == q.birthDate
  {
    User(q.name, q.email, hash, q.phone, Client, true, now, q.nif, q.card, q.birthDate, q.profession, q.address)
  }

  /**
   * `Register`: validation, then the e-mail, NIF and card checks in that order; on success the
   * new user is appended and a successful "registered" access log names it.
   */
  function Register(s: BankState, q: RegisterRequest, hash: string, now: Time): (r: Result<BankState>)
    ensures !ValidRegistration(q) ==> r == Err(Invalid)
    ensures ValidRegistration(q) && EmailTaken(s.users, q.email) ==> r == Err(EmailInUse)
    ensures ValidRegistration(q) && !EmailTaken(s.users, q.email) && NifTaken(s.users, q.nif) ==> r == Err(NifInUse)
    ensures (ValidRegistration(q) && !EmailTaken(s.users, q.email) && !NifTaken(s.users, q.nif)
             && CardTaken(s.users, q.card)) ==> r == Err(CardInUse)
    ensures r.Ok? ==>
              && r.value.users == s.users + [NewUser(q, hash, now)]
              && r.value.logs == s.logs + [AccessLog(Some(|s.users| + 1), true, Registered)]
              && r.value == s.(users := r.value.users, logs := r.value.logs)
  {
    if !ValidRegistration(q) then Err(Invalid)
    else if FindUserByEmail(s.users, q.email).Some? then Err(EmailInUse)
    else if NifTaken(s.users, q.nif) then Err(NifInUse)
    else if CardTaken(s.users, q.card) then Err(CardInUse)
    else
      Ok(s.(users := s.users + [NewUser(q, hash, now)],
            logs := s.logs + [AccessLog(Some(|s.users| + 1), true, Registered)]))
  }

  /** Registration succeeds exactly for a valid request whose e-mail, NIF and card are all unused. */
  lemma RegisterSucceedsIff(s: BankState, q: RegisterRequest, hash: string, now: Time)
    ensures Register(s, q, hash, now).Ok? <==>
              && ValidRegistration(q)
              && !EmailTaken(s.users, q.email)
              && !NifTaken(s.users, q.nif)
              && !CardTaken(s.users, q.card)
  {
  }

  /** A key bound that holds for `n` users still holds once one more user exists. */
  lemma MoreUsers(s: BankState, n: nat)
    requires WellFormed(s) && n >= |s.users|
    ensures AccountsOk(s.accounts, n)
    ensures NotificationsOk(s.notifications, n)
    ensures LogsOk(s.logs, n)
    ensures GrantsOk(s.grants, n)
  {
    forall i | 0 <= i < |s.accounts|
      ensures AccountRowOk(s.accounts[i], n)
    {
      assert AccountRowOk(s.accounts[i], |s.users|);
    }
    forall i | 0 <= i < |s.notifications|
      ensures NotificationRowOk(s.notifications[i], n)
    {
      assert NotificationRowOk(s.notifications[i], |s.users|);
    }
    forall i | 0 <= i < |s.logs|
      ensures LogRowOk(s.logs[i], n)
    {
      assert LogRowOk(s.logs[i], |s.users|);
    }
  }

  /** The uniqueness checks are what keep the e-mail, NIF and card indexes unique. */
  lemma RegisterPreservesWellFormed(s: BankState, q: RegisterRequest, hash: string, now: Time)
    requires WellFormed(s)
    ensures Register(s, q, hash, now).Ok? ==> WellFormed(Register(s, q, hash, now).value)
  {
    if Register(s, q, hash, now).Ok? {
      var s' := Register(s, q, hash, now).value;
      var u := NewUser(q, hash, now);
      MoreUsers(s, |s'.users|);
      assert UserRowOk(u);
      assert UsersOk(s'.users) by {
        forall i | 0 <= i < |s'.users|
          ensures UserRowOk(s'.users[i])
        {
          if i < |s.users| {
            assert s'.users[i] == s.users[i];
          }
        }
      }
      assert UsersUnique(s'.users) by {
        forall i, j | 0 <= i < j < |s'.users|
          ensures s'.users[i].email != s'.users[j].email
          ensures s'.users[i].nif != s'.users[j].nif
          ensures s'.users[i].card != s'.users[j].card
        {
          assert s'.users[i] == s.users[i];
          if j == |s.users| {
            assert s'.users[j] == u;
          } else {
            assert s'.users[j] == s.users[j];
          }
        }
      }
      assert LogRowOk(s'.logs[|s.logs|], |s'.users|);
      assert LogsOk(s'.logs, |s'.users|) by {
        forall i | 0 <= i < |s'.logs|
          ensures LogRowOk(s'.logs[i], |s'.users|)
        {
          if i < |s.logs| {
            assert s'.logs[i] == s.logs[i];
          }
        }
      }
    }
  }

  // ---------------------------------------------------------------------------------------
  // Login

  /** The claims of the token a successful login returns, with the role and name it echoes. */
  datatype Session = Session(user: Id, email: string, role: Role, name: string)

  /** A login changes the store (the access log) whether or not it succeeds. */
  datatype Attempt = Attempt(state: BankState, response: Result<Session>)

  /** `UtilizadorLoginDto`: both fields are required. */
  predicate ValidLogin(email: string, password: string)
  {
    Required(email) && Required(password)
  }

  function AppendLog(s: BankState, log: AccessLog): (r: BankState)
    ensures r.logs == s.logs + [log]
    ensures r == s.(logs := r.logs)
  {
    s.(logs := s.logs + [log])
  }

  /** The user the login names, its password checked and its state checked, in that order. */
  function Authenticate(s: BankState, k: nat, password: string, verify: (string, string) -> bool): (a: Attempt)
    requires k < |s.users|
    ensures |a.state.logs| == |s.logs| + 1
    ensures a.state == AppendLog(s, a.state.logs[|s.logs|])
    ensures a.state.logs[|s.logs|].user == Some(k + 1)
    ensures a.state.logs[|s.logs|].success <==> a.response.Ok?
    ensures !verify(s.users[k].passwordHash, password) ==> a.response == Err(WrongPassword)
    ensures verify(s.users[k].passwordHash, password) && !s.users[k].active ==> a.response == Err(UserInactive)
    ensures a.response.Ok? ==> a.response.value == Session(k + 1, s.users[k].email, s.users[k].role, s.users[k].name)
  {
    var u := s.users[k];
    if !verify(u.passwordHash, password) then
      Attempt(AppendLog(s, AccessLog(Some(k + 1), false, WrongPasswordAttempt)), Err(WrongPassword))
    else if !u.active then
      Attempt(AppendLog(s, AccessLog(Some(k + 1), false, InactiveAttempt)), Err(UserInactive))
    else
      Attempt(AppendLog(s, AccessLog(Some(k + 1), true, LoggedIn)), Ok(Session(k + 1, u.email, u.role, u.name)))
  }

  /**
   * `Login`, with the unknown-email attempt logged without a user reference: an invalid body
   * is refused before anything is written; every other attempt appends one access log and
   * is answered by the first failing check among e-mail, password and state.
   */
  function Login(s: BankState, email: string, password: string, verify: (string, string) -> bool): (a: Attempt)
    ensures !ValidLogin(email, password) ==> a == Attempt(s, Err(Invalid))
    ensures ValidLogin(email, password) && !EmailTaken(s.users, email) ==>
              a == Attempt(AppendLog(s, AccessLog(None, false, UnknownEmailAttempt)), Err(UnknownEmail))
    ensures a.response.Ok? ==>
              && IsUser(s, a.response.value.user)
              && s.users[a.response.value.user - 1].email == email
              && verify(s.users[a.response.value.user - 1].passwordHash, password)
              && s.users[a.response.value.user - 1].active
  {
    if !ValidLogin(email, password) then Attempt(s, Err(Invalid))
    else
      match FindUserByEmail(s.users, email)
      case None => Attempt(AppendLog(s, AccessLog(None, false, UnknownEmailAttempt)), Err(UnknownEmail))
      case Some(k) => Authenticate(s, k, password, verify)
  }

  /**
   * Every well-formed login request leaves exactly one new access log and nothing else, and
   * the log records success exactly when the login succeeded.
   */
  lemma LoginLogsEveryAttempt(s: BankState, email: string, password: string, verify: (string, string) -> bool)
    requires ValidLogin(email, password)
    ensures var a := Login(s, email, password, verify);
            && |a.state.logs| == |s.logs| + 1
            && a.state.logs[..|s.logs|] == s.logs
            && a.state == s.(logs := a.state.logs)
            && (a.state.logs[|s.logs|].success <==> a.response.Ok?)
  {
    var a := Login(s, email, password, verify);
    assert a.state.logs == s.logs + [a.state.logs[|s.logs|]];
  }

  /** Login succeeds exactly for a stored, active user whose password verifies. */
  lemma LoginSucceedsIff(s: BankState, email: string, password: string, verify: (string, string) -> bool)
    requires UsersUnique(s.users)
    ensures Login(s, email, password, verify).response.Ok? <==>
              && ValidLogin(email, password)
              && exists k :: 0 <= k < |s.users| && s.users[k].email == email
                               && verify(s.users[k].passwordHash, password) && s.users[k].active
  {
  }

  /** Under the e-mail index a user is located by its e-mail. */
  lemma EmailLocates(users: seq<User>, k: nat)
    requires UsersUnique(users) && k < |users|
    ensures FindUserByEmail(users, users[k].email) == Some(k)
  {
    var j := FindUserByEmail(users, users[k].email).value;
    assert users[j].email == users[k].email;
  }

  /**
   * The ladder for a stored user: a wrong password is refused as such even when the user is
   * inactive, and an inactive user is refused even with the right password.
   */
  lemma LoginLadder(s: BankState, k: nat, password: string, verify: (string, string) -> bool)
    requires UsersUnique(s.users) && k < |s.users| && Required(password)
    requires Required(s.users[k].email)
    ensures var a := Login(s, s.users[k].email, password, verify);
            && (!verify(s.users[k].passwordHash, password) ==> a.response == Err(WrongPassword))
            && (verify(s.users[k].passwordHash, password) && !s.users[k].active ==> a.response == Err(UserInactive))
            && a.state.logs[|s.logs|] ==
               AccessLog(Some(k + 1), a.response.Ok?,
                         if !verify(s.users[k].passwordHash, password) then WrongPasswordAttempt
                         else if !s.users[k].active then InactiveAttempt
                         else LoggedIn)
  {
    EmailLocates(s.users, k);
  }

  lemma LoginPreservesWellFormed(s: BankState, email: string, password: string, verify: (string, string) -> bool)
    requires WellFormed(s)
    ensures WellFormed(Login(s, email, password, verify).state)
  {
    var s' := Login(s, email, password, verify).state;
    if ValidLogin(email, password) {
      LoginLogsEveryAttempt(s, email, password, verify);
      match FindUserByEmail(s.users, email)
      case None =>
      case Some(k) =>
        assert LogRowOk(s'.logs[|s.logs|], |s.users|);
      assert LogsOk(s'.logs, |s'.users|) by {
        forall i | 0 <= i < |s'.logs|
          ensures LogRowOk(s'.logs[i], |s'.users|)
        {
          if i < |s.logs| {
            assert s'.logs[i] == s.logs[i];
          }
        }
      }
    }
  }

  /**
   * Registration and login fit together: right after registering, logging in with the same
   * e-mail and password (which the hasher verifies against the hash it produced) opens a
   * session for the new client.
   */
  lemma RegisterThenLogin(s: BankState, q: RegisterRequest, hash: string, now: Time, verify: (string, string) -> bool)
    requires Register(s, q, hash, now).Ok?
    requires verify(hash, q.password)
    ensures Login(Register(s, q, hash, now).value, q.email, q.password, verify).response
              == Ok(Session(|s.users| + 1, q.email, Client, q.name))
  {
    var s' := Register(s, q, hash, now).value;
    var u := NewUser(q, hash, now);
    assert s'.users[|s.users|] == u;
    assert FindUserByEmail(s'.users, q.email) == Some(|s.users|) by {
      assert forall k :: 0 <= k < |s.users| ==> s'.users[k] == s.users[k];
    }
    assert Login(s', q.email, q.password, verify) == Authenticate(s', |s.users|, q.password, verify);
  }

  // ---------------------------------------------------------------------------------------
  // Login as written

  /**
   * `Login` as the controller writes it: the unknown-email log leaves `UtilizadorID` at its
   * default 0, a key no user has, so the store refuses the save, nothing is written and the
   * request fails with 500 instead of the intended "user not found". Every other path is
   * `Login`'s.
   */
  function LoginAsWritten(s: BankState, email: string, password: string, verify: (string, string) -> bool): (a: Attempt)
    ensures FindUserByEmail(s.users, email).Some? ==> a == Login(s, email, password, verify)
  {
    if !ValidLogin(email, password) then Attempt(s, Err(Invalid))
    else
      match FindUserByEmail(s.users, email)
      case None =>
        var log := AccessLog(Some(0), false, UnknownEmailAttempt);
        if LogRowOk(log, |s.users|) then Attempt(AppendLog(s, log), Err(UnknownEmail))
        else Attempt(s, Err(StoreRejected))
      case Some(k) => Authenticate(s, k, password, verify)
  }

  /**
   * The login as written keeps the store well-formed: for a registered e-mail it is `Login`, and
   * otherwise the store refuses the log, so nothing is written.
   */
  lemma LoginAsWrittenPreservesWellFormed(s: BankState, email: string, password: string, verify: (string, string) -> bool)
    requires WellFormed(s)
    ensures WellFormed(LoginAsWritten(s, email, password, verify).state)
    ensures FindUserByEmail(s.users, email).None? ==> LoginAsWritten(s, email, password, verify).state == s
  {
    if FindUserByEmail(s.users, email).Some? {
      LoginPreservesWellFormed(s, email, password, verify);
    }
  }

  /**
   * The discrepancy: for every store, a well-formed login with an unregistered e-mail is
   * answered with 500 and leaves no access log, where the corrected `Login` logs the attempt
   * and answers 400 "user not found".
   */
  lemma UnknownEmailLogLost(s: BankState, email: string, password: string, verify: (string, string) -> bool)
    requires ValidLogin(email, password) && !EmailTaken(s.users, email)
    ensures LoginAsWritten(s, email, password, verify) == Attempt(s, Err(StoreRejected))
    ensures HttpStatus(LoginAsWritten(s, email, password, verify).response.error) == 500
    ensures Login(s, email, password, verify).response == Err(UnknownEmail)
    ensures HttpStatus(Login(s, email, password, verify).response.error) == 400
    ensures |Login(s, email, password, verify).state.logs| == |s.logs| + 1
  {
  }

  /** A concrete instance: the empty store and any well-formed credentials. */
  lemma UnknownEmailExample()
    ensures LoginAsWritten(Empty, "a@b", "secret", (h: string, p: string) => true).response == Err(StoreRejected)
    ensures Login(Empty, "a@b", "secret", (h: string, p: string) => true).state.logs
              == [AccessLog(None, false, UnknownEmailAttempt)]
  {
    assert ValidLogin("a@b", "secret") by {
      assert !IsWhiteSpace("a@b"[0]);
      assert !IsWhiteSpace("secret"[0]);
    }
  }
}

=== FILE: bank.dfy ===
/**
 * The bank's store as one immutable value, the lookups the controllers run against it, and the
 * invariants every operation preserves.
 *
 * Every table is append-only (the controllers never delete a row), so a row's identity key is
 * its position plus one.
 */
module Bank {
  import opened Common
  import opened Text
  import opened Entities
  import opened Seqs

  datatype BankState = BankState(
    users: seq<User>,
    accounts: seq<Account>,
    movements: seq<Movement>,
    transfers: seq<Transfer>,
    payments: seq<Payment>,
    notifications: seq<Notification>,
    logs: seq<AccessLog>,
    grants: seq<Grant>)

  const Empty: BankState := BankState([], [], [], [], [], [], [], [])

  predicate IsUser(s: BankState, u: Id)
  {
    1 <= u <= |s.users|
  }

  predicate IsAccount(s: BankState, a: Id)
  {
    1 <= a <= |s.accounts|
  }

  /** The account with key `a` belongs to user `u`. */
  predicate Owns(s: BankState, u: Id, a: Id)
  {
    IsAccount(s, a) && s.accounts[a - 1].owner == u
  }

  /** An account the query `c.IBAN == iban [&& c.UtilizadorID == owner]` selects. */
  predicate Matches(a: Account, iban: string, owner: Option<Id>)
  {
    a.iban == iban && (owner.Some? ==> a.owner == owner.value)
  }

  /** `FirstOrDefault` over the accounts: the position of the first match, if any. */
  function FindAccount(accounts: seq<Account>, iban: string, owner: Option<Id>): (r: Option<nat>)
    ensures r.Some? ==> r.value < |accounts| && Matches(accounts[r.value], iban, owner)
    ensures r.Some? ==> forall k :: 0 <= k < r.value ==> !Matches(accounts[k], iban, owner)
    ensures r.None? <==> forall k :: 0 <= k < |accounts| ==> !Matches(accounts[k], iban, owner)
  {
    if |accounts| == 0 then None
    else if Matches(accounts[0], iban, owner) then Some(0)
    else
      match FindAccount(accounts[1..], iban, owner)
      case None =>
        assert forall k :: 1 <= k < |accounts| ==> accounts[k] == accounts[1..][k - 1];
        None
      case Some(k) => Some(k + 1)
  }

  /** `FirstOrDefault(u => u.Email == email)` over the users. */
  function FindUserByEmail(users: seq<User>, email: string): (r: Option<nat>)
    ensures r.Some? ==> r.value < |users| && users[r.value].email == email
    ensures r.Some? ==> forall k :: 0 <= k < r.value ==> users[k].email != email
    ensures r.None? <==> forall k :: 0 <= k < |users| ==> users[k].email != email
  {
    if |users| == 0 then None
    else if users[0].email == email then Some(0)
    else
      match FindUserByEmail(users[1..], email)
      case None =>
        assert forall k :: 1 <= k < |users| ==> users[k] == users[1..][k - 1];
        None
      case Some(k) => Some(k + 1)
  }

  // ---------------------------------------------------------------------------------------
  // The ledger: every balance is the net of the movements on its account.

  /** The signed effect of one movement on account `a`. */
  function Signed(m: Movement, a: Id): Money
  {
    if m.account != a then 0.0
    else if m.kind == Credit then m.amount
    else -m.amount
  }

  /** Credits minus debits recorded on account `a`. */
  function Net(ms: seq<Movement>, a: Id): Money
  {
    if |ms| == 0 then 0.0 else Net(ms[..|ms| - 1], a) + Signed(ms[|ms| - 1], a)
  }

  lemma NetAppend(ms: seq<Movement>, m: Movement, a: Id)
    ensures Net(ms + [m], a) == Net(ms, a) + Signed(m, a)
  {
    assert (ms + [m])[..|ms|] == ms;
  }

  /** An account no movement refers to has a net of zero. */
  lemma {:induction false} NetUntouched(ms: seq<Movement>, a: Id)
    requires forall i :: 0 <= i < |ms| ==> ms[i].account != a
    ensures Net(ms, a) == 0.0
  {
    if |ms| > 0 {
      NetUntouched(ms[..|ms| - 1], a);
    }
  }

  predicate Ledger(accounts: seq<Account>, ms: seq<Movement>)
  {
    forall i :: 0 <= i < |accounts| ==> accounts[i].balance == Net(ms, i + 1)
  }

  function Balance(a: Account): Money
  {
    a.balance
  }

  /** All the money the bank holds: the sum of every account's balance. */
  function TotalBalance(accounts: seq<Account>): Money
  {
    SumBy(accounts, Balance)
  }

  // ---------------------------------------------------------------------------------------
  // Table invariants: column bounds, foreign keys, unique indexes.

  predicate AccountsOk(accounts: seq<Account>, users: nat)
  {
    forall i :: 0 <= i < |accounts| ==> AccountRowOk(accounts[i], users) && AccountLifecycleOk(accounts[i])
  }

  /** The unique index on `IBAN`. */
  predicate IbansUnique(accounts: seq<Account>)
  {
    forall i, j :: 0 <= i < j < |accounts| ==> accounts[i].iban != accounts[j].iban
  }

  predicate MovementsOk(ms: seq<Movement>, accounts: nat)
  {
    forall i :: 0 <= i < |ms| ==> MovementRowOk(ms[i], accounts)
  }

  predicate TransfersOk(ts: seq<Transfer>, accounts: nat)
  {
    forall i :: 0 <= i < |ts| ==> TransferRowOk(ts[i], accounts)
  }

  predicate PaymentsOk(ps: seq<Payment>, accounts: nat)
  {
    forall i :: 0 <= i < |ps| ==> PaymentRowOk(ps[i], accounts)
  }

  predicate NotificationsOk(ns: seq<Notification>, users: nat)
  {
    forall i :: 0 <= i < |ns| ==> NotificationRowOk(ns[i], users)
  }

  predicate UsersOk(us: seq<User>)
  {
    forall i :: 0 <= i < |us| ==> UserRowOk(us[i])
  }

  /** The unique indexes on `Email`, `NIF` and `CartaoCidadao`. */
  predicate UsersUnique(us: seq<User>)
  {
    forall i, j :: 0 <= i < j < |us| ==>
      us[i].email != us[j].email && us[i].nif != us[j].nif && us[i].card != us[j].card
  }

  predicate LogsOk(ls: seq<AccessLog>, users: nat)
  {
    forall i :: 0 <= i < |ls| ==> LogRowOk(ls[i], users)
  }

  /** The composite key `(UtilizadorID, PermissaoID)` and the user foreign key of the links. */
  predicate GrantsOk(gs: seq<Grant>, users: nat)
  {
    && (forall i :: 0 <= i < |gs| ==> 1 <= gs[i].user <= users)
    && (forall i, j :: 0 <= i < j < |gs| ==> gs[i] != gs[j])
  }

  predicate WellFormed(s: BankState)
  {
    && UsersOk(s.users)
    && UsersUnique(s.users)
    && AccountsOk(s.accounts, |s.users|)
    && IbansUnique(s.accounts)
    && MovementsOk(s.movements, |s.accounts|)
    && TransfersOk(s.transfers, |s.accounts|)
    && PaymentsOk(s.payments, |s.accounts|)
    && NotificationsOk(s.notifications, |s.users|)
    && LogsOk(s.logs, |s.users|)
    && GrantsOk(s.grants, |s.users|)
    && Ledger(s.accounts, s.movements)
  }

  /** Every balance is non-negative. */
  predicate BalancesNonNegative(s: BankState)
  {
    forall i :: 0 <= i < |s.accounts| ==> s.accounts[i].balance >= 0.0
  }

  lemma WellFormedBalances(s: BankState)
    requires WellFormed(s)
    ensures BalancesNonNegative(s)
  {
    forall i | 0 <= i < |s.accounts|
      ensures s.accounts[i].balance >= 0.0
    {
      assert AccountRowOk(s.accounts[i], |s.users|);
    }
  }

  lemma EmptyWellFormed()
    ensures WellFormed(Empty)
  {
  }

  /** Under the IBAN index an account is located by its IBAN alone. */
  lemma UniqueIbanLocates(s: BankState, iban: string, i: nat)
    requires IbansUnique(s.accounts)
    requires i < |s.accounts| && s.accounts[i].iban == iban
    ensures FindAccount(s.accounts, iban, None) == Some(i)
  {
  }
}

=== FILE: common.dfy ===
/** Scalars, optional values, outcomes and the error taxonomy shared by every controller. */
module Common {

  /** Exact decimal amounts (C# `decimal`), modelled without rounding. */
  type Money = real

  /** A point in time in whole seconds; the clock is a parameter of every operation that reads it. */
  type Time = int

  /** Identity-column keys: the row at position `i` of a table has key `i + 1`. */
  type Id = nat

  /** Lower bound of every amount (`[Range(0.01, double.MaxValue)]`). */
  const MinAmount: Money := 0.01

  const SecondsPerDay: int := 86400

  /** Width of the default reporting window (`DateTime.UtcNow.AddDays(-30)`). */
  const DefaultWindowDays: int := 30

  datatype Option<+T> = None | Some(value: T) {
    function GetOr(default: T): T {
      match this
      case Some(v) => v
      case None => default
    }
  }

  /** Why a request was refused; one constructor per distinct response of the controllers. */
  datatype Error =
    | Invalid              // automatic model validation of the request body
    | SourceNotFound       // transfer: source IBAN unknown or not the caller's
    | SourceInactive
    | DestinationNotFound
    | DestinationInactive
    | AccountNotFound      // payment: IBAN unknown or not the caller's
    | AccountInactive
    | InsufficientFunds
    | NotFound             // 404 responses
    | BalanceNotZero       // closing an account that still holds money
    | InvalidMovementType
    | InvalidRole
    | EmailInUse
    | NifInUse
    | CardInUse
    | UnknownEmail
    | WrongPassword
    | UserInactive
    | StoreRejected        // the store refused the save (constraint violation): 500, nothing saved

  /** The HTTP status each refusal is answered with. */
  function HttpStatus(e: Error): (code: nat)
    ensures code in {400, 404, 500}
    ensures code == 404 <==> e == NotFound
    ensures code == 500 <==> e == StoreRejected
  {
    match e
    case NotFound => 404
    case StoreRejected => 500
    case _ => 400
  }

  datatype Result<+T> = Ok(value: T) | Err(error: Error)
}

=== FILE: entities.dfy ===
/**
 * The rows of the bank's store (`ContaBancaria`, `Movimento`, `Transferencia`, `Pagamento`,
 * `Notificacao`, `Utilizador`, `LogAcesso`, `UtilizadorPermissao`) with their column bounds
 * and defaults.
 */
module Entities {
  import opened Common
  import opened Text

  // Column widths from the `[StringLength]` annotations.
  const IbanMax: nat := 34
  const AccountKindMax: nat := 50
  const AccountStateMax: nat := 20
  const MovementKindMax: nat := 50
  const DescriptionMax: nat := 250
  const EntityMax: nat := 150
  const ReferenceMax: nat := 50
  const TitleMax: nat := 100
  const MessageMax: nat := 500
  const NameMax: nat := 100
  const EmailMax: nat := 150
  const PhoneMax: nat := 20
  const RoleMax: nat := 50
  const NifLength: nat := 9
  const CardLength: nat := 8
  const ProfessionMax: nat := 100
  const AddressMax: nat := 250
  const PasswordMin: nat := 6
  const PasswordMax: nat := 100

  /** `Estado` of an account. `Blocked` is declared but no operation ever assigns it. */
  datatype AccountState = Active | Blocked | Closed {
    function Name(): (s: string)
      ensures 0 < |s| && FitsIn(s, AccountStateMax)
    {
      var s := match this
        case Active => "Ativa"
        case Blocked => "Bloqueada"
        case Closed => "Encerrada";
      WidthBounds(s);
      s
    }
  }

  /** `TipoMovimento`. */
  datatype MovementKind = Credit | Debit {
    function Name(): (s: string)
      ensures 0 < |s| && FitsIn(s, MovementKindMax)
    {
      var s := match this
        case Credit => "Credito"
        case Debit => "Debito";
      WidthBounds(s);
      s
    }
  }

  /** Accepts exactly the two stored spellings of a movement type. */
  function ParseMovementKind(s: string): (r: Option<MovementKind>)
    ensures r.Some? ==> r.value.Name() == s
    ensures r.None? ==> Credit.Name() != s && Debit.Name() != s
  {
    if s == "Credito" then Some(Credit)
    else if s == "Debito" then Some(Debit)
    else None
  }

  lemma MovementKindRoundTrip(k: MovementKind)
    ensures ParseMovementKind(k.Name()) == Some(k)
  {
  }

  /** `Perfil` of a user. */
  datatype Role = Client | Administrator {
    function Name(): (s: string)
      ensures 0 < |s| && FitsIn(s, RoleMax)
    {
      var s := match this
        case Client => "Cliente"
        case Administrator => "Administrador";
      WidthBounds(s);
      s
    }
  }

  /** Accepts exactly the two role names. */
  function ParseRole(s: string): (r: Option<Role>)
    ensures r.Some? ==> r.value.Name() == s
    ensures r.None? ==> Client.Name() != s && Administrator.Name() != s
  {
    if s == "Administrador" then Some(Administrator)
    else if s == "Cliente" then Some(Client)
    else None
  }

  lemma RoleRoundTrip(r: Role)
    ensures ParseRole(r.Name()) == Some(r)
  {
  }

  predicate FitsOpt(o: Option<string>, max: nat)
  {
    o.None? || FitsIn(o.value, max)
  }

  /** `ContaBancaria`. `owner` is the key of a user. */
  datatype Account = Account(
    owner: Id,
    iban: string,
    kind: string,
    balance: Money,
    state: AccountState,
    createdAt: Time,
    closedAt: Option<Time>)

  /** Column constraints of an account row, given how many users its owner key may refer to. */
  predicate AccountRowOk(a: Account, users: nat)
  {
    && 1 <= a.owner <= users
    && FitsIn(a.iban, IbanMax)
    && FitsIn(a.kind, AccountKindMax)
    && a.balance >= 0.0
  }

  /**
   * Lifecycle facts every reachable account satisfies: it is never blocked, it has a closure
   * date exactly when it is closed, and a closed account holds no money.
   */
  predicate AccountLifecycleOk(a: Account)
  {
    && a.state != Blocked
    && (a.closedAt.Some? <==> a.state == Closed)
    && (a.state == Closed ==> a.balance == 0.0)
  }

  /** `Movimento`: one side of a ledger entry on one account. */
  datatype Movement = Movement(
    account: Id,
    kind: MovementKind,
    amount: Money,
    at: Time,
    description: string)

  predicate MovementRowOk(m: Movement, accounts: nat)
  {
    && 1 <= m.account <= accounts
    && m.amount >= MinAmount
    && FitsIn(m.description, DescriptionMax)
  }

  /** `Transferencia`. */
  datatype Transfer = Transfer(
    source: Id,
    destination: Id,
    amount: Money,
    at: Time,
    description: Option<string>)

  predicate TransferRowOk(t: Transfer, accounts: nat)
  {
    && 1 <= t.source <= accounts
    && 1 <= t.destination <= accounts
    && t.amount >= MinAmount
    && FitsOpt(t.description, DescriptionMax)
  }

  /** `Pagamento`. */
  datatype Payment = Payment(
    account: Id,
    entity: string,
    reference: string,
    amount: Money,
    at: Time)

  predicate PaymentRowOk(p: Payment, accounts: nat)
  {
    && 1 <= p.account <= accounts
    && FitsIn(p.entity, EntityMax)
    && FitsIn(p.reference, ReferenceMax)
    && p.amount >= MinAmount
  }

  /**
   * What a notification reports. The message text itself formats amounts with the server's
   * culture, so it is kept as the data it is built from.
   */
  datatype NoticeBody =
    | TransferSent(amount: Money, toIban: string)
    | TransferReceived(amount: Money, fromIban: string)
    | PaymentMade(amount: Money, entity: string, reference: string)
    | AccountOpened(kind: string, iban: string)
    | AccountClosed(iban: string)
    | RoleChanged(role: Role)
    | StateToggled(active: bool)

  function TitleOf(body: NoticeBody): string
  {
    match body
    case TransferSent(_, _) => "Transferência Realizada"
    case TransferReceived(_, _) => "Transferência Recebida"
    case PaymentMade(_, _, _) => "Pagamento Realizado"
    case AccountOpened(_, _) => "Nova Conta Bancária"
    case AccountClosed(_) => "Conta Encerrada"
    case RoleChanged(_) => "Alteração de Perfil"
    case StateToggled(_) => "Estado da Conta"
  }

  /** `Notificacao`. */
  datatype Notification = Notification(
    user: Id,
    title: string,
    body: NoticeBody,
    sentAt: Time,
    read: bool)

  predicate NotificationRowOk(n: Notification, users: nat)
  {
    && 1 <= n.user <= users
    && 0 < |n.title| && FitsIn(n.title, TitleMax)
  }

  /** A fresh notification as the controllers create it: unread, stamped with the clock. */
  function Notice(user: Id, body: NoticeBody, now: Time): (n: Notification)
    ensures n.user == user && n.body == body && n.sentAt == now
    ensures !n.read
    ensures 0 < |n.title| && FitsIn(n.title, TitleMax)
  {
    WidthBounds(TitleOf(body));
    Notification(user, TitleOf(body), body, now, false)
  }

  /** `Utilizador`. `passwordHash` is whatever the password hasher produced. */
  datatype User = User(
    name: string,
    email: string,
    passwordHash: string,
    phone: Option<string>,
    role: Role,
    active: bool,
    createdAt: Time,
    nif: string,
    card: string,
    birthDate: Option<Time>,
    profession: Option<string>,
    address: Option<string>)

  predicate UserRowOk(u: User)
  {
    && Required(u.name) && FitsIn(u.name, NameMax)
    && Required(u.email) && EmailAddress(u.email) && FitsIn(u.email, EmailMax)
    && FitsOpt(u.phone, PhoneMax)
    && DigitString(u.nif, NifLength)
    && DigitString(u.card, CardLength)
    && FitsOpt(u.profession, ProfessionMax)
    && FitsOpt(u.address, AddressMax)
  }

  datatype LogReason = Registered | UnknownEmailAttempt | WrongPasswordAttempt | InactiveAttempt | LoggedIn

  /**
   * `LogAcesso`. `user` is the user reference; `None` stands for a log not tied to any user,
   * which the store accepts only if the column is nullable.
   */
  datatype AccessLog = AccessLog(user: Option<Id>, success: bool, reason: LogReason)

  predicate LogRowOk(l: AccessLog, users: nat)
  {
    l.user.Some? ==> 1 <= l.user.value <= users
  }

  /** `UtilizadorPermissao`: a user-permission link, keyed by the pair. */
  datatype Grant = Grant(user: Id, permission: Id)
}

=== FILE: notifications.dfy ===
/**
 * The caller's notifications (`UserController.GetMyNotifications`,
 * `NotificacaoController.GetNotificacoes` and `GetNotificacoesNaoLidas`) and marking one as read
 * (`UserController.MarkNotificationAsRead`, `NotificacaoController.MarcarComoLida`, which behave
 * alike).
 */
module Notifications {
  import opened Common
  import opened Seqs
  import opened Entities
  import opened Bank

  type NotificationRow = (nat, Notification)

  function SentAt(row: NotificationRow): int
  {
    row.1.sentAt
  }

  predicate Addressed(caller: Id, row: NotificationRow)
  {
    row.1.user == caller
  }

  predicate Unseen(caller: Id, row: NotificationRow)
  {
    row.1.user == caller && !row.1.read
  }

  /** The caller's notifications, newest first. */
  function Mine(s: BankState, caller: Id): (r: seq<NotificationRow>)
    ensures forall row :: row in r <==> IsRow(s.notifications, row) && row.1.user == caller
    ensures SortedDesc(r, SentAt)
    ensures NoDuplicates(r)
  {
    Query(Indexed(s.notifications), (row: NotificationRow) => Addressed(caller, row), SentAt)
  }

  /** The caller's unread notifications, newest first. */
  function Unread(s: BankState, caller: Id): (r: seq<NotificationRow>)
    ensures forall row :: row in r <==> IsRow(s.notifications, row) && row.1.user == caller && !row.1.read
    ensures SortedDesc(r, SentAt)
    ensures NoDuplicates(r)
  {
    Query(Indexed(s.notifications), (row: NotificationRow) => Unseen(caller, row), SentAt)
  }

  /** The caller's notification with key `id`, if there is one. */
  predicate OwnNotification(s: BankState, caller: Id, id: int)
  {
    1 <= id <= |s.notifications| && s.notifications[id - 1].user == caller
  }

  /**
   * `MarcarComoLida` / `MarkNotificationAsRead`: `NotFound` for an unknown key or another
   * user's notification; otherwise that notification is read and nothing else changes.
   */
  function MarkRead(s: BankState, caller: Id, id: int): (r: Result<BankState>)
    ensures r.Ok? <==> OwnNotification(s, caller, id)
    ensures r.Err? ==> r.error == NotFound
    ensures r.Ok? ==>
              && |r.value.notifications| == |s.notifications|
              && r.value.notifications[id - 1] == s.notifications[id - 1].(read := true)
              && (forall k :: 0 <= k < |s.notifications| && k != id - 1 ==> r.value.notifications[k] == s.notifications[k])
              && r.value == s.(notifications := r.value.notifications)
  {
    if !OwnNotification(s, caller, id) then Err(NotFound)
    else Ok(s.(notifications := s.notifications[id - 1 := s.notifications[id - 1].(read := true)]))
  }

  /** Marking is one-way: no notification becomes unread. */
  lemma MarkReadMonotone(s: BankState, caller: Id, id: int)
    ensures var r := MarkRead(s, caller, id);
            r.Ok? ==> forall k :: 0 <= k < |s.notifications| && s.notifications[k].read ==> r.value.notifications[k].read
  {
  }

  /** Marking again succeeds and changes nothing. */
  lemma MarkReadIdempotent(s: BankState, caller: Id, id: int)
    requires MarkRead(s, caller, id).Ok?
    ensures MarkRead(MarkRead(s, caller, id).value, caller, id) == MarkRead(s, caller, id)
  {
    var s1 := MarkRead(s, caller, id).value;
    assert s1.notifications[id - 1 := s1.notifications[id - 1].(read := true)] == s1.notifications;
  }

  /** After marking, the notification is no longer among the caller's unread ones. */
  lemma MarkReadClears(s: BankState, caller: Id, id: int)
    requires MarkRead(s, caller, id).Ok?
    ensures forall row :: row in Unread(MarkRead(s, caller, id).value, caller) ==> row.0 != id
  {
  }

  /** Every other notification is unread afterwards exactly when it was unread before. */
  lemma MarkReadKeepsOtherUnread(s: BankState, caller: Id, id: int)
    requires MarkRead(s, caller, id).Ok?
    ensures forall row: NotificationRow :: row.0 != id ==>
              (row in Unread(MarkRead(s, caller, id).value, caller) <==> row in Unread(s, caller))
  {
  }

  /** The row `row` as it reads after notification `id` has been marked. */
  function AfterMark(row: NotificationRow, id: int): NotificationRow
  {
    if row.0 == id then (row.0, row.1.(read := true)) else row
  }

  /** The caller's full list keeps the same notifications; only the marked one now reads as read. */
  lemma MarkReadKeepsMine(s: BankState, caller: Id, id: int)
    requires MarkRead(s, caller, id).Ok?
    ensures forall row :: row in Mine(s, caller) ==> AfterMark(row, id) in Mine(MarkRead(s, caller, id).value, caller)
  {
  }

  lemma MarkReadPreservesWellFormed(s: BankState, caller: Id, id: int)
    requires WellFormed(s)
    ensures MarkRead(s, caller, id).Ok? ==> WellFormed(MarkRead(s, caller, id).value)
  {
    if MarkRead(s, caller, id).Ok? {
      var s' := MarkRead(s, caller, id).value;
      assert NotificationsOk(s'.notifications, |s'.users|) by {
        forall k | 0 <= k < |s'.notifications|
          ensures NotificationRowOk(s'.notifications[k], |s'.users|)
        {
          assert NotificationRowOk(s.notifications[k], |s.users|);
        }
      }
    }
  }
}

=== FILE: payments.dfy ===
/** `PagamentoController`: paying an entity from one of the caller's accounts, and the caller's payment list. */
module Payments {
  import opened Common
  import opened Text
  import opened Seqs
  import opened Entities
  import opened Bank

  /** `PagamentoDto`. */
  datatype PaymentRequest = PaymentRequest(iban: string, entity: string, reference: string, amount: Money)

  /** Model validation of `PagamentoDto`. */
  predicate ValidPaymentRequest(q: PaymentRequest)
  {
    && Required(q.iban)
    && Required(q.entity) && FitsIn(q.entity, EntityMax)
    && Required(q.reference) && FitsIn(q.reference, ReferenceMax)
    && q.amount >= MinAmount
  }

  /** "Pagamento a {Entidade} - Ref: {Referencia}". */
  function PaymentDescription(q: PaymentRequest): string
  {
    "Pagamento a " + q.entity + " - Ref: " + q.reference
  }

  /** A validated request always yields a description that fits the 250-character column. */
  lemma PaymentDescriptionFits(q: PaymentRequest)
    requires ValidPaymentRequest(q)
    ensures FitsIn(PaymentDescription(q), DescriptionMax)
  {
    WidthBounds("Pagamento a ");
    WidthBounds(" - Ref: ");
    WidthConcat("Pagamento a ", q.entity);
    WidthConcat("Pagamento a " + q.entity, " - Ref: ");
    WidthConcat("Pagamento a " + q.entity + " - Ref: ", q.reference);
  }

  /** The account query: that IBAN, owned by the caller. */
  function AccountOf(s: BankState, caller: Id, q: PaymentRequest): Option<nat>
  {
    FindAccount(s.accounts, q.iban, Some(caller))
  }

  /**
   * The complete effect of paying `q.amount` from position `i`: only that balance changes, by
   * exactly the amount; one debit movement, one payment record and one notification to the
   * caller are appended; nothing else changes.
   */
  ghost predicate PaymentPosted(s: BankState, s': BankState, caller: Id, q: PaymentRequest, i: nat, now: Time)
    requires i < |s.accounts|
  {
    && |s'.accounts| == |s.accounts|
    && s'.accounts[i] == s.accounts[i].(balance := s.accounts[i].balance - q.amount)
    && (forall k :: 0 <= k < |s.accounts| && k != i ==> s'.accounts[k] == s.accounts[k])
    && s'.movements == s.movements + [Movement(i + 1, Debit, q.amount, now, PaymentDescription(q))]
    && s'.payments == s.payments + [Payment(i + 1, q.entity, q.reference, q.amount, now)]
    && s'.notifications == s.notifications + [Notice(caller, PaymentMade(q.amount, q.entity, q.reference), now)]
    && s'.users == s.users && s'.transfers == s.transfers && s'.logs == s.logs && s'.grants == s.grants
  }

  /**
   * `RealizarPagamento`: validation, then ownership, state and funds in that order; every
   * refusal returns before anything is written, and a refusal carries no state.
   */
  function Execute(s: BankState, caller: Id, q: PaymentRequest, now: Time): (r: Result<BankState>)
    ensures !ValidPaymentRequest(q) ==> r == Err(Invalid)
    ensures ValidPaymentRequest(q) ==>
              match AccountOf(s, caller, q)
              case None => r == Err(AccountNotFound)
              case Some(i) =>
                if s.accounts[i].state != Active then r == Err(AccountInactive)
                else if s.accounts[i].balance < q.amount then r == Err(InsufficientFunds)
                else r.Ok? && PaymentPosted(s, r.value, caller, q, i, now)
  {
    if !ValidPaymentRequest(q) then Err(Invalid)
    else
      match AccountOf(s, caller, q)
      case None => Err(AccountNotFound)
      case Some(i) =>
        var a := s.accounts[i];
        if a.state != Active then Err(AccountInactive)
        else if a.balance < q.amount then Err(InsufficientFunds)
        else
          Ok(s.(accounts := s.accounts[i := a.(balance := a.balance - q.amount)],
                movements := s.movements + [Movement(i + 1, Debit, q.amount, now, PaymentDescription(q))],
                payments := s.payments + [Payment(i + 1, q.entity, q.reference, q.amount, now)],
                notifications := s.notifications + [Notice(caller, PaymentMade(q.amount, q.entity, q.reference), now)]))
  }

  /**
   * A payment succeeds exactly when the request is valid and the caller owns an active account
   * with that IBAN holding at least the amount; the store never refuses the rows it writes.
   */
  lemma PaymentSucceedsIff(s: BankState, caller: Id, q: PaymentRequest, now: Time)
    ensures Execute(s, caller, q, now).Ok? <==>
              && ValidPaymentRequest(q)
              && (exists i :: 0 <= i < |s.accounts| && Matches(s.accounts[i], q.iban, Some(caller)))
              && s.accounts[AccountOf(s, caller, q).value].state == Active
              && s.accounts[AccountOf(s, caller, q).value].balance >= q.amount
  {
    if AccountOf(s, caller, q).None? {
      assert !exists i :: 0 <= i < |s.accounts| && Matches(s.accounts[i], q.iban, Some(caller));
    }
  }

  /** The bank's total falls by exactly the amount paid, and no balance becomes negative. */
  lemma PaymentDebitsExactly(s: BankState, caller: Id, q: PaymentRequest, now: Time)
    requires BalancesNonNegative(s)
    ensures var r := Execute(s, caller, q, now);
            r.Ok? ==>
              && TotalBalance(r.value.accounts) == TotalBalance(s.accounts) - q.amount
              && BalancesNonNegative(r.value)
  {
    var r := Execute(s, caller, q, now);
    if r.Ok? {
      var i := AccountOf(s, caller, q).value;
      var a := s.accounts[i];
      assert r.value.accounts == s.accounts[i := a.(balance := a.balance - q.amount)];
      SumByUpdate(s.accounts, i, a.(balance := a.balance - q.amount), Balance);
    }
  }

  lemma PaymentKeepsLedger(s: BankState, caller: Id, q: PaymentRequest, now: Time)
    requires Ledger(s.accounts, s.movements)
    ensures var r := Execute(s, caller, q, now);
            r.Ok? ==> Ledger(r.value.accounts, r.value.movements)
  {
    var r := Execute(s, caller, q, now);
    if r.Ok? {
      var i := AccountOf(s, caller, q).value;
      var d := Movement(i + 1, Debit, q.amount, now, PaymentDescription(q));
      forall k | 0 <= k < |r.value.accounts|
        ensures r.value.accounts[k].balance == Net(r.value.movements, k + 1)
      {
        NetAppend(s.movements, d, k + 1);
      }
    }
  }

  /** A payment by an existing user keeps every table invariant. */
  lemma PaymentPreservesWellFormed(s: BankState, caller: Id, q: PaymentRequest, now: Time)
    requires WellFormed(s) && IsUser(s, caller)
    ensures var r := Execute(s, caller, q, now);
            r.Ok? ==> WellFormed(r.value)
  {
    var r := Execute(s, caller, q, now);
    if r.Ok? {
      var s' := r.value;
      PaymentKeepsLedger(s, caller, q, now);
      PaymentDescriptionFits(q);
      forall k | 0 <= k < |s'.accounts|
        ensures AccountRowOk(s'.accounts[k], |s'.users|) && AccountLifecycleOk(s'.accounts[k])
      {
        assert AccountRowOk(s.accounts[k], |s.users|) && AccountLifecycleOk(s.accounts[k]);
      }
      assert IbansUnique(s'.accounts);
      assert MovementsOk(s'.movements, |s'.accounts|);
      assert PaymentsOk(s'.payments, |s'.accounts|);
      assert NotificationsOk(s'.notifications, |s'.users|);
    }
  }

  function PaymentDate(row: (nat, Payment)): int
  {
    row.1.at
  }

  /** `GetPagamentosUtilizador`: the payments made from the caller's accounts, newest first. */
  function MyPayments(s: BankState, caller: Id): (r: seq<(nat, Payment)>)
    ensures forall row :: row in r <==> IsRow(s.payments, row) && Owns(s, caller, row.1.account)
    ensures SortedDesc(r, PaymentDate)
    ensures NoDuplicates(r)
  {
    Query(Indexed(s.payments), (row: (nat, Payment)) => Owns(s, caller, row.1.account), PaymentDate)
  }
}

=== FILE: profiles.dfy ===
/** `UserController.UpdateMyProfile`: the field-wise merge of a profile update into the caller's row. */
module Profiles {
  import opened Common
  import opened Entities
  import opened Bank

  /** `UpdateProfileDto`: every field is optional. */
  datatype ProfileUpdate = ProfileUpdate(
    phone: Option<string>,
    profession: Option<string>,
    address: Option<string>,
    birthDate: Option<Time>)

  const NoChange: ProfileUpdate := ProfileUpdate(None, None, None, None)

  /** `x ?? y`. */
  function Coalesce<T>(x: Option<T>, y: Option<T>): (r: Option<T>)
    ensures x.Some? ==> r == x
    ensures x.None? ==> r == y
  {
    if x.Some? then x else y
  }

  /**
   * The four assignments of `UpdateMyProfile`: a given field replaces the stored one, an absent
   * field keeps it, and name, email, password, role, state, NIF and card are never touched.
   */
  function Merge(u: User, p: ProfileUpdate): (r: User)
    ensures r.phone == (if p.phone.Some? then p.phone else u.phone)
    ensures r.profession == (if p.profession.Some? then p.profession else u.profession)
    ensures r.address == (if p.address.Some? then p.address else u.address)
    ensures r.birthDate == (if p.birthDate.Some? then p.birthDate else u.birthDate)
    ensures r.name == u.name && r.email == u.email && r.passwordHash == u.passwordHash
    ensures r.role == u.role && r.active == u.active && r.createdAt == u.createdAt
    ensures r.nif == u.nif && r.card == u.card
  {
    u.(phone := Coalesce(p.phone, u.phone),
       profession := Coalesce(p.profession, u.profession),
       address := Coalesce(p.address, u.address),
       birthDate := Coalesce(p.birthDate, u.birthDate))
  }

  /** Applying the same update twice is the same as applying it once. */
  lemma MergeIdempotent(u: User, p: ProfileUpdate)
    ensures Merge(Merge(u, p), p) == Merge(u, p)
  {
  }

  /** An update with every field absent changes nothing. */
  lemma MergeNothing(u: User)
    ensures Merge(u, NoChange) == u
  {
  }

  /** The stored columns the merged values must fit (the update itself carries no bounds). */
  predicate ProfileFits(u: User)
  {
    FitsOpt(u.phone, PhoneMax) && FitsOpt(u.profession, ProfessionMax) && FitsOpt(u.address, AddressMax)
  }

  /**
   * `UpdateMyProfile`: `NotFound` for an unknown caller; the store refuses a merged value wider
   * than its column; otherwise only the caller's row changes, to the merge.
   */
  function UpdateProfile(s: BankState, caller: Id, p: ProfileUpdate): (r: Result<BankState>)
    ensures !IsUser(s, caller) ==> r == Err(NotFound)
    ensures IsUser(s, caller) && !ProfileFits(Merge(s.users[caller - 1], p)) ==> r == Err(StoreRejected)
    ensures IsUser(s, caller) && ProfileFits(Merge(s.users[caller - 1], p)) ==> r.Ok?
    ensures r.Ok? ==>
              && IsUser(s, caller)
              && |r.value.users| == |s.users|
              && r.value.users[caller - 1] == Merge(s.users[caller - 1], p)
              && (forall k :: 0 <= k < |s.users| && k != caller - 1 ==> r.value.users[k] == s.users[k])
              && r.value == s.(users := r.value.users)
  {
    if !IsUser(s, caller) then Err(NotFound)
    else
      var u := Merge(s.users[caller - 1], p);
      if !ProfileFits(u) then Err(StoreRejected)
      else Ok(s.(users := s.users[caller - 1 := u]))
  }

  /** Repeating a successful update succeeds and changes nothing more. */
  lemma UpdateProfileIdempotent(s: BankState, caller: Id, p: ProfileUpdate)
    requires UpdateProfile(s, caller, p).Ok?
    ensures UpdateProfile(UpdateProfile(s, caller, p).value, caller, p) == UpdateProfile(s, caller, p)
  {
    var s1 := UpdateProfile(s, caller, p).value;
    MergeIdempotent(s.users[caller - 1], p);
    assert s1.users[caller - 1 := Merge(s1.users[caller - 1], p)] == s1.users;
  }

  /** An empty update of a stored user always succeeds and leaves the state as it was. */
  lemma UpdateNothing(s: BankState, caller: Id)
    requires WellFormed(s) && IsUser(s, caller)
    ensures UpdateProfile(s, caller, NoChange) == Ok(s)
  {
    assert UserRowOk(s.users[caller - 1]);
    assert s.users[caller - 1 := s.users[caller - 1]] == s.users;
  }

  lemma UpdateProfilePreservesWellFormed(s: BankState, caller: Id, p: ProfileUpdate)
    requires WellFormed(s)
    ensures UpdateProfile(s, caller, p).Ok? ==> WellFormed(UpdateProfile(s, caller, p).value)
  {
    if UpdateProfile(s, caller, p).Ok? {
      var s' := UpdateProfile(s, caller, p).value;
      assert UsersOk(s'.users) by {
        forall k | 0 <= k < |s'.users|
          ensures UserRowOk(s'.users[k])
        {
          assert UserRowOk(s.users[k]);
        }
      }
      assert UsersUnique(s'.users);
    }
  }
}

=== FILE: seqs.dfy ===
/** Sequence combinators behind the LINQ queries: `Where`, `Sum`, `OrderByDescending`. */
module Seqs {

  /** `Where`: the elements of `s` satisfying `p`, in their original order. */
  function Filter<T(!new)>(s: seq<T>, p: T -> bool): (r: seq<T>)
    ensures forall x :: x in r <==> x in s && p(x)
    ensures |r| <= |s|
  {
    if |s| == 0 then []
    else
      assert s == s[..|s| - 1] + [s[|s| - 1]];
      Filter(s[..|s| - 1], p) + (if p(s[|s| - 1]) then [s[|s| - 1]] else [])
  }

  lemma {:induction false} FilterAppend<T(!new)>(a: seq<T>, b: seq<T>, p: T -> bool)
    ensures Filter(a + b, p) == Filter(a, p) + Filter(b, p)
  {
    if |b| == 0 {
      assert a + b == a;
    } else {
      assert (a + b)[..|a + b| - 1] == a + b[..|b| - 1];
      FilterAppend(a, b[..|b| - 1], p);
    }
  }

  /** Two complementary filters split a sequence: their lengths add up to its length. */
  lemma {:induction false} FilterSplitLength<T(!new)>(s: seq<T>, p: T -> bool, q: T -> bool)
    requires forall x :: x in s ==> (p(x) <==> !q(x))
    ensures |Filter(s, p)| + |Filter(s, q)| == |s|
  {
    if |s| > 0 {
      FilterSplitLength(s[..|s| - 1], p, q);
    }
  }

  /** Two filters that never both hold keep at most as many elements as there are. */
  lemma {:induction false} FilterDisjointLength<T(!new)>(s: seq<T>, p: T -> bool, q: T -> bool)
    requires forall x :: x in s ==> !(p(x) && q(x))
    ensures |Filter(s, p)| + |Filter(s, q)| <= |s|
  {
    if |s| > 0 {
      FilterDisjointLength(s[..|s| - 1], p, q);
    }
  }

  /** `Sum(f)`, accumulated from the front. */
  function SumBy<T>(s: seq<T>, f: T -> real): real
  {
    if |s| == 0 then 0.0 else SumBy(s[..|s| - 1], f) + f(s[|s| - 1])
  }

  lemma {:induction false} SumByAppend<T>(a: seq<T>, b: seq<T>, f: T -> real)
    ensures SumBy(a + b, f) == SumBy(a, f) + SumBy(b, f)
  {
    if |b| == 0 {
      assert a + b == a;
    } else {
      assert (a + b)[..|a + b| - 1] == a + b[..|b| - 1];
      SumByAppend(a, b[..|b| - 1], f);
    }
  }

  /** Replacing one element changes the sum by exactly the difference of the two values. */
  lemma SumByUpdate<T>(s: seq<T>, i: nat, x: T, f: T -> real)
    requires i < |s|
    ensures SumBy(s[i := x], f) == SumBy(s, f) - f(s[i]) + f(x)
  {
    assert s == s[..i] + [s[i]] + s[i + 1..];
    assert s[i := x] == s[..i] + [x] + s[i + 1..];
    SumByAppend(s[..i] + [s[i]], s[i + 1..], f);
    SumByAppend(s[..i], [s[i]], f);
    SumByAppend(s[..i] + [x], s[i + 1..], f);
    SumByAppend(s[..i], [x], f);
  }

  /** A sum does not depend on the order of its terms. */
  lemma {:induction false} SumByPermutation<T>(a: seq<T>, b: seq<T>, f: T -> real)
    requires multiset(a) == multiset(b)
    ensures SumBy(a, f) == SumBy(b, f)
    decreases |a|
  {
    if |a| > 0 {
      var x := a[|a| - 1];
      assert a == a[..|a| - 1] + [x];
      assert x in multiset(b);
      var k :| 0 <= k < |b| && b[k] == x;
      var b' := b[..k] + b[k + 1..];
      assert b == b[..k] + [x] + b[k + 1..];
      assert multiset(b') == multiset(b) - multiset{x};
      assert multiset(a[..|a| - 1]) == multiset(a) - multiset{x};
      SumByPermutation(a[..|a| - 1], b', f);
      SumByAppend(b[..k] + [x], b[k + 1..], f);
      SumByAppend(b[..k], [x], f);
      SumByAppend(b[..k], b[k + 1..], f);
    } else {
      assert |b| == |multiset(b)| == 0;
    }
  }

  /** Two complementary filters split a sum. */
  lemma {:induction false} SumBySplit<T(!new)>(s: seq<T>, p: T -> bool, q: T -> bool, f: T -> real)
    requires forall x :: x in s ==> (p(x) <==> !q(x))
    ensures SumBy(Filter(s, p), f) + SumBy(Filter(s, q), f) == SumBy(s, f)
  {
    if |s| > 0 {
      var init, last := s[..|s| - 1], s[|s| - 1];
      assert forall x :: x in init ==> x in s;
      SumBySplit(init, p, q, f);
      SumByAppend(Filter(init, p), if p(last) then [last] else [], f);
      SumByAppend(Filter(init, q), if q(last) then [last] else [], f);
    }
  }

  /** Summing the elements a filter keeps is summing `g`, which is `f` on them and zero elsewhere. */
  lemma {:induction false} SumByFilter<T(!new)>(s: seq<T>, p: T -> bool, f: T -> real, g: T -> real)
    requires forall x :: x in s ==> g(x) == (if p(x) then f(x) else 0.0)
    ensures SumBy(Filter(s, p), f) == SumBy(s, g)
  {
    if |s| > 0 {
      var init, last := s[..|s| - 1], s[|s| - 1];
      assert forall x :: x in init ==> x in s;
      SumByFilter(init, p, f, g);
      var tail := if p(last) then [last] else [];
      assert Filter(s, p) == Filter(init, p) + tail;
      SumByAppend(Filter(init, p), tail, f);
      assert SumBy(tail, f) == g(last) by {
        if p(last) {
          assert tail[..0] == [];
        }
      }
      assert SumBy(s, g) == SumBy(init, g) + g(last);
    }
  }

  /** A sum of pointwise sums is the sum of the two sums. */
  lemma {:induction false} SumByAdd<T>(s: seq<T>, f: T -> real, g: T -> real, h: T -> real)
    requires forall x :: x in s ==> h(x) == f(x) + g(x)
    ensures SumBy(s, h) == SumBy(s, f) + SumBy(s, g)
  {
    if |s| > 0 {
      assert forall x :: x in s[..|s| - 1] ==> x in s;
      SumByAdd(s[..|s| - 1], f, g, h);
    }
  }

  /** A sum of pointwise differences is the difference of the two sums. */
  lemma {:induction false} SumBySub<T>(s: seq<T>, f: T -> real, g: T -> real, h: T -> real)
    requires forall x :: x in s ==> h(x) == f(x) - g(x)
    ensures SumBy(s, h) == SumBy(s, f) - SumBy(s, g)
  {
    if |s| > 0 {
      assert forall x :: x in s[..|s| - 1] ==> x in s;
      SumBySub(s[..|s| - 1], f, g, h);
    }
  }

  /** `row` is the row of table `s` whose identity key is `row.0`. */
  ghost predicate IsRow<T>(s: seq<T>, row: (nat, T))
  {
    1 <= row.0 <= |s| && s[row.0 - 1] == row.1
  }

  /** Every element occurs at most once. */
  ghost predicate NoDuplicates<T(!new)>(s: seq<T>)
  {
    forall x :: multiset(s)[x] <= 1
  }

  /** Two duplicate-free sequences with the same elements have the same length. */
  lemma NoDuplicatesSameElements<T(!new)>(a: seq<T>, b: seq<T>)
    requires NoDuplicates(a) && NoDuplicates(b)
    requires forall x :: x in a <==> x in b
    ensures |a| == |b|
  {
    assert forall x :: multiset(a)[x] == multiset(b)[x] by {
      forall x
        ensures multiset(a)[x] == multiset(b)[x]
      {
        assert x in a <==> x in multiset(a);
        assert x in b <==> x in multiset(b);
      }
    }
    assert multiset(a) == multiset(b);
    assert |multiset(a)| == |multiset(b)|;
  }

  lemma {:induction false} DistinctPositions<T(!new)>(s: seq<T>)
    requires forall i, j :: 0 <= i < j < |s| ==> s[i] != s[j]
    ensures NoDuplicates(s)
  {
    if |s| > 0 {
      var init := s[..|s| - 1];
      DistinctPositions(init);
      assert s == init + [s[|s| - 1]];
      assert s[|s| - 1] !in init;
    }
  }

  /** A table's rows paired with their identity keys: position `i` gets key `i + 1`. */
  function Indexed<T(!new)>(s: seq<T>): (r: seq<(nat, T)>)
    ensures |r| == |s|
    ensures forall i :: 0 <= i < |s| ==> r[i] == (i + 1, s[i])
    ensures forall row :: row in r <==> IsRow(s, row)
    ensures NoDuplicates(r)
  {
    var r := seq(|s|, i requires 0 <= i < |s| => (i + 1, s[i]));
    forall row | IsRow(s, row)
      ensures row in r
    {
      assert r[row.0 - 1] == row;
    }
    DistinctPositions(r);
    r
  }

  /** Summing over the keyed rows of a table is summing over the table, when `f` looks only at the row. */
  lemma {:induction false} SumByIndexed<T(!new)>(s: seq<T>, f: ((nat, T)) -> real, g: T -> real)
    requires forall i :: 0 <= i < |s| ==> f((i + 1, s[i])) == g(s[i])
    ensures SumBy(Indexed(s), f) == SumBy(s, g)
  {
    if |s| > 0 {
      var init := s[..|s| - 1];
      SumByIndexed(init, f, g);
      assert Indexed(s)[..|s| - 1] == Indexed(init);
    }
  }

  /** `Where` keeps a sub-multiset of its input: it never invents or repeats an element. */
  lemma {:induction false} FilterSubMultiset<T(!new)>(s: seq<T>, p: T -> bool)
    ensures multiset(Filter(s, p)) <= multiset(s)
  {
    if |s| > 0 {
      FilterSubMultiset(s[..|s| - 1], p);
      assert s == s[..|s| - 1] + [s[|s| - 1]];
    }
  }

  /** A query none of whose rows qualifies is empty. */
  lemma QueryNone<T(!new)>(rows: seq<T>, p: T -> bool, key: T -> int)
    requires forall x :: x in rows ==> !p(x)
    ensures Query(rows, p, key) == []
  {
    FilterNone(rows, p);
  }

  lemma {:induction false} FilterNone<T(!new)>(s: seq<T>, p: T -> bool)
    requires forall x :: x in s ==> !p(x)
    ensures Filter(s, p) == []
  {
    if |s| > 0 {
      assert forall x :: x in s[..|s| - 1] ==> x in s;
      FilterNone(s[..|s| - 1], p);
    }
  }

  /**
   * `Where(p).OrderByDescending(key)`: exactly the rows satisfying `p`, newest first, each
   * row of a duplicate-free table listed once.
   */
  function Query<T(!new)>(rows: seq<T>, p: T -> bool, key: T -> int): (r: seq<T>)
    ensures forall x :: x in r <==> x in rows && p(x)
    ensures SortedDesc(r, key)
    ensures NoDuplicates(rows) ==> NoDuplicates(r)
  {
    var f := Filter(rows, p);
    var r := SortDesc(f, key);
    QueryPermutes(rows, p, key);
    FilterSubMultiset(rows, p);
    r
  }

  /** The query's rows are the filtered rows, reordered: nothing lost, nothing repeated. */
  lemma QueryPermutes<T(!new)>(rows: seq<T>, p: T -> bool, key: T -> int)
    ensures multiset(SortDesc(Filter(rows, p), key)) == multiset(Filter(rows, p))
  {
    SortDescPermutes(Filter(rows, p), key);
  }

  ghost predicate SortedDesc<T>(s: seq<T>, key: T -> int)
  {
    forall i, j {:trigger key(s[i]), key(s[j])} :: 0 <= i < j < |s| ==> key(s[i]) >= key(s[j])
  }

  /** Inserts `x` into a sequence already ordered by descending key. */
  function Insert<T(!new)>(x: T, s: seq<T>, key: T -> int): (r: seq<T>)
    requires SortedDesc(s, key)
    ensures forall y :: y in r <==> y == x || y in s
    ensures |r| == |s| + 1
    ensures SortedDesc(r, key)
  {
    if |s| == 0 || key(x) >= key(s[0]) then [x] + s
    else
      var rest := Insert(x, s[1..], key);
      assert s == [s[0]] + s[1..];
      forall y | y in rest
        ensures key(y) <= key(s[0])
      {
        if y != x {
          var m :| 0 <= m < |s[1..]| && s[1..][m] == y;
          assert s[m + 1] == y;
        }
      }
      [s[0]] + rest
  }

  /** Inserting adds exactly one occurrence of `x`. */
  lemma {:induction false} InsertPermutes<T(!new)>(x: T, s: seq<T>, key: T -> int)
    requires SortedDesc(s, key)
    ensures multiset(Insert(x, s, key)) == multiset(s) + multiset{x}
  {
    if |s| > 0 && key(x) < key(s[0]) {
      InsertPermutes(x, s[1..], key);
      assert s == [s[0]] + s[1..];
    }
  }

  /** `OrderByDescending(key)`: the elements of `s` ordered by descending key. */
  function SortDesc<T(!new)>(s: seq<T>, key: T -> int): (r: seq<T>)
    ensures forall x :: x in r <==> x in s
    ensures |r| == |s|
    ensures SortedDesc(r, key)
  {
    if |s| == 0 then []
    else
      assert s == s[..|s| - 1] + [s[|s| - 1]];
      Insert(s[|s| - 1], SortDesc(s[..|s| - 1], key), key)
  }

  /** Sorting is a permutation. */
  lemma {:induction false} SortDescPermutes<T(!new)>(s: seq<T>, key: T -> int)
    ensures multiset(SortDesc(s, key)) == multiset(s)
  {
    if |s| > 0 {
      SortDescPermutes(s[..|s| - 1], key);
      InsertPermutes(s[|s| - 1], SortDesc(s[..|s| - 1], key), key);
      assert s == s[..|s| - 1] + [s[|s| - 1]];
    }
  }
}

=== FILE: statements.dfy ===
/**
 * `MovimentoController` (and the movement list of `ContaBancariaController`): the caller's
 * movements by account, period and type, the detail of one movement, and the bank statement.
 */
module Statements {
  import opened Common
  import opened Seqs
  import opened Entities
  import opened Bank

  type MovementRow = (nat, Movement)

  function MovementDate(row: MovementRow): int
  {
    row.1.at
  }

  /** The movement lies on an account of the caller, whatever that account's state. */
  predicate OnCallersAccount(s: BankState, caller: Id, row: MovementRow)
  {
    Owns(s, caller, row.1.account)
  }

  /**
   * `GetMovimentosPorConta` / `GetMovimentosConta`: the movements of the caller's account with
   * that IBAN, newest first; `NotFound` unless the caller owns such an account.
   */
  function ByAccount(s: BankState, caller: Id, iban: string): (r: Result<seq<MovementRow>>)
    ensures r.Err? <==> forall k :: 0 <= k < |s.accounts| ==> !Matches(s.accounts[k], iban, Some(caller))
    ensures r.Err? ==> r.error == NotFound
    ensures r.Ok? ==>
              var a := FindAccount(s.accounts, iban, Some(caller)).value + 1;
              && (forall row :: row in r.value <==> IsRow(s.movements, row) && row.1.account == a)
              && SortedDesc(r.value, MovementDate)
              && NoDuplicates(r.value)
  {
    match FindAccount(s.accounts, iban, Some(caller))
    case None => Err(NotFound)
    case Some(i) => Ok(Query(Indexed(s.movements), (row: MovementRow) => row.1.account == i + 1, MovementDate))
  }

  predicate InPeriod(s: BankState, caller: Id, from: Time, to: Time, row: MovementRow)
  {
    OnCallersAccount(s, caller, row) && from <= row.1.at <= to
  }

  /** `GetMovimentosPorPeriodo`: the caller's movements dated inside `[from, to]`, newest first. */
  function ByPeriod(s: BankState, caller: Id, from: Time, to: Time): (r: seq<MovementRow>)
    ensures forall row :: row in r <==> IsRow(s.movements, row) && Owns(s, caller, row.1.account) && from <= row.1.at <= to
    ensures SortedDesc(r, MovementDate)
    ensures NoDuplicates(r)
  {
    Query(Indexed(s.movements), InPeriodOf(s, caller, from, to), MovementDate)
  }

  function InPeriodOf(s: BankState, caller: Id, from: Time, to: Time): MovementRow -> bool
  {
    (row: MovementRow) => InPeriod(s, caller, from, to, row)
  }

  /** An empty period yields nothing. */
  lemma EmptyPeriod(s: BankState, caller: Id, from: Time, to: Time)
    requires to < from
    ensures ByPeriod(s, caller, from, to) == []
  {
    QueryNone(Indexed(s.movements), InPeriodOf(s, caller, from, to), MovementDate);
  }

  predicate OfKind(s: BankState, caller: Id, k: MovementKind, row: MovementRow)
  {
    OnCallersAccount(s, caller, row) && row.1.kind == k
  }

  /**
   * `GetMovimentosPorTipo`: only the two stored spellings are accepted; otherwise the caller's
   * movements of that type, newest first.
   */
  function ByKind(s: BankState, caller: Id, kind: string): (r: Result<seq<MovementRow>>)
    ensures r.Err? <==> kind != "Credito" && kind != "Debito"
    ensures r.Err? ==> r.error == InvalidMovementType
    ensures r.Ok? ==>
              && (forall row :: row in r.value <==>
                    IsRow(s.movements, row) && Owns(s, caller, row.1.account) && row.1.kind.Name() == kind)
              && SortedDesc(r.value, MovementDate)
              && NoDuplicates(r.value)
  {
    match ParseMovementKind(kind)
    case None => Err(InvalidMovementType)
    case Some(k) => Ok(Query(Indexed(s.movements), (row: MovementRow) => OfKind(s, caller, k, row), MovementDate))
  }

  /** `GetTodosMovimentosDoUtilizador`: every movement on any of the caller's accounts, newest first. */
  function Mine(s: BankState, caller: Id): (r: seq<MovementRow>)
    ensures forall row :: row in r <==> IsRow(s.movements, row) && Owns(s, caller, row.1.account)
    ensures SortedDesc(r, MovementDate)
    ensures NoDuplicates(r)
  {
    Query(Indexed(s.movements), (row: MovementRow) => OnCallersAccount(s, caller, row), MovementDate)
  }

  /** The two type filters split the caller's movements: every one of them has exactly one type. */
  lemma KindsPartitionMine(s: BankState, caller: Id)
    ensures ByKind(s, caller, "Credito").Ok? && ByKind(s, caller, "Debito").Ok?
    ensures forall row :: row in Mine(s, caller) <==>
              row in ByKind(s, caller, "Credito").value || row in ByKind(s, caller, "Debito").value
  {
  }

  /** `GetMovimentoDetalhado`: the movement with that key, provided its account is the caller's. */
  function Detail(s: BankState, caller: Id, id: int): (r: Result<MovementRow>)
    ensures r.Ok? <==> 1 <= id <= |s.movements| && Owns(s, caller, s.movements[id - 1].account)
    ensures r.Err? ==> r.error == NotFound
    ensures r.Ok? ==> r.value.0 == id && IsRow(s.movements, r.value)
  {
    if 1 <= id <= |s.movements| && Owns(s, caller, s.movements[id - 1].account) then
      Ok((id as nat, s.movements[id - 1]))
    else Err(NotFound)
  }

  /** Every movement the lists show can be opened in detail, and nothing else can. */
  lemma DetailAgreesWithMine(s: BankState, caller: Id, id: int)
    ensures Detail(s, caller, id).Ok? <==> exists row :: row in Mine(s, caller) && row.0 == id
  {
    var mine := Mine(s, caller);
    if Detail(s, caller, id).Ok? {
      var row := (id as nat, s.movements[id - 1]);
      assert IsRow(s.movements, row) && Owns(s, caller, row.1.account);
      assert row in mine;
    }
  }

  // ---------------------------------------------------------------------------------------
  // The bank statement.

  /** `ExtratoDto`. */
  datatype StatementView = StatementView(
    iban: string,
    from: Time,
    to: Time,
    opening: Money,
    closing: Money,
    credits: Money,
    debits: Money,
    rows: seq<MovementRow>)

  predicate InWindow(a: Id, from: Time, to: Time, row: MovementRow)
  {
    row.1.account == a && from <= row.1.at <= to
  }

  predicate IsCredit(row: MovementRow)
  {
    row.1.kind == Credit
  }

  predicate IsDebit(row: MovementRow)
  {
    row.1.kind == Debit
  }

  function RowAmount(row: MovementRow): Money
  {
    row.1.amount
  }

  function InWindowOf(a: Id, from: Time, to: Time): MovementRow -> bool
  {
    (row: MovementRow) => InWindow(a, from, to, row)
  }

  /** The account's movements dated inside `[from, to]`, newest first. */
  function WindowRows(ms: seq<Movement>, a: Id, from: Time, to: Time): (r: seq<MovementRow>)
    ensures forall row :: row in r <==> IsRow(ms, row) && row.1.account == a && from <= row.1.at <= to
    ensures SortedDesc(r, MovementDate)
    ensures NoDuplicates(r)
  {
    Query(Indexed(ms), InWindowOf(a, from, to), MovementDate)
  }

  /** `Where(TipoMovimento == "Credito").Sum(Valor)`. */
  function Credits(rows: seq<MovementRow>): Money
  {
    SumBy(Filter(rows, IsCredit), RowAmount)
  }

  /** `Where(TipoMovimento == "Debito").Sum(Valor)`. */
  function Debits(rows: seq<MovementRow>): Money
  {
    SumBy(Filter(rows, IsDebit), RowAmount)
  }

  /** The window start when none is given: thirty days before `now`. */
  function DefaultFrom(now: Time): Time
  {
    now - DefaultWindowDays * SecondsPerDay
  }

  /**
   * The statement of account `a` over `[from, to]` given its closing balance: exactly the
   * window's rows, newest first; their totals by type, which add up to the signed net of the
   * window; and the opening balance derived from the closing one.
   */
  function Report(iban: string, ms: seq<Movement>, a: Id, from: Time, to: Time, closing: Money): (v: StatementView)
    ensures v.iban == iban && v.from == from && v.to == to && v.closing == closing
    ensures v.rows == WindowRows(ms, a, from, to)
    ensures v.opening + v.credits - v.debits == v.closing
    ensures v.credits == KindWithin(ms, a, from, to, Credit)
    ensures v.debits == KindWithin(ms, a, from, to, Debit)
    ensures v.credits - v.debits == NetWithin(ms, a, from, to)
  {
    var rows := WindowRows(ms, a, from, to);
    var credits := Credits(rows);
    var debits := Debits(rows);
    WindowTotals(ms, a, from, to);
    WindowCredits(ms, a, from, to);
    WindowDebits(ms, a, from, to);
    StatementView(iban, from, to, closing - credits + debits, closing, credits, debits, rows)
  }

  /**
   * The statement of the caller's account with that IBAN over `[from, to]`: `NotFound` unless
   * the caller owns such an account; otherwise its report, closing at its current balance.
   */
  function WindowStatement(s: BankState, caller: Id, iban: string, from: Time, to: Time): (r: Result<StatementView>)
    ensures r.Err? <==> forall k :: 0 <= k < |s.accounts| ==> !Matches(s.accounts[k], iban, Some(caller))
    ensures r.Err? ==> r.error == NotFound
  {
    match FindAccount(s.accounts, iban, Some(caller))
    case None => Err(NotFound)
    case Some(i) => Ok(Report(iban, s.movements, i + 1, from, to, s.accounts[i].balance))
  }

  /** For the caller's account `i`, the statement is the report of `i` closing at its current balance. */
  lemma StatementOfAccount(s: BankState, caller: Id, iban: string, from: Time, to: Time, i: nat)
    requires FindAccount(s.accounts, iban, Some(caller)) == Some(i)
    ensures WindowStatement(s, caller, iban, from, to) == Ok(Report(iban, s.movements, i + 1, from, to, s.accounts[i].balance))
  {
  }

  /**
   * `GetExtratoBancario`: the statement over the given window, which defaults to the thirty
   * days up to `now`; `NotFound` unless the caller owns the account.
   */
  function Statement(s: BankState, caller: Id, iban: string, from: Option<Time>, to: Option<Time>, now: Time): (r: Result<StatementView>)
    ensures r.Err? <==> forall k :: 0 <= k < |s.accounts| ==> !Matches(s.accounts[k], iban, Some(caller))
    ensures r.Err? ==> r.error == NotFound
    ensures r.Ok? ==> r.value.from == (if from.Some? then from.value else now - 30 * 86400)
    ensures r.Ok? ==> r.value.to == (if to.Some? then to.value else now)
  {
    WindowStatement(s, caller, iban, from.GetOr(DefaultFrom(now)), to.GetOr(now))
  }

  /** Net of the movements on account `a` dated strictly before `t`. */
  function NetBefore(ms: seq<Movement>, a: Id, t: Time): Money
  {
    if |ms| == 0 then 0.0
    else NetBefore(ms[..|ms| - 1], a, t) + (if ms[|ms| - 1].at < t then Signed(ms[|ms| - 1], a) else 0.0)
  }

  /** Net of the movements on account `a` dated inside `[from, to]`. */
  function NetWithin(ms: seq<Movement>, a: Id, from: Time, to: Time): Money
  {
    if |ms| == 0 then 0.0
    else NetWithin(ms[..|ms| - 1], a, from, to) + (if from <= ms[|ms| - 1].at <= to then Signed(ms[|ms| - 1], a) else 0.0)
  }

  lemma {:induction false} NetWithinIsSum(ms: seq<Movement>, a: Id, from: Time, to: Time, w: Movement -> real)
    requires forall m :: w(m) == (if from <= m.at <= to then Signed(m, a) else 0.0)
    ensures NetWithin(ms, a, from, to) == SumBy(ms, w)
  {
    if |ms| > 0 {
      NetWithinIsSum(ms[..|ms| - 1], a, from, to, w);
    }
  }

  /**
   * When nothing on the account is dated after the window, its net splits into what came before
   * the window and what lies inside it.
   */
  lemma {:induction false} NetSplitsAtWindow(ms: seq<Movement>, a: Id, from: Time, to: Time)
    requires forall k :: 0 <= k < |ms| && ms[k].account == a ==> ms[k].at <= to
    ensures Net(ms, a) == NetBefore(ms, a, from) + NetWithin(ms, a, from, to)
  {
    if |ms| > 0 {
      NetSplitsAtWindow(ms[..|ms| - 1], a, from, to);
    }
  }

  /** A row's signed effect: credits count up, debits down. */
  function RowNet(row: MovementRow): Money
  {
    if IsCredit(row) then RowAmount(row) else -RowAmount(row)
  }

  function CreditPart(row: MovementRow): Money
  {
    if IsCredit(row) then RowAmount(row) else 0.0
  }

  function DebitPart(row: MovementRow): Money
  {
    if IsDebit(row) then RowAmount(row) else 0.0
  }

  /** Credits minus debits of any list of rows is the sum of their signed effects. */
  lemma CreditsMinusDebits(rows: seq<MovementRow>)
    ensures Credits(rows) - Debits(rows) == SumBy(rows, RowNet)
  {
    SumByFilter(rows, IsCredit, RowAmount, CreditPart);
    SumByFilter(rows, IsDebit, RowAmount, DebitPart);
    SumBySub(rows, CreditPart, DebitPart, RowNet);
  }

  /** The signed effect of the window's rows, summed over the whole table. */
  function Windowed(a: Id, from: Time, to: Time): MovementRow -> Money
  {
    (row: MovementRow) => if InWindow(a, from, to, row) then RowNet(row) else 0.0
  }

  function WithinSigned(a: Id, from: Time, to: Time): Movement -> Money
  {
    (m: Movement) => if from <= m.at <= to then Signed(m, a) else 0.0
  }

  lemma WindowSumUnordered(ms: seq<Movement>, a: Id, from: Time, to: Time)
    ensures SumBy(WindowRows(ms, a, from, to), RowNet) == SumBy(Filter(Indexed(ms), InWindowOf(a, from, to)), RowNet)
  {
    QueryPermutes(Indexed(ms), InWindowOf(a, from, to), MovementDate);
    SumByPermutation(WindowRows(ms, a, from, to), Filter(Indexed(ms), InWindowOf(a, from, to)), RowNet);
  }

  lemma WindowSumOverTable(ms: seq<Movement>, a: Id, from: Time, to: Time)
    ensures SumBy(Filter(Indexed(ms), InWindowOf(a, from, to)), RowNet) == SumBy(Indexed(ms), Windowed(a, from, to))
  {
    SumByFilter(Indexed(ms), InWindowOf(a, from, to), RowNet, Windowed(a, from, to));
  }

  lemma WindowSumOverMovements(ms: seq<Movement>, a: Id, from: Time, to: Time)
    ensures SumBy(Indexed(ms), Windowed(a, from, to)) == NetWithin(ms, a, from, to)
  {
    SumByIndexed(ms, Windowed(a, from, to), WithinSigned(a, from, to));
    NetWithinIsSum(ms, a, from, to, WithinSigned(a, from, to));
  }

  /** Ordering the window does not change its sum, which is the net inside the window. */
  lemma WindowRowsNet(ms: seq<Movement>, a: Id, from: Time, to: Time)
    ensures SumBy(WindowRows(ms, a, from, to), RowNet) == NetWithin(ms, a, from, to)
  {
    WindowSumUnordered(ms, a, from, to);
    WindowSumOverTable(ms, a, from, to);
    WindowSumOverMovements(ms, a, from, to);
  }

  /** The statement's totals are the net of the account's movements inside the window. */
  lemma WindowTotals(ms: seq<Movement>, a: Id, from: Time, to: Time)
    ensures Credits(WindowRows(ms, a, from, to)) - Debits(WindowRows(ms, a, from, to)) == NetWithin(ms, a, from, to)
  {
    CreditsMinusDebits(WindowRows(ms, a, from, to));
    WindowRowsNet(ms, a, from, to);
  }

  /**
   * The total amount of the movements of type `k` on account `a` dated inside `[from, to]`,
   * taken over the table in key order, independently of any listing.
   */
  function KindWithin(ms: seq<Movement>, a: Id, from: Time, to: Time, k: MovementKind): Money
  {
    if |ms| == 0 then 0.0
    else KindWithin(ms[..|ms| - 1], a, from, to, k) + WithinKind(a, from, to, k)(ms[|ms| - 1])
  }

  /** The amount a movement adds to `KindWithin`. */
  function WithinKind(a: Id, from: Time, to: Time, k: MovementKind): Movement -> Money
  {
    (m: Movement) => if m.account == a && m.kind == k && from <= m.at <= to then m.amount else 0.0
  }

  /** The amount a row adds to the total of type `k`. */
  function KindPart(k: MovementKind): MovementRow -> Money
  {
    (row: MovementRow) => if row.1.kind == k then RowAmount(row) else 0.0
  }

  /** The amount a row of the whole table adds to the window's total of type `k`. */
  function WindowedKind(a: Id, from: Time, to: Time, k: MovementKind): MovementRow -> Money
  {
    (row: MovementRow) => if InWindow(a, from, to, row) && row.1.kind == k then RowAmount(row) else 0.0
  }

  lemma {:induction false} KindWithinIsSum(ms: seq<Movement>, a: Id, from: Time, to: Time, k: MovementKind)
    ensures KindWithin(ms, a, from, to, k) == SumBy(ms, WithinKind(a, from, to, k))
  {
    if |ms| > 0 {
      KindWithinIsSum(ms[..|ms| - 1], a, from, to, k);
    }
  }

  lemma KindSumUnordered(ms: seq<Movement>, a: Id, from: Time, to: Time, k: MovementKind)
    ensures SumBy(WindowRows(ms, a, from, to), KindPart(k)) == SumBy(Filter(Indexed(ms), InWindowOf(a, from, to)), KindPart(k))
  {
    QueryPermutes(Indexed(ms), InWindowOf(a, from, to), MovementDate);
    SumByPermutation(WindowRows(ms, a, from, to), Filter(Indexed(ms), InWindowOf(a, from, to)), KindPart(k));
  }

  lemma KindSumOverTable(ms: seq<Movement>, a: Id, from: Time, to: Time, k: MovementKind)
    ensures SumBy(Filter(Indexed(ms), InWindowOf(a, from, to)), KindPart(k)) == SumBy(Indexed(ms), WindowedKind(a, from, to, k))
  {
    SumByFilter(Indexed(ms), InWindowOf(a, from, to), KindPart(k), WindowedKind(a, from, to, k));
  }

  lemma KindSumOverMovements(ms: seq<Movement>, a: Id, from: Time, to: Time, k: MovementKind)
    ensures SumBy(Indexed(ms), WindowedKind(a, from, to, k)) == KindWithin(ms, a, from, to, k)
  {
    SumByIndexed(ms, WindowedKind(a, from, to, k), WithinKind(a, from, to, k));
    KindWithinIsSum(ms, a, from, to, k);
  }

  /** The window's rows of type `k` add up to that type's total over the table. */
  lemma WindowKindTotal(ms: seq<Movement>, a: Id, from: Time, to: Time, k: MovementKind)
    ensures SumBy(WindowRows(ms, a, from, to), KindPart(k)) == KindWithin(ms, a, from, to, k)
  {
    KindSumUnordered(ms, a, from, to, k);
    KindSumOverTable(ms, a, from, to, k);
    KindSumOverMovements(ms, a, from, to, k);
  }

  /** The statement's credit total is the total of the account's credits inside the window. */
  lemma WindowCredits(ms: seq<Movement>, a: Id, from: Time, to: Time)
    ensures Credits(WindowRows(ms, a, from, to)) == KindWithin(ms, a, from, to, Credit)
  {
    SumByFilter(WindowRows(ms, a, from, to), IsCredit, RowAmount, KindPart(Credit));
    WindowKindTotal(ms, a, from, to, Credit);
  }

  /** The statement's debit total is the total of the account's debits inside the window. */
  lemma WindowDebits(ms: seq<Movement>, a: Id, from: Time, to: Time)
    ensures Debits(WindowRows(ms, a, from, to)) == KindWithin(ms, a, from, to, Debit)
  {
    SumByFilter(WindowRows(ms, a, from, to), IsDebit, RowAmount, KindPart(Debit));
    WindowKindTotal(ms, a, from, to, Debit);
  }

  /**
   * When nothing on account `a` is dated after the window, a report closing at the account's
   * net opens at the net of what came before the window.
   */
  lemma ReportOpeningIsHistoric(iban: string, ms: seq<Movement>, a: Id, from: Time, to: Time, closing: Money)
    requires forall k :: 0 <= k < |ms| && ms[k].account == a ==> ms[k].at <= to
    requires closing == Net(ms, a)
    ensures Report(iban, ms, a, from, to, closing).opening == NetBefore(ms, a, from)
  {
    NetSplitsAtWindow(ms, a, from, to);
  }

  // ---------------------------------------------------------------------------------------
  // A statement of a past window: as written and corrected

  /** Net of the movements on account `a` dated strictly after `t`. */
  function NetAfter(ms: seq<Movement>, a: Id, t: Time): Money
  {
    if |ms| == 0 then 0.0
    else NetAfter(ms[..|ms| - 1], a, t) + (if ms[|ms| - 1].at > t then Signed(ms[|ms| - 1], a) else 0.0)
  }

  /** Every movement is dated either up to `t` or after it. */
  lemma {:induction false} NetAroundInstant(ms: seq<Movement>, a: Id, t: Time)
    ensures Net(ms, a) == NetBefore(ms, a, t + 1) + NetAfter(ms, a, t)
  {
    if |ms| > 0 {
      NetAroundInstant(ms[..|ms| - 1], a, t);
    }
  }

  /** What came before the end of a window is what came before it plus what lies inside it. */
  lemma {:induction false} NetBeforeWindowEnd(ms: seq<Movement>, a: Id, from: Time, to: Time)
    requires from <= to + 1
    ensures NetBefore(ms, a, to + 1) == NetBefore(ms, a, from) + NetWithin(ms, a, from, to)
  {
    if |ms| > 0 {
      NetBeforeWindowEnd(ms[..|ms| - 1], a, from, to);
    }
  }

  /**
   * The bookkeeping behind the controller's statement: with the closing balance at the account's
   * net, both balances exceed the balances at the window's bounds by what came after it.
   */
  lemma DriftAlgebra(opening: Money, closing: Money, credits: Money, debits: Money, within: Money, net: Money,
                     before: Money, upto: Money, after: Money)
    requires opening + credits - debits == closing
    requires credits - debits == within
    requires net == upto + after
    requires upto == before + within
    requires closing == net
    ensures opening == before + after && closing == upto + after
  {
  }

  /**
   * The bookkeeping behind the corrected statement: with the closing balance at the account's
   * net less what came after the window, both balances are those at the window's bounds.
   */
  lemma BoundsAlgebra(opening: Money, closing: Money, credits: Money, debits: Money, within: Money, net: Money,
                      before: Money, upto: Money, after: Money)
    requires opening + credits - debits == closing
    requires credits - debits == within
    requires net == upto + after
    requires upto == before + within
    requires closing == net - after
    ensures opening == before && closing == upto
  {
  }

  /**
   * A report closing at account `a`'s current net, for any window that is not inverted: it
   * opens at the balance at the window's start plus the net of every movement dated after the
   * window, and closes at the balance at the window's end plus that same net.
   */
  lemma ReportDrift(iban: string, ms: seq<Movement>, a: Id, from: Time, to: Time, closing: Money)
    requires from <= to + 1
    requires closing == Net(ms, a)
    ensures Report(iban, ms, a, from, to, closing).opening == NetBefore(ms, a, from) + NetAfter(ms, a, to)
    ensures Report(iban, ms, a, from, to, closing).closing == NetBefore(ms, a, to + 1) + NetAfter(ms, a, to)
  {
    var v := Report(iban, ms, a, from, to, closing);
    NetAroundInstant(ms, a, to);
    NetBeforeWindowEnd(ms, a, from, to);
    DriftAlgebra(v.opening, v.closing, v.credits, v.debits, NetWithin(ms, a, from, to), Net(ms, a),
                 NetBefore(ms, a, from), NetBefore(ms, a, to + 1), NetAfter(ms, a, to));
  }

  /** One client, one account holding 10 and one credit of 10 dated at 100. */
  const DriftStore: BankState := BankState(
    [User("Ana", "a@b", "h", None, Client, true, 0, "123456789", "12345678", None, None, None)],
    [Account(1, "PT50", "Corrente", 10.0, Active, 0, None)],
    [Movement(1, Credit, 10.0, 100, "deposit")],
    [], [], [], [], [])

  /**
   * A concrete discrepancy: the statement of `[0, 50]`, a window in which nothing happened,
   * reports an opening and a closing balance of 10 although the account held 0 throughout.
   */
  lemma StatementDriftExample()
    ensures Statement(DriftStore, 1, "PT50", Some(0), Some(50), 200).Ok?
    ensures Statement(DriftStore, 1, "PT50", Some(0), Some(50), 200).value.opening == 10.0
    ensures Statement(DriftStore, 1, "PT50", Some(0), Some(50), 200).value.closing == 10.0
    ensures NetBefore(DriftStore.movements, 1, 0) == 0.0
    ensures NetBefore(DriftStore.movements, 1, 51) == 0.0
  {
    var ms := DriftStore.movements;
    assert ms[..0] == [];
    assert Net(ms, 1) == 10.0;
    assert FindAccount(DriftStore.accounts, "PT50", Some(1)) == Some(0);
    StatementOfAccount(DriftStore, 1, "PT50", 0, 50, 0);
    ReportDrift("PT50", ms, 1, 0, 50, 10.0);
  }

  /**
   * The statement over `[from, to]` with both balances taken at the window's bounds: the closing
   * balance is the current one less everything posted after the window, and the opening balance
   * is derived from it as before.
   */
  function HistoricWindowStatement(s: BankState, caller: Id, iban: string, from: Time, to: Time): (r: Result<StatementView>)
    ensures r.Err? <==> forall k :: 0 <= k < |s.accounts| ==> !Matches(s.accounts[k], iban, Some(caller))
    ensures r.Err? ==> r.error == NotFound
  {
    match FindAccount(s.accounts, iban, Some(caller))
    case None => Err(NotFound)
    case Some(i) => Ok(Report(iban, s.movements, i + 1, from, to, BalanceAt(s.movements, i + 1, s.accounts[i].balance, to)))
  }

  /** The balance of account `a` at the end of instant `t`: its current balance less everything posted later. */
  function BalanceAt(ms: seq<Movement>, a: Id, current: Money, t: Time): Money
  {
    current - NetAfter(ms, a, t)
  }

  /** For the caller's account `i`, the corrected statement is the report of `i` closing at its balance at the window's end. */
  lemma HistoricOfAccount(s: BankState, caller: Id, iban: string, from: Time, to: Time, i: nat)
    requires FindAccount(s.accounts, iban, Some(caller)) == Some(i)
    ensures HistoricWindowStatement(s, caller, iban, from, to) ==
              Ok(Report(iban, s.movements, i + 1, from, to, BalanceAt(s.movements, i + 1, s.accounts[i].balance, to)))
  {
  }

  /** The corrected `GetExtratoBancario`, over the same defaulted window. */
  function HistoricStatement(s: BankState, caller: Id, iban: string, from: Option<Time>, to: Option<Time>, now: Time): (r: Result<StatementView>)
    ensures r.Err? <==> Statement(s, caller, iban, from, to, now).Err?
    ensures r.Err? ==> r.error == NotFound
  {
    HistoricWindowStatement(s, caller, iban, from.GetOr(DefaultFrom(now)), to.GetOr(now))
  }

  /**
   * The corrected statement differs from the controller's only in its balances, both lower by
   * the net of what the account saw after the window: same window, rows and totals.
   */
  lemma HistoricCorrectsStatement(s: BankState, caller: Id, iban: string, from: Time, to: Time, i: nat)
    requires FindAccount(s.accounts, iban, Some(caller)) == Some(i)
    ensures WindowStatement(s, caller, iban, from, to).Ok? && HistoricWindowStatement(s, caller, iban, from, to).Ok?
    ensures var v := WindowStatement(s, caller, iban, from, to).value;
            var w := HistoricWindowStatement(s, caller, iban, from, to).value;
            && w.iban == v.iban && w.from == v.from && w.to == v.to
            && w.rows == v.rows && w.credits == v.credits && w.debits == v.debits
            && w.closing == v.closing - NetAfter(s.movements, i + 1, to)
            && w.opening == v.opening - NetAfter(s.movements, i + 1, to)
  {
    StatementOfAccount(s, caller, iban, from, to, i);
    HistoricOfAccount(s, caller, iban, from, to, i);
  }

  /** A report closing at account `a`'s net less what came after the window opens and closes at the window's bounds. */
  lemma ReportAtBounds(iban: string, ms: seq<Movement>, a: Id, from: Time, to: Time, closing: Money)
    requires from <= to + 1
    requires closing == Net(ms, a) - NetAfter(ms, a, to)
    ensures Report(iban, ms, a, from, to, closing).opening == NetBefore(ms, a, from)
    ensures Report(iban, ms, a, from, to, closing).closing == NetBefore(ms, a, to + 1)
  {
    var v := Report(iban, ms, a, from, to, closing);
    NetAroundInstant(ms, a, to);
    NetBeforeWindowEnd(ms, a, from, to);
    BoundsAlgebra(v.opening, v.closing, v.credits, v.debits, NetWithin(ms, a, from, to), Net(ms, a),
                  NetBefore(ms, a, from), NetBefore(ms, a, to + 1), NetAfter(ms, a, to));
  }
}

=== FILE: text.dfy ===
/** The string predicates behind the data annotations and the search filter. */
module Text {

  /** `char.IsWhiteSpace`: the Unicode White_Space characters. */
  predicate IsWhiteSpace(c: char)
  {
    || '\t' <= c <= '\r'
    || c == ' ' || c == '\U{0085}' || c == '\U{00A0}' || c == '\U{1680}'
    || '\U{2000}' <= c <= '\U{200A}'
    || c == '\U{2028}' || c == '\U{2029}' || c == '\U{202F}' || c == '\U{205F}' || c == '\U{3000}'
  }

  /** `string.IsNullOrWhiteSpace`, with the absent string modelled as the empty one. */
  predicate Blank(s: string)
  {
    forall i :: 0 <= i < |s| ==> IsWhiteSpace(s[i])
  }

  /** `[Required]` on a string: present and not blank. */
  predicate Required(s: string)
  {
    !Blank(s)
  }

  /** A character beyond the Basic Multilingual Plane: UTF-16 stores it as two code units. */
  predicate Wide(c: char)
  {
    c as int >= 0x1_0000
  }

  /**
   * `String.Length`, which `[StringLength]` checks and an `nvarchar(n)` column bounds: the
   * number of UTF-16 code units, one per character plus one more per wide character.
   */
  function Width(s: string): nat
  {
    if |s| == 0 then 0 else Width(s[..|s| - 1]) + (if Wide(s[|s| - 1]) then 2 else 1)
  }

  /** A string is never narrower than its characters and at most twice as wide. */
  lemma {:induction false} WidthBounds(s: string)
    ensures |s| <= Width(s) <= 2 * |s|
  {
    if |s| > 0 {
      WidthBounds(s[..|s| - 1]);
    }
  }

  /** Every character lies in the Basic Multilingual Plane, so each takes one code unit. */
  predicate Narrow(s: string)
  {
    forall i :: 0 <= i < |s| ==> !Wide(s[i])
  }

  /** A string of Basic Multilingual Plane characters is as wide as it is long. */
  lemma {:induction false} NarrowWidth(s: string)
    requires Narrow(s)
    ensures Width(s) == |s|
  {
    if |s| > 0 {
      NarrowWidth(s[..|s| - 1]);
    }
  }

  /** Widths add up under concatenation. */
  lemma {:induction false} WidthConcat(a: string, b: string)
    ensures Width(a + b) == Width(a) + Width(b)
    decreases |b|
  {
    if |b| == 0 {
      assert a + b == a;
    } else {
      assert (a + b)[..|a + b| - 1] == a + b[..|b| - 1];
      WidthConcat(a, b[..|b| - 1]);
    }
  }

  /** One character outside the Basic Multilingual Plane is one character but two code units. */
  lemma SurrogatePairWidth()
    ensures |"\U{1F600}"| == 1 && Width("\U{1F600}") == 2
  {
    assert "\U{1F600}"[..0] == "";
  }

  /** `[StringLength(max)]`; an absent value passes. */
  predicate FitsIn(s: string, max: nat)
  {
    Width(s) <= max
  }

  predicate IsDigit(c: char)
  {
    '0' <= c <= '9'
  }

  /** `[RegularExpression("^[0-9]*$")]`. */
  predicate AllDigits(s: string)
  {
    forall i :: 0 <= i < |s| ==> IsDigit(s[i])
  }

  /** `[StringLength(n, MinimumLength = n)]` together with the digits-only pattern. */
  predicate DigitString(s: string, n: nat)
  {
    |s| == n && AllDigits(s)
  }

  /**
   * The length bound of a digit string can be read in characters: digits take one code unit
   * each, so `[StringLength(n, MinimumLength = n)]` with the digits-only pattern is `DigitString`.
   */
  lemma DigitStringIsWidth(s: string, n: nat)
    ensures (Width(s) == n && AllDigits(s)) <==> DigitString(s, n)
  {
    if AllDigits(s) {
      NarrowWidth(s);
    }
  }

  /** `[EmailAddress]`: exactly one '@', neither first nor last. */
  predicate EmailAddress(s: string)
  {
    exists k :: 0 < k < |s| - 1 && s[k] == '@' && forall j :: 0 <= j < |s| && j != k ==> s[j] != '@'
  }

  /** `string.Contains`: ordinal substring search. */
  predicate Contains(s: string, t: string)
  {
    |t| <= |s| && (s[..|t|] == t || Contains(s[1..], t))
  }

  /** `t` occurs in `s` starting at position `i`. */
  predicate OccursAt(s: string, t: string, i: nat)
  {
    i + |t| <= |s| && s[i..i + |t|] == t
  }

  /** The recursive search agrees with the positional definition of a substring. */
  lemma {:induction false} ContainsAt(s: string, t: string)
    ensures Contains(s, t) <==> exists i: nat :: OccursAt(s, t, i)
  {
    if |t| <= |s| && s[..|t|] == t {
      assert OccursAt(s, t, 0);
    } else if |t| <= |s| {
      ContainsAt(s[1..], t);
      if exists i: nat :: OccursAt(s, t, i) {
        var i: nat :| OccursAt(s, t, i);
        assert i != 0;
        assert s[1..][i - 1..i - 1 + |t|] == s[i..i + |t|];
        assert OccursAt(s[1..], t, i - 1);
      }
      if Contains(s[1..], t) {
        var i: nat :| OccursAt(s[1..], t, i);
        assert s[i + 1..i + 1 + |t|] == s[1..][i..i + |t|];
        assert OccursAt(s, t, i + 1);
      }
    }
  }

  lemma ContainsEmpty(s: string)
    ensures Contains(s, "")
  {
    assert s[..0] == "";
  }

  function DigitChar(d: nat): (c: char)
    requires d < 10
    ensures IsDigit(c)
  {
    ['0', '1', '2', '3', '4', '5', '6', '7', '8', '9'][d]
  }

  function DigitValue(c: char): (d: nat)
    requires IsDigit(c)
    ensures d < 10
  {
    (c as int - '0' as int) as nat
  }

  /** Invariant-culture decimal rendering of a non-negative integer (no sign, no leading zeros). */
  function NatToString(n: nat): (s: string)
    ensures AllDigits(s)
    ensures |s| >= 1
    decreases n
  {
    if n < 10 then [DigitChar(n)] else NatToString(n / 10) + [DigitChar(n % 10)]
  }

  /** Reads a string of decimal digits back as a number. */
  function StringToNat(s: string): nat
    requires AllDigits(s)
  {
    if |s| == 0 then 0 else StringToNat(s[..|s| - 1]) * 10 + DigitValue(s[|s| - 1])
  }

  /** Reading back a rendered number gives the number. */
  lemma {:induction false} NatStringRoundTrip(n: nat)
    ensures StringToNat(NatToString(n)) == n
    decreases n
  {
    var s := NatToString(n);
    if n >= 10 {
      NatStringRoundTrip(n / 10);
      assert s[..|s| - 1] == NatToString(n / 10);
    }
  }

  /** Numbers with `k` digits render to exactly `k` characters. */
  lemma {:induction false} NatStringLength(n: nat, k: nat)
    requires k >= 1
    requires Pow10(k - 1) <= n < Pow10(k) || (k == 1 && n < 10)
    ensures |NatToString(n)| == k
    decreases k
  {
    if k > 1 {
      NatStringLength(n / 10, k - 1);
    }
  }

  function Pow10(k: nat): (p: nat)
    ensures p >= 1
  {
    if k == 0 then 1 else 10 * Pow10(k - 1)
  }
}

=== FILE: transfers.dfy ===
/** `TransferenciaController`: moving money between two accounts, and the caller's transfer list. */
module Transfers {
  import opened Common
  import opened Text
  import opened Seqs
  import opened Entities
  import opened Bank

  /** `TransferenciaDto`; an absent description is `None`. */
  datatype TransferRequest = TransferRequest(
    source: string,
    destination: string,
    amount: Money,
    description: Option<string>)

  /** Model validation of `TransferenciaDto`: both IBANs required, amount at least 0.01. */
  predicate ValidTransferRequest(q: TransferRequest)
  {
    Required(q.source) && Required(q.destination) && q.amount >= MinAmount
  }

  /** Description of the debit movement: the given one, else "Transferência para {destination}". */
  function DebitDescription(q: TransferRequest): string
  {
    match q.description
    case Some(d) => d
    case None => "Transferência para " + q.destination
  }

  /** Description of the credit movement: the given one, else "Transferência de {source}". */
  function CreditDescription(q: TransferRequest): string
  {
    match q.description
    case Some(d) => d
    case None => "Transferência de " + q.source
  }

  /**
   * The rows the transfer writes fit their 250-unit description columns: the given description
   * fits, or each IBAN fits beside its default text ("Transferência para " takes 19 code units,
   * "Transferência de " 17).
   */
  predicate DescriptionsFit(q: TransferRequest)
  {
    match q.description
    case Some(d) => FitsIn(d, DescriptionMax)
    case None => FitsIn(q.destination, DescriptionMax - 19) && FitsIn(q.source, DescriptionMax - 17)
  }

  /** `DescriptionsFit` holds exactly when both movement descriptions fit their columns. */
  lemma DescriptionsFitColumns(q: TransferRequest)
    ensures DescriptionsFit(q) <==>
              FitsIn(DebitDescription(q), DescriptionMax) && FitsIn(CreditDescription(q), DescriptionMax)
  {
    if q.description.None? {
      NarrowWidth("Transferência para ");
      NarrowWidth("Transferência de ");
      WidthConcat("Transferência para ", q.destination);
      WidthConcat("Transferência de ", q.source);
    }
  }

  /** The source query: an account with that IBAN owned by the caller. */
  function SourceOf(s: BankState, caller: Id, q: TransferRequest): Option<nat>
  {
    FindAccount(s.accounts, q.source, Some(caller))
  }

  /** The destination query: an account with that IBAN, whoever owns it. */
  function DestinationOf(s: BankState, q: TransferRequest): Option<nat>
  {
    FindAccount(s.accounts, q.destination, None)
  }

  /** How much the balance at position `k` changes when `v` moves from position `i` to `j`. */
  function Delta(k: nat, i: nat, j: nat, v: Money): Money
  {
    (if k == j then v else 0.0) - (if k == i then v else 0.0)
  }

  /**
   * The complete effect of a transfer of `q.amount` from position `i` to position `j`: every
   * balance moves by `Delta` and nothing else on any account changes; two movements, one
   * transfer record and two notifications are appended; no other table changes.
   */
  ghost predicate TransferPosted(s: BankState, s': BankState, caller: Id, q: TransferRequest, i: nat, j: nat, now: Time)
    requires i < |s.accounts| && j < |s.accounts|
  {
    && |s'.accounts| == |s.accounts|
    && (forall k :: 0 <= k < |s.accounts| ==>
          s'.accounts[k] == s.accounts[k].(balance := s.accounts[k].balance + Delta(k, i, j, q.amount)))
    && s'.movements == s.movements + [
         Movement(i + 1, Debit, q.amount, now, DebitDescription(q)),
         Movement(j + 1, Credit, q.amount, now, CreditDescription(q))]
    && s'.transfers == s.transfers + [Transfer(i + 1, j + 1, q.amount, now, q.description)]
    && s'.notifications == s.notifications + [
         Notice(caller, TransferSent(q.amount, q.destination), now),
         Notice(s.accounts[j].owner, TransferReceived(q.amount, q.source), now)]
    && s'.users == s.users && s'.payments == s.payments && s'.logs == s.logs && s'.grants == s.grants
  }

  /** Debit the source, credit the destination, and record everything in one save. */
  function Post(s: BankState, caller: Id, q: TransferRequest, i: nat, j: nat, now: Time): (s': BankState)
    requires i < |s.accounts| && j < |s.accounts|
    ensures TransferPosted(s, s', caller, q, i, j, now)
  {
    var src := s.accounts[i];
    var debited := s.accounts[i := src.(balance := src.balance - q.amount)];
    var dst := debited[j];
    var credited := debited[j := dst.(balance := dst.balance + q.amount)];
    s.(accounts := credited,
       movements := s.movements + [
         Movement(i + 1, Debit, q.amount, now, DebitDescription(q)),
         Movement(j + 1, Credit, q.amount, now, CreditDescription(q))],
       transfers := s.transfers + [Transfer(i + 1, j + 1, q.amount, now, q.description)],
       notifications := s.notifications + [
         Notice(caller, TransferSent(q.amount, q.destination), now),
         Notice(dst.owner, TransferReceived(q.amount, q.source), now)])
  }

  /**
   * `RealizarTransferencia`. The guards run in the controller's order and each refusal returns
   * before anything is written; a refusal carries no state, so the store is left as it was.
   */
  function Execute(s: BankState, caller: Id, q: TransferRequest, now: Time): (r: Result<BankState>)
    ensures !ValidTransferRequest(q) ==> r == Err(Invalid)
    ensures ValidTransferRequest(q) && SourceOf(s, caller, q).None? ==> r == Err(SourceNotFound)
    ensures (ValidTransferRequest(q) && SourceOf(s, caller, q).Some?
             && s.accounts[SourceOf(s, caller, q).value].state != Active) ==> r == Err(SourceInactive)
    ensures r.Ok? ==>
              && ValidTransferRequest(q)
              && SourceOf(s, caller, q).Some? && DestinationOf(s, q).Some?
              && var i, j := SourceOf(s, caller, q).value, DestinationOf(s, q).value;
              && s.accounts[i].owner == caller
              && s.accounts[i].iban == q.source && s.accounts[j].iban == q.destination
              && s.accounts[i].state == Active && s.accounts[j].state == Active
              && s.accounts[i].balance >= q.amount
              && DescriptionsFit(q)
              && TransferPosted(s, r.value, caller, q, i, j, now)
  {
    if !ValidTransferRequest(q) then Err(Invalid)
    else
      match SourceOf(s, caller, q)
      case None => Err(SourceNotFound)
      case Some(i) =>
        if s.accounts[i].state != Active then Err(SourceInactive)
        else
          match DestinationOf(s, q)
          case None => Err(DestinationNotFound)
          case Some(j) =>
            if s.accounts[j].state != Active then Err(DestinationInactive)
            else if s.accounts[i].balance < q.amount then Err(InsufficientFunds)
            else if !DescriptionsFit(q) then Err(StoreRejected)
            else Ok(Post(s, caller, q, i, j, now))
  }

  /** The remaining rungs of the ladder: destination, its state, funds, then the save. */
  lemma TransferRefusals(s: BankState, caller: Id, q: TransferRequest, now: Time)
    requires ValidTransferRequest(q) && SourceOf(s, caller, q).Some?
    requires s.accounts[SourceOf(s, caller, q).value].state == Active
    ensures DestinationOf(s, q).None? ==> Execute(s, caller, q, now) == Err(DestinationNotFound)
    ensures (DestinationOf(s, q).Some? && s.accounts[DestinationOf(s, q).value].state != Active)
              ==> Execute(s, caller, q, now) == Err(DestinationInactive)
    ensures DestinationOf(s, q).Some? && s.accounts[DestinationOf(s, q).value].state == Active ==>
              (Execute(s, caller, q, now) == Err(InsufficientFunds)
               <==> s.accounts[SourceOf(s, caller, q).value].balance < q.amount)
  {
  }

  /**
   * Funds are sufficient exactly when the balance covers the amount: a balance equal to the
   * amount succeeds and leaves the source (when distinct from the destination) at zero.
   */
  lemma TransferExactBalance(s: BankState, caller: Id, q: TransferRequest, now: Time)
    requires ValidTransferRequest(q) && DescriptionsFit(q)
    requires SourceOf(s, caller, q).Some? && DestinationOf(s, q).Some?
    requires s.accounts[SourceOf(s, caller, q).value].state == Active
    requires s.accounts[DestinationOf(s, q).value].state == Active
    ensures Execute(s, caller, q, now).Ok? <==> s.accounts[SourceOf(s, caller, q).value].balance >= q.amount
    ensures var i, j := SourceOf(s, caller, q).value, DestinationOf(s, q).value;
            s.accounts[i].balance == q.amount && i != j ==>
              Execute(s, caller, q, now).Ok? && Execute(s, caller, q, now).value.accounts[i].balance == 0.0
  {
  }

  /** Money is conserved: the two balances move by opposite amounts and the bank's total is unchanged. */
  lemma TransferConservesMoney(s: BankState, caller: Id, q: TransferRequest, now: Time)
    ensures var r := Execute(s, caller, q, now);
            r.Ok? ==>
              var i, j := SourceOf(s, caller, q).value, DestinationOf(s, q).value;
              && r.value.accounts[i].balance + r.value.accounts[j].balance
                 == s.accounts[i].balance + s.accounts[j].balance
              && TotalBalance(r.value.accounts) == TotalBalance(s.accounts)
  {
    var r := Execute(s, caller, q, now);
    if r.Ok? {
      PostedConservesMoney(s, r.value, caller, q, SourceOf(s, caller, q).value, DestinationOf(s, q).value, now);
    }
  }

  /** The balances a posted transfer leaves: debit `i` and credit `j`, total unchanged. */
  lemma PostedConservesMoney(s: BankState, s': BankState, caller: Id, q: TransferRequest, i: nat, j: nat, now: Time)
    requires i < |s.accounts| && j < |s.accounts|
    requires TransferPosted(s, s', caller, q, i, j, now)
    ensures s'.accounts[i].balance + s'.accounts[j].balance == s.accounts[i].balance + s.accounts[j].balance
    ensures TotalBalance(s'.accounts) == TotalBalance(s.accounts)
  {
    var src := s.accounts[i];
    var debited := s.accounts[i := src.(balance := src.balance - q.amount)];
    var dst := debited[j];
    var credited := debited[j := dst.(balance := dst.balance + q.amount)];
    assert s'.accounts == credited;
    SumByUpdate(s.accounts, i, src.(balance := src.balance - q.amount), Balance);
    SumByUpdate(debited, j, dst.(balance := dst.balance + q.amount), Balance);
  }

  /** A transfer never makes a balance negative. */
  lemma TransferKeepsBalancesNonNegative(s: BankState, caller: Id, q: TransferRequest, now: Time)
    requires BalancesNonNegative(s)
    ensures var r := Execute(s, caller, q, now);
            r.Ok? ==> BalancesNonNegative(r.value)
  {
  }

  /**
   * Transferring to the same IBAN is not refused: no balance changes, yet a debit and a credit
   * movement are still recorded.
   */
  lemma SelfTransfer(s: BankState, caller: Id, q: TransferRequest, now: Time)
    requires IbansUnique(s.accounts)
    requires q.source == q.destination
    ensures var r := Execute(s, caller, q, now);
            r.Ok? ==>
              && r.value.accounts == s.accounts
              && |r.value.movements| == |s.movements| + 2
              && r.value.movements[|s.movements|].kind == Debit
              && r.value.movements[|s.movements| + 1].kind == Credit
              && r.value.movements[|s.movements|].account == r.value.movements[|s.movements| + 1].account
  {
    var r := Execute(s, caller, q, now);
    if r.Ok? {
      var i, j := SourceOf(s, caller, q).value, DestinationOf(s, q).value;
      UniqueIbanLocates(s, q.source, i);
      assert i == j;
      assert forall k :: 0 <= k < |s.accounts| ==> r.value.accounts[k] == s.accounts[k];
    }
  }

  /** The ledger stays consistent: each balance is still the net of its movements. */
  lemma TransferKeepsLedger(s: BankState, caller: Id, q: TransferRequest, now: Time)
    requires Ledger(s.accounts, s.movements)
    ensures var r := Execute(s, caller, q, now);
            r.Ok? ==> Ledger(r.value.accounts, r.value.movements)
  {
    var r := Execute(s, caller, q, now);
    if r.Ok? {
      PostedKeepsLedger(s, r.value, caller, q, SourceOf(s, caller, q).value, DestinationOf(s, q).value, now);
    }
  }

  /** A posted transfer moves each balance by exactly what its two movements add to its net. */
  lemma PostedKeepsLedger(s: BankState, s': BankState, caller: Id, q: TransferRequest, i: nat, j: nat, now: Time)
    requires i < |s.accounts| && j < |s.accounts|
    requires TransferPosted(s, s', caller, q, i, j, now)
    requires Ledger(s.accounts, s.movements)
    ensures Ledger(s'.accounts, s'.movements)
  {
    var d := Movement(i + 1, Debit, q.amount, now, DebitDescription(q));
    var c := Movement(j + 1, Credit, q.amount, now, CreditDescription(q));
    assert s'.movements == (s.movements + [d]) + [c];
    forall k | 0 <= k < |s'.accounts|
      ensures s'.accounts[k].balance == Net(s'.movements, k + 1)
    {
      NetAppend(s.movements, d, k + 1);
      NetAppend(s.movements + [d], c, k + 1);
    }
  }

  /** A transfer keeps every account row valid and every IBAN unique. */
  lemma TransferKeepsAccountsOk(s: BankState, caller: Id, q: TransferRequest, now: Time)
    requires WellFormed(s)
    ensures var r := Execute(s, caller, q, now);
            r.Ok? ==> AccountsOk(r.value.accounts, |r.value.users|) && IbansUnique(r.value.accounts)
  {
    var r := Execute(s, caller, q, now);
    if r.Ok? {
      var s' := r.value;
      var j := DestinationOf(s, q).value;
      forall k | 0 <= k < |s'.accounts|
        ensures AccountRowOk(s'.accounts[k], |s'.users|) && AccountLifecycleOk(s'.accounts[k])
      {
        assert AccountRowOk(s.accounts[k], |s.users|) && AccountLifecycleOk(s.accounts[k]);
      }
      assert AccountRowOk(s.accounts[j], |s.users|);
    }
  }

  /** A transfer by an existing user keeps every table invariant. */
  lemma TransferPreservesWellFormed(s: BankState, caller: Id, q: TransferRequest, now: Time)
    requires WellFormed(s) && IsUser(s, caller)
    ensures var r := Execute(s, caller, q, now);
            r.Ok? ==> WellFormed(r.value)
  {
    var r := Execute(s, caller, q, now);
    if r.Ok? {
      var s' := r.value;
      TransferKeepsLedger(s, caller, q, now);
      TransferKeepsAccountsOk(s, caller, q, now);
      TransferKeepsMovementsOk(s, caller, q, now);
      TransferKeepsNotificationsOk(s, caller, q, now);
    }
  }

  /** The two movements and the transfer row a transfer appends name existing accounts. */
  lemma TransferKeepsMovementsOk(s: BankState, caller: Id, q: TransferRequest, now: Time)
    requires MovementsOk(s.movements, |s.accounts|) && TransfersOk(s.transfers, |s.accounts|)
    ensures var r := Execute(s, caller, q, now);
            r.Ok? ==>
              && MovementsOk(r.value.movements, |r.value.accounts|)
              && TransfersOk(r.value.transfers, |r.value.accounts|)
  {
    var r := Execute(s, caller, q, now);
    if r.Ok? {
      PostedRowsOk(s, r.value, caller, q, SourceOf(s, caller, q).value, DestinationOf(s, q).value, now);
    }
  }

  /** The rows a posted transfer appends meet their keys, minimum amounts and widths. */
  lemma PostedRowsOk(s: BankState, s': BankState, caller: Id, q: TransferRequest, i: nat, j: nat, now: Time)
    requires i < |s.accounts| && j < |s.accounts|
    requires TransferPosted(s, s', caller, q, i, j, now)
    requires ValidTransferRequest(q) && DescriptionsFit(q)
    requires MovementsOk(s.movements, |s.accounts|) && TransfersOk(s.transfers, |s.accounts|)
    ensures MovementsOk(s'.movements, |s'.accounts|) && TransfersOk(s'.transfers, |s'.accounts|)
  {
    var added := [
      Movement(i + 1, Debit, q.amount, now, DebitDescription(q)),
      Movement(j + 1, Credit, q.amount, now, CreditDescription(q))];
    DescriptionsFitColumns(q);
    assert MovementRowOk(added[0], |s.accounts|) && MovementRowOk(added[1], |s.accounts|);
    assert TransferRowOk(s'.transfers[|s.transfers|], |s.accounts|);
  }

  /** The two notices a transfer appends go to stored users. */
  lemma TransferKeepsNotificationsOk(s: BankState, caller: Id, q: TransferRequest, now: Time)
    requires IsUser(s, caller) && AccountsOk(s.accounts, |s.users|)
    requires NotificationsOk(s.notifications, |s.users|)
    ensures var r := Execute(s, caller, q, now);
            r.Ok? ==> NotificationsOk(r.value.notifications, |r.value.users|)
  {
    var r := Execute(s, caller, q, now);
    if r.Ok? {
      assert AccountRowOk(s.accounts[DestinationOf(s, q).value], |s.users|);
      assert NotificationsOk(r.value.notifications, |r.value.users|);
    }
  }

  /** Whether the caller owns the source or the destination account of a transfer. */
  predicate Involves(s: BankState, caller: Id, t: Transfer)
  {
    Owns(s, caller, t.source) || Owns(s, caller, t.destination)
  }

  function TransferDate(row: (nat, Transfer)): int
  {
    row.1.at
  }

  /** `GetTransferenciasUtilizador`: the transfers touching one of the caller's accounts, newest first. */
  function MyTransfers(s: BankState, caller: Id): (r: seq<(nat, Transfer)>)
    ensures forall row :: row in r <==> IsRow(s.transfers, row) && Involves(s, caller, row.1)
    ensures SortedDesc(r, TransferDate)
    ensures NoDuplicates(r)
  {
    Query(Indexed(s.transfers), (row: (nat, Transfer)) => Involves(s, caller, row.1), TransferDate)
  }
}
